=== FILE: README.md ===
# micro-signals, modelled in Dafny

A model of the in-process publish/subscribe engine of micro-signals, with
proofs about it. The repository keeps two generations of the same design side
by side. They are modelled as separate modules that never import each other.

**First generation: listener sets, tags and relays.**
- `Signal` (src/signal.ts) owns a listener set and a catcher set.
  - `dispatch` calls every listener in insertion order.
  - A listener's exception goes to every catcher.
  - A catcher's exception escapes `dispatch`.
  - An empty set calls the instance default listener, which at first forwards to the process-wide static one.
- `ExtendedSignal` (src/extended-signal.ts) adds a tag registry (src/tag-map.ts).
  - `remove(x)` takes out `x` and everything tagged with `x`.
  - `addOnce` installs a once-wrapper that is tagged with the listener it stands for.
- `convertedListenerSignal` builds relays: `filter`, `map`, `peek`, `reduce`, `readOnly` and `cache`. `merge` builds one too.
  - Each relay keeps its own map from a caller listener to the wrapper it installed upstream.
  - `remove` finds that exact wrapper again, so add-then-remove leaves the upstream sets as they were.
- Caches (src/caches.ts) are the array behind `cache`: `ValueCache` keeps the newest payload, `CollectionCache` keeps all of them.

**Second generation: bindings.**
- `add` on the `Signal` of src/micro-signals.ts returns a binding. Its `detach` removes exactly that registration.
- Read-only views, merges, filters and maps exist in two forms: classes and the `*Base` functions. Both forms build the same closures, so one `Readable` node type covers both.
- `promisifySignal` returns a promise. It is settled by whichever signal dispatches first, and the settling closure first detaches every binding of the promise.

**Modelling choices.**
- **Identity.** JavaScript compares listeners and tags by reference. Here every reference is a `Key`:
  - `User(n)` for a function or tag that client code passes in;
  - `Made(n)` for a closure the library allocates (once-wrappers, forwarding wrappers, cache recorders, promise settlers).
  - A `Made` key comes from a counter (`IdSource`, or `Closures.next`), which models "a new closure, distinct from every earlier one".
- **Sets.** A JavaScript `Set` keeps insertion order, and `forEach` follows it. It is modelled as a sequence without duplicates (`OrderedSets`).
- **Listener behaviour.** Listener and catcher bodies are not modelled.
  - In `Signal.dispatch`, whether a listener throws on a payload, and whether a catcher throws on an error, are function parameters.
  - The result is a log of calls and catches.
- **Closures of the second generation.** What a closure does is a `Behaviour` value recorded in the `Closures` runtime:
  - filter-then-call, or map-then-call;
  - detach-own-binding-then-call (once-wrappers);
  - detach-all-then-settle (promise settlers).
  - A closure only ever calls keys made before it, which is why calling a key (`Invoke`) terminates.
- **Closures of the first generation.** A `Table` maps each key the library made to what it is:
  - a once-wrapper of an extended signal, or a relay's forwarding wrapper;
  - a cache recorder, or a settler of `promisify`.
  - A `Hub` is a value holding every listener set, relay state, cache and promise state. `Perform` says what calling a key does to it.
  - `Signal.dispatch` runs the closures on the objects themselves and is proved to end as the pure `Dispatched` says. The properties of many dispatches are proved about `Dispatched`.
- **Dispatch over bindings.** A dispatch is modelled twice:
  - as a method on the signals' listener fields;
  - as a pure `Run` over a `World`, a value holding every listener set and promise state.
  - The method is proved equal to `Run`, and the properties are proved about `Run`.
- **Promises.** A host promise is a three-state object: `Pending`, `Resolved(v)` or `Rejected(r)`. Only the first resolve or reject changes it.

## Model

| member | source | states |
|---|---|---|
| Common.IdSource.Fresh | src/extended-signal.ts:69-72 | a new closure identity: never handed out before the call, taken after it |
| Common.Promise.constructor | src/promisify-signal.ts:7 | a new promise is pending |
| Common.Promise.Resolve | src/promisify-signal.ts:17 | `resolve(v)` settles a pending promise with `v`; a settled promise keeps its state |
| Common.Promise.Reject | src/promisify-signal.ts:12 | `reject(r)` settles a pending promise with `r`; a settled promise keeps its state |
| OrderedSets.Insert | src/signal.ts:19-21 | `Set.add`: the members become the old ones plus `x`; a new member goes last; adding a member already present changes nothing; no duplicates appear |
| OrderedSets.Delete | src/signal.ts:25-27 | `Set.delete`: exactly `x` leaves; deleting a non-member changes nothing; in a set without duplicates the gap left by `x` closes and the rest keep their order; no duplicates appear |
| OrderedSets.DeleteAll | src/micro-signals.ts:11 | the members left are exactly those outside the deleted set, in the old order, never more than before |
| OrderedSets.DeleteAllTwice | src/micro-signals.ts:11 | deleting `xs` and then `ys` is deleting both, so a second delete of the same keys finds nothing |
| OrderedSets.InsertThenDelete | src/micro-signals.ts:8-13 | adding a new member and deleting it again restores the set, order included |
| OrderedSets.InsertAll | src/merged-signal.ts:9 | adding each of `xs` in order keeps the old members as a prefix; every later member comes from `xs`; no duplicates appear |
| OrderedSets.InsertAllAppend | src/promisify-signal.ts:9-18 | adding `a` and then `b` is adding `a + b` |
| OrderedSets.InsertAllThenDelete | src/base-signals.ts:36-38 | adding keys that were all new and then deleting them restores the original set |
| Caches.ValueCacheKeepsLast | src/caches.ts:11-15 | after any sequence of `add`s a ValueCache holds only the last value, or nothing if there was no add |
| Caches.CollectionCacheKeepsAll | src/caches.ts:17-21 | after any sequence of `add`s a CollectionCache holds every value, oldest first |
| Caches.ArrayCache.constructor | src/caches.ts:3-4 | a fresh cache holds nothing |
| Caches.ArrayCache.Add | src/caches.ts:11-20 | `add(v)` replaces the array with `[v]` (ValueCache) or appends `v` (CollectionCache); a ValueCache never holds more than one value |
| Caches.ArrayCache.ForEach | src/caches.ts:6-8 | the callback receives exactly the stored values in array order, and the array is not modified |
| ListenerSets.ListenerSet.constructor | src/signal.ts:14-15 | a new signal has no listeners and no catchers |
| ListenerSets.ListenerSet.Add | src/signal.ts:19-21 | the `add` closure inserts into the listener set, a present listener stays put, the catchers are untouched |
| ListenerSets.ListenerSet.Remove | src/signal.ts:25-27 | the `remove` closure deletes from the listener set; an absent listener changes nothing; the catchers are untouched |
| ListenerSets.ListenerSet.Catch | src/signal.ts:22-24 | `catch` inserts into the catcher set only |
| ListenerSets.ListenerSet.RemoveCatcher | src/signal.ts:28-30 | `removeCatcher` deletes from the catcher set only; an absent catcher changes nothing |
| Signals.StaticDefault.constructor | src/signal.ts:10-12 | the static default listener starts as the built-in no-op |
| Signals.StaticDefault.SetDefaultListener | src/signal.ts:6-8 | the static `setDefaultListener` replaces the static default; the last write wins |
| Signals.Signal.constructor | src/signal.ts:14-32 | empty listener and catcher sets are the base of the extended signal; the instance default forwards to the static one |
| Signals.Signal.SetDefaultListener | src/signal.ts:52-57 | the instance `setDefaultListener` replaces the instance default, so the static one no longer applies; the last write wins |
| Signals.Signal.Dispatch | src/signal.ts:34-50 | an empty set calls only the effective default, once. Otherwise the run and every signal, relay, cache and promise end as `Dispatched` says over the listeners the set held when the dispatch began; the catchers are unchanged |
| Signals.DispatchLoop | src/signal.ts:40-49 | the `forEach` loop leaves the objects as `Dispatched` says and returns its run; no catcher set changes |
| Signals.TakeTurn | src/signal.ts:40-48 | one entry's turn, as `Next` says: skipped once a catcher's exception escaped or once the entry has left the set; otherwise invoked, its closure run on the objects |
| Signals.VisitEach | src/signal.ts:41-48 | the listener calls of one invoked key carried out as `Visit` says |
| Signals.CatchEach | src/signal.ts:44-47 | the nested loop gives the error to the catchers in order, until one throws, as `CatchAll` says |
| Signals.CatchAllNoThrow | src/signal.ts:44-47 | when no catcher throws, every catcher receives the error, in insertion order |
| Signals.CatchAllStops | src/signal.ts:44-47 | once a catcher has thrown, no later catcher is called |
| Signals.CatchAllEscape | src/signal.ts:44-47 | an escaping exception comes from a catcher of the set that threw on this error, and is the last event |
| Signals.VisitStops | src/signal.ts:41-48 | once a listener has thrown, nothing else happens in that key's call |
| Signals.VisitEscape | src/signal.ts:43-47 | an exception escapes a key's call only from a catcher of the set that threw on the error of a listener that threw, as the last event |
| Signals.NoThrowNoEscape | src/signal.ts:41-48 | nothing escapes a key's call in which no listener threw |
| Signals.VisitNoEscape | src/signal.ts:44-47 | with no throwing catcher, nothing escapes a key's call |
| Signals.DispatchedStops | src/signal.ts:40-49 | once an exception has escaped, no later entry is invoked and the hub stays as it was |
| Signals.DispatchedEscape | src/signal.ts:44-47 | when dispatch ends by an exception, the last event is a catcher of the set throwing on the error of a listener that threw |
| Signals.DispatchedInvoked | src/signal.ts:40 | only entries the set held when the dispatch began and still holds at their turn are invoked, in insertion order, none twice |
| Signals.DispatchedReaches | src/signal.ts:40-49 | with no throwing catcher nothing escapes; every client listener and recorder in the set is invoked; each client listener is called with the payload; each error reaches every catcher |
| Signals.DispatchedFollows | src/signal.ts:34-50 | a dispatch only removes set members and relay entries, keeps every wrapper's listener, and never unsettles a promise |
| Signals.DispatchedTidy | src/signal.ts:34-50 | a dispatch keeps the invariant `Tidy` of the library's registrations |
| Signals.DispatchedSpares | src/signal.ts:40-49 | no dispatch removes a client listener or a cache recorder from any set |
| Signals.DispatchedSpends | src/extended-signal.ts:69-72 | an invoked entry that spends itself is in no set afterwards: a once-wrapper, a settler, or a relay wrapper that let a payload through to its once-wrapper |
| Signals.AfterTidy | src/signal.ts:34-50 | any sequence of dispatches, on any signals, keeps `Tidy` |
| Signals.AfterFollows | src/signal.ts:34-50 | each hub in a sequence of dispatches follows every earlier one |
| Signals.FiresOnce | src/extended-signal.ts:63-75 | an entry that spends itself is invoked by at most one dispatch: no later dispatch of any signal invokes it again |
| Signals.SettledStays | src/extended-signal.ts:24-46 | a promise `promisify` settled keeps its settlement through every later dispatch |
| Signals.PerformRecords | src/extended-signal.ts:128 | a call leaves a cache alone unless it is that cache's recorder, which appends the payload |
| Signals.PerformCharges | src/extended-signal.ts:106-117 | a call moves a relay wrapper's accumulator on by its conversion when it is that wrapper's call, and leaves it alone otherwise |
| Signals.DispatchedCharges | src/extended-signal.ts:106-117 | during one dispatch a relay wrapper's accumulator moves on once if the wrapper was invoked, and is untouched otherwise |
| Signals.AfterAccumulates | src/extended-signal.ts:153-158 | on a `Tidy` hub, after any sequence of dispatches, a relay wrapper keeps its listener and holds the accumulator its conversion reaches over exactly the payloads of the dispatches that invoked it (`Invocations`) |
| Signals.NextCallDelivers | src/extended-signal.ts:146-158 | on a `Tidy` hub, after any sequence of dispatches, the next call of a relay wrapper produces the next piece of its `Stream` over the payloads it has been called with, once-listeners replaced by their once-wrappers |
| Signals.ReduceCallDelivers | src/extended-signal.ts:106-117 | on a `Tidy` hub, after any sequence of dispatches, the next call of a reduce wrapper hands its listener the fold of the step over every payload it has been called with, this one included |
| Signals.DispatchedRecords | src/extended-signal.ts:127-128 | during one dispatch a cache with one recorder records the payload once if that recorder was invoked, and is untouched otherwise |
| Signals.CacheKeepsUp | src/extended-signal.ts:127-128 | on a `Tidy` hub with no throwing catcher, a cache whose only recorder is in the dispatched set records the payload |
| Signals.PromisifyOneSignal | src/extended-signal.ts:20-47 | `promisify(s, s)`: the first dispatch invokes only `completeResolution`, which empties `s`, so `completeRejection` is skipped; the promise resolves with the payload |
| Signals.FilterRejects | src/extended-signal.ts:78-87 | a filter relay's wrapper given a payload the filter rejects calls nobody and changes nothing |
| Signals.FilterAccepts | src/extended-signal.ts:63-87 | given a kept payload, it calls the once-wrapper, which removes itself from the relay, taking the wrapper out of the source set, and then calls `l` |
| Signals.NewFiltered | src/extended-signal.ts:78-87 | `new Signal().filter(keep)`: a relay over the new signal's empty set, with an empty map and registry |
| Signals.FilteredOnceSetup | src/extended-signal.ts:63-87 | then `addOnce(l)` on the filtered signal: the source set holds the relay's wrapper, which the relay maps from the once-wrapper of `l` |
| Signals.FilteredOnce | test/suites/filtered-suite.ts:43-57 | on those signals the first dispatch of a kept payload calls `l` once and leaves the source set and the relay's map empty, so later dispatches call only the default |
| Wiring.PerformFollows | src/signal.ts:40-49 | a call of any key only removes set members and relay entries, keeps every wrapper's listener, and never unsettles a promise |
| Wiring.RemovedDeletes | src/extended-signal.ts:163-170 | `remove(l)` takes out of a set only `l` itself (own base) or the wrapper its relay maps `l` to (relay) |
| Wiring.RemovedTidy | src/extended-signal.ts:163-170 | removal keeps `Tidy`: no duplicates, closures only in the sets they were added to, relay entries naming their own wrappers, a live wrapper serving a once-wrapper still mapped from it |
| Wiring.ChargedTidy | src/extended-signal.ts:106-117 | keeping a wrapper's new accumulator keeps `Tidy` |
| Wiring.RecordedTidy | src/extended-signal.ts:128 | a recorder's call keeps `Tidy` |
| Wiring.SettledTidy | src/extended-signal.ts:25-40 | a settler's call keeps `Tidy` |
| Wiring.PerformTidy | src/signal.ts:40-49 | a call of any key keeps `Tidy` |
| Wiring.PerformSpares | src/signal.ts:19-27 | no call removes a client listener or a cache recorder from any set |
| Wiring.PerformSpends | src/extended-signal.ts:69-72 | calling a once-wrapper, a settler, or a relay wrapper that lets a payload through to its once-wrapper takes that key out of every set |
| Wiring.Invoke | src/signal.ts:42 | calling a key on the objects: they end as `Perform` says, the listener calls are its effects, and no catcher set changes |
| Wiring.RemoveVia | src/extended-signal.ts:163-170 | `remove(l)` on the objects gives `Removed`: an own base deletes `l`; a relay deletes its wrapper upstream and forgets `l` |
| Wiring.ForwardVia | src/extended-signal.ts:78-126 | a relay wrapper's call on the objects gives `Fired`: the conversion runs, and a once-wrapper it calls first removes itself |
| Wiring.AdvanceVia | src/extended-signal.ts:106-117 | the conversion runs on the wrapper's accumulator, kept on the relay |
| Wiring.RecordVia | src/extended-signal.ts:128 | the recorder's call on the cache gives `Recorded` |
| Wiring.SettleVia | src/extended-signal.ts:32-40 | a settler's call on the signals and the promise gives `Settled` |
| Wiring.ResolveVia | src/extended-signal.ts:37-40 | `completeResolution(p)`: both settlers leave their signals, then a pending promise resolves with `p` |
| Wiring.RejectVia | src/extended-signal.ts:32-35 | `completeRejection(p)`: both settlers leave their signals, then a pending promise rejects with `p` |
| TagMapping.AssociateMerges | src/tag-map.ts:7-14 | `setHandlers(thing, tags)` gives the thing its old tags plus the new ones, never fewer |
| TagMapping.AssociateLinks | src/tag-map.ts:8-13 | after `setHandlers` each given tag lists the thing; every other tag's set and every other thing's tags are unchanged |
| TagMapping.AssociateValid | src/tag-map.ts:6-15 | `setHandlers` keeps the two maps mirrored (`x ∈ getThings(t) ⟺ t ∈ getTags(x)`) and leaves no empty tag |
| TagMapping.ForgetClears | src/tag-map.ts:25-35 | after `clearThing(h)`, `getTags(h)` is empty and `h` is in no tag's set; every tag loses only `h` |
| TagMapping.ForgetKeepsOthers | src/tag-map.ts:25-35 | `clearThing(h)` leaves every other thing's tags unchanged |
| TagMapping.ForgetValid | src/tag-map.ts:31-33 | `clearThing` keeps the maps mirrored and deletes a tag whose set becomes empty |
| TagMapping.TagMap.constructor | src/tag-map.ts:3-4 | both maps start empty |
| TagMapping.TagMap.SetHandlers | src/tag-map.ts:6-15 | the loop over `tags` leaves the maps equal to `Associate` of the old maps |
| TagMapping.TagMap.GetThings | src/tag-map.ts:17-19 | the things of a tag; an unknown tag gives the empty set |
| TagMapping.TagMap.GetTags | src/tag-map.ts:21-23 | the tags of a thing; an unknown thing gives the empty set |
| TagMapping.TagMap.ClearThing | src/tag-map.ts:25-35 | the loop over the thing's tags leaves the maps equal to `Forget` of the old maps |
| ExtendedSignals.FilterStream | src/extended-signal.ts:78-87 | over successive calls of one wrapper, a filtered listener receives exactly the accepted payloads, in order |
| ExtendedSignals.MapStream | src/extended-signal.ts:88-93 | a mapped listener receives `transform(p)` for every payload, in order |
| ExtendedSignals.IdentityStream | src/extended-signal.ts:100-105 | a readOnly, merge or cache wrapper forwards every payload unchanged |
| ExtendedSignals.PeekStream | src/extended-signal.ts:118-126 | for each payload, the side effect sees it and then the listener receives it unchanged |
| ExtendedSignals.ReduceStream | src/extended-signal.ts:106-117 | at the k-th call of its wrapper a reduced listener receives the fold of the wrapper's accumulator over the first k payloads |
| ExtendedSignals.StreamSnoc | src/extended-signal.ts:78-126 | one more call of a wrapper appends its conversion's effects, run on the accumulator the earlier calls reached, to the stream, and moves that accumulator on |
| ExtendedSignals.ReduceAccumulated | src/extended-signal.ts:106-117 | a reduce wrapper's accumulator after calls with `ps` is the fold of the step over `ps` |
| ExtendedSignals.DetachedTwice | src/extended-signal.ts:54-62 | removing one set of listeners and then another is removing both |
| ExtendedSignals.DetachAbsent | src/extended-signal.ts:163-170 | removing a caller listener that was never added changes nothing upstream or in the relay's map |
| ExtendedSignals.AddThenRemoveRestores | src/extended-signal.ts:153-170 | `add(l)` then `remove(l)` on any base restores every upstream set and the relay's map: the wrapper installed is the one removed |
| ExtendedSignals.Base.constructor | src/extended-signal.ts:148-154 | a relay starts with an empty listener map over the given upstream sets |
| ExtendedSignals.Base.InsertUpstream | src/extended-signal.ts:11 | `signals.forEach(signal => signal.add(k))`: every upstream set gains `k` |
| ExtendedSignals.Base.DeleteUpstream | src/extended-signal.ts:16 | every upstream set loses `k`, and nothing else changes |
| ExtendedSignals.Base.Remove | src/extended-signal.ts:163-170 | `remove(l)` deletes the map entry and removes exactly the wrapper mapped to `l` upstream; an unmapped `l` changes nothing |
| ExtendedSignals.Base.Add | src/extended-signal.ts:155-162 | an own base inserts `l`. A relay maps `l` to a fresh wrapper, inserts the wrapper upstream and replays the cache. The state is `AfterAdd` |
| ExtendedSignals.Base.AddRelay | src/extended-signal.ts:155-161 | the relay half of `add`: one fresh wrapper, mapped, inserted upstream, then replayed to |
| ExtendedSignals.Base.Replay | src/extended-signal.ts:133-139 | the new listener receives every cached payload in order. A once-wrapper receives only the first, because it has removed itself and `listenerActive()` is then false |
| ExtendedSignals.Base.Advance | src/extended-signal.ts:106-117 | a wrapper's conversion runs on its own accumulator, which keeps the result; nothing else in the relay changes |
| ExtendedSignals.Base.Record | src/extended-signal.ts:128 | the recorder closure stores each source dispatch in the cache |
| ExtendedSignals.OnceTagged | src/extended-signal.ts:73 | a once-wrapper is tagged with its listener and every given tag, so `remove(l)` or `remove(tag)` reaches it |
| ExtendedSignals.ExtendedSignal.constructor | src/extended-signal.ts:48-49 | a new extended signal has an empty tag registry over the given base |
| ExtendedSignals.ExtendedSignal.Add | src/extended-signal.ts:50-53 | `add(l, ...tags)` tags `l` (setHandlers) and then adds it to the base |
| ExtendedSignals.ExtendedSignal.Remove | src/extended-signal.ts:54-62 | `remove(x)` removes `x` and every thing tagged with `x` from the base, and clears all their tags; other things keep their tags |
| ExtendedSignals.ExtendedSignal.Unregister | src/extended-signal.ts:57-58 | one thing removed from the base and cleared from the registry |
| ExtendedSignals.ExtendedSignal.AddOnce | src/extended-signal.ts:63-75 | a no-op while something is tagged with `l`. Otherwise a fresh once-wrapper is tagged with `l` and the tags, and added to the base |
| ExtendedSignals.ExtendedSignal.AddWrapper | src/extended-signal.ts:69-74 | the once-wrapper is made, recorded with the listener it calls, tagged and added |
| ExtendedSignals.ExtendedSignal.Derive | src/extended-signal.ts:148-154 | `convertedListenerSignal` makes a new relay over this signal's upstream sets, with an empty map and no tags |
| ExtendedSignals.ExtendedSignal.Filter | src/extended-signal.ts:78-87 | `filter` is a relay whose conversion is the predicate, over this signal's own set, with an empty listener map, no once-wrappers and a fresh, empty tag registry |
| ExtendedSignals.ExtendedSignal.Map | src/extended-signal.ts:88-93 | `map` is a relay whose conversion is the transform, over this signal's own set, with an empty listener map, no once-wrappers and a fresh, empty tag registry |
| ExtendedSignals.ExtendedSignal.ReadOnly | src/extended-signal.ts:100-105 | `readOnly` is an identity relay, over this signal's own set, with an empty listener map, no once-wrappers and a fresh, empty tag registry |
| ExtendedSignals.ExtendedSignal.Reduce | src/extended-signal.ts:106-117 | `reduce` is a relay with a per-wrapper accumulator seeded by `initialValue`, over this signal's own set, with an empty listener map, no once-wrappers and a fresh, empty tag registry |
| ExtendedSignals.ExtendedSignal.Peek | src/extended-signal.ts:118-126 | `peek` is a relay that runs the side effect first, over this signal's own set, with an empty listener map, no once-wrappers and a fresh, empty tag registry |
| ExtendedSignals.ExtendedSignal.Cache | src/extended-signal.ts:127-141 | `cache` adds a fresh recorder to the source at once, and returns an identity relay that replays the cache, with an empty listener map, no once-wrappers and a fresh, empty tag registry |
| ExtendedSignals.ExtendedSignal.Merge | src/extended-signal.ts:94-96 | the instance `merge` is the static one with this signal's own set first: an identity relay with an empty listener map, no once-wrappers and a fresh, empty tag registry |
| ExtendedSignals.ExtendedSignal.AddThenRemove | src/extended-signal.ts:153-170 | no leak: `add(l, ...tags)` then `remove(l)` leaves every upstream listener set, the relay's map and the tag registry as they were |
| ExtendedSignals.MergeSignals | src/extended-signal.ts:5-19 | the static `merge` is an identity relay over all given signals, with an empty listener map |
| ExtendedSignals.RemoveUnknown | src/extended-signal.ts:54-62 | removing a key that was never registered and tags nothing changes nothing |
| ExtendedSignals.Promisified.constructor | src/extended-signal.ts:20-47 | the executor adds `completeResolution` to the resolve signal and then `completeRejection` to the reject signal; the promise is pending |
| ExtendedSignals.Promisified.ClearListeners | src/extended-signal.ts:25-30 | `clearListeners` removes both closures from the signals that hold them, and nothing else |
| ExtendedSignals.Promisified.CompleteResolution | src/extended-signal.ts:37-40 | clears both closures, then resolves a pending promise with the payload |
| ExtendedSignals.Promisified.CompleteRejection | src/extended-signal.ts:32-35 | clears both closures, then rejects a pending promise with the payload |
| MicroSignals.KeysOnElsewhere | src/micro-signals.ts:11 | a binding detaches nothing from a signal it does not name |
| MicroSignals.MicroSignal.constructor | src/micro-signals.ts:6 | a new signal has no listeners |
| MicroSignals.MicroSignal.Add | src/micro-signals.ts:8-13 | `add(l)` is a set insertion, so adding again adds nothing; the binding detaches exactly `l` from this signal |
| MicroSignals.MicroSignal.AddOnce | src/micro-signals.ts:15-21 | `addOnce(l)` adds a fresh wrapper that detaches its own binding and then calls `l`; that binding is returned |
| MicroSignals.MicroSignal.Dispatch | src/micro-signals.ts:23-25 | the loop equals `Run`: each listener of the set, in order, is called with the payload unless an earlier call detached it |
| MicroSignals.MicroSignal.Delete | src/micro-signals.ts:11 | the body of `detach`: exactly that listener leaves the set |
| MicroSignals.DetachBinding | src/merged-signal.ts:10-14 | `detach()` removes from each signal exactly the keys the binding put there, and nothing else |
| MicroSignals.DetachParts | src/merged-signal.ts:11-13 | `bindings.forEach(binding => binding.detach())`: after the loop, every signal has lost exactly the keys of all the parts |
| MicroSignals.Closures.Fresh | src/micro-signals.ts:16-19 | a new closure object, distinct from every key known so far |
| MicroSignals.Perform | src/micro-signals.ts:24 | carrying out the steps of one call changes the signals and promises as `ApplyAll` says |
| MicroSignals.PerformUnbind | src/micro-signals.ts:17 | `binding.detach()` run by a closure is `Unbound` on the world |
| MicroSignals.PerformSettled | src/promisify-signal.ts:11-17 | `resolve`/`reject` run by a closure settle a pending promise; a settled one ignores it |
| MicroSignals.UnboundTwice | src/micro-signals.ts:11 | detaching a binding a second time changes nothing |
| MicroSignals.ApplyAllShrinks | src/micro-signals.ts:23-25 | what calls do during a dispatch only removes listeners; no signal leaves the world |
| MicroSignals.RunShrinks | src/micro-signals.ts:23-25 | a whole dispatch only removes listeners |
| MicroSignals.RunUnbindsOnce | src/micro-signals.ts:15-21 | a once-binding is detached at most once per dispatch. After that none of its keys remains; if none was registered, it is never detached |
| MicroSignals.WellMadeSparesUsers | src/micro-signals.ts:15-21 | every binding a library closure holds detaches only closures, never a user's listener |
| MicroSignals.RunCallsUsers | src/micro-signals.ts:23-25 | with the closures the runtime keeps, a dispatch calls every user listener registered when it began, with the payload, and removes none of them |
| MicroSignals.SeriesShrinks | src/micro-signals.ts:23-25 | any sequence of dispatches only removes listeners |
| MicroSignals.SeriesUnbindsOnce | src/micro-signals.ts:15-25 | over any sequence of dispatches a once-binding is detached at most once in total; once it is, none of its keys is left on any signal |
| MicroSignals.ChainInvoke | src/base-signals.ts:3-27 | calling the head of a chain of filter and map wrappers calls its end with what flows through, or nothing |
| Readables.FilteredSignal | src/filtered-signal.ts:8-11 | the default filter of `FilteredSignal` accepts every payload |
| Readables.Add | src/base-signals.ts:3-50 | `add(l)` on any readable. Each micro signal underneath gains the binding's keys, one per route, and each heads the route's filters and maps ending in `l`. All other keys are fresh wrappers |
| Readables.AddMicro | src/micro-signals.ts:8-13 | `add` on a micro signal puts `l` itself there |
| Readables.AddReadOnly | src/base-signals.ts:44-50 | `readOnlyBase.add` and `ReadOnlySignal.add` hand `l` unchanged to the wrapped signal and return its binding |
| Readables.Wrap | src/filtered-signal.ts:22-28 | `filteredListener(l, filter)` or the mapping closure: a fresh key whose chain is one stage ending in `l` |
| Readables.AddWrapped | src/filtered-signal.ts:13-15 | filtered and mapped `add`: the inner `add` of a fresh wrapper, whose binding is returned; every route gains the stage |
| Readables.AddEach | src/merged-signal.ts:8-15 | merged `add`: `l` is added to every source in turn, and the binding combines theirs |
| Readables.AddNext | src/merged-signal.ts:9 | one source of the merge receives `l` |
| Readables.AddOnce | src/micro-signals.ts:15-21 | `addOnce(l)` on any readable. One fresh once-wrapper holds the returned binding and reaches `l` through the filters and maps above it. Every key of the binding heads a chain ending in the wrapper |
| Readables.AddOnceMicro | src/micro-signals.ts:15-21 | `addOnce` on a micro signal |
| Readables.AddOnceReadOnly | src/micro-signals.ts:32-35 | `ReadOnlySignal.addOnce` is the wrapped signal's `addOnce` |
| Readables.AddOnceWrapped | src/filtered-signal.ts:17-19 | filtered and mapped `addOnce` hand their own wrapper to the inner `addOnce` |
| Readables.AddOnceMerged | src/merged-signal.ts:16-22 | merged `addOnce`: one fresh wrapper is added to every source; it detaches the combined binding, then calls `l` |
| Delivery.RoutesReach | src/merged-signal.ts:8-9 | every micro signal under a readable has at least one route from it |
| Delivery.AddKeyInvoke | src/base-signals.ts:3-27 | calling the j-th key `add(l)` put on a signal runs the j-th route's filters and maps, then calls `l` unless a filter dropped the payload |
| Delivery.FilteredForwards | src/filtered-signal.ts:22-28 | a filtered readable forwards what its inner route delivers if and only if the filter holds |
| Delivery.MappedForwards | src/mapped-signal.ts:6-8 | a mapped readable forwards `transform` of what its inner route delivers |
| Delivery.FilteredMicro | src/base-signals.ts:8-14 | a filter over a micro signal: its one key calls `l` with `p` exactly when `filter(p)` |
| Delivery.MappedMicro | src/base-signals.ts:22-26 | a map over a micro signal: its one key calls `l` with `transform(p)` |
| Delivery.MergedAddsListener | src/base-signals.ts:33-34 | `add(l)` on a merge of distinct micro signals puts `l` itself, once, on every source |
| Delivery.DetachRestores | src/base-signals.ts:36-38 | detaching the binding of `add(l)` gives every signal underneath exactly its earlier listeners, and touches no other signal |
| Delivery.AddThenDetach | src/merged-signal.ts:8-15 | no leak: `add(l)` then `detach()` leaves every listener set under the readable as it was |
| Delivery.DetachAdded | src/merged-signal.ts:10-14 | the `detach()` of an `add` binding restores the listener sets from before the `add` |
| Delivery.OnceKeyInvoke | src/micro-signals.ts:16-19 | a key of an `addOnce` binding that lets the payload through first detaches the binding, then runs the rest of the chain to `l` |
| Delivery.FilteredOnceEnds | src/filtered-signal.ts:17-19 | filtered `addOnce` ends at the first dispatch whether or not the filter passes; `l` is called only if it passes |
| Delivery.AddOnceFiresOnce | src/merged-signal.ts:16-22 | an `addOnce` wrapper on any readable fires once in total: over any sequence of dispatches, each on a signal under the readable, its binding is detached at most once |
| Promisify.Register | src/promisify-signal.ts:15-18 | `signal.add(settler)` for a fresh settling closure: the closures stay well made, and the binding's keys are fresh and route to the settler |
| Promisify.RegisterWithin | src/promisify-signal.ts:9-18 | one `bindings.push(signal.add(...))`: the watched signals hold the keys of all bindings so far, all made during the executor |
| Promisify.PromisifySignal | src/promisify-signal.ts:3-20 | a fresh pending promise. One binding per signal, the reject binding first. Each signal routes to its settling closure, made in that order, and both closures hold the same bindings array. The watched signals gain only those keys |
| Promisify.Executor | src/promisify-signal.ts:7-19 | the executor binds both signals, then records the two settling closures over the final array |
| Promisify.BindBoth | src/promisify-signal.ts:8-18 | the `add` calls in source order: the reject signal first (when given), then the resolve signal |
| Promisify.BindReject | src/promisify-signal.ts:9-14 | with a reject signal, its `add` comes first: one binding routes that signal to a fresh settling closure. Without one, nothing is bound |
| Promisify.BindResolve | src/promisify-signal.ts:15-18 | the resolve signal's `add` is pushed after the earlier bindings. Its fresh closure is reached from every signal under it, and the reject routes stay intact |
| Promisify.Settlers | src/promisify-signal.ts:10-17 | each settling closure detaches every binding, then resolves (resolve signal) or rejects (reject signal) the same promise |
| Promisify.ApplyClears | src/promisify-signal.ts:22-24 | detaching each binding in turn equals detaching them all at once |
| Promisify.SettleFirst | src/promisify-signal.ts:10-17 | calling a settling closure detaches all bindings, then settles a pending promise with the payload |
| Promisify.SettledStays | src/promisify-signal.ts:11-17 | once settled, a promise keeps its outcome whatever happens next |
| Promisify.FirstSettlerWins | src/promisify-signal.ts:10-17 | whichever closure fires first decides the promise with its own payload; the other firing later changes nothing |
| Promisify.ClearRestores | src/promisify-signal.ts:22-24 | detaching the bindings gives every watched signal back exactly the listeners it had before `promisifySignal` |
| Promisify.FirstSettlement | src/promisify-signal.ts:10-17 | the first firing leaves no listener of the promise on either source, touches no other signal, and resolves or rejects with the payload |
| Promisify.ClearBindings | src/promisify-signal.ts:22-24 | `clearBindings`: every signal loses exactly the keys of the bindings |

## Left out

- The host `Promise` and its scheduler. A promise is a three-state object, the executor runs synchronously, and `then` callbacks are not modelled.
- Listener and catcher bodies are not modelled. Reentrant calls from inside them (a listener that adds, removes or dispatches) are not modelled.
  - A JavaScript `Set.forEach` visits the live set: an entry deleted before its turn is skipped, and one added during the loop is visited. The model skips deleted entries. It does not model additions, which only a client listener could make.
  - The catchers are iterated live too. No library closure changes them, and the model proves every catcher set unchanged.
- In the first generation, a listener that throws is a parameter of `Signal.dispatch`. In the second generation, listeners do not throw. An exception there, which would end `dispatch` early, is not modelled.
- WeakMap garbage collection in src/tag-map.ts: the maps are ordinary finite maps.
- Payload types. Payloads are one carrier type (`int`), and the type-guard overload of `filter` is typing only.
- src/interfaces.ts, src/interfaces/signal-like.ts, src/signal-classes.ts and src/read-only-signal.ts are not part of this model: they are typings and thin re-bindings.
- The tests' file-system helpers and the leak-detection helper signal are not part of this model. Listener sets are visible fields instead.
- ExtendedSignals.ExtendedSignal.Derive: relays are modelled one level deep.
  - `filter`, `map`, `peek`, `reduce`, `readOnly`, `cache` and the instance `merge` are modelled on a plain signal, whose base is its own listener set.
  - A combinator applied to a derived signal, i.e. a relay over a relay, is not modelled.
- ExtendedSignals.MergeSignals: the merged signals are plain signals' listener sets, not arbitrary bases.
- ExtendedSignals.Promisified: the signals of the first-generation `promisify` are plain signals' listener sets, not relays.
- Two known limitations are modelled as written, and nothing is proved that they would break:
  - Adding the same listener twice to a relay overwrites its `listenerMap` entry, leaving the first wrapper upstream. `AddThenRemove` therefore requires a listener that is not yet registered.
  - A once-wrapper that has fired keeps its tag association, so a later `addOnce(l)` is a no-op (`ExtendedSignal.AddOnce` models exactly that).
- `remove(tag)` iterates the registry's live set while `clearThing` deletes from it. The model iterates the set as it was at the start. This is equivalent, because only the entry being visited is deleted.
- Promisify.PromisifySignal: states what the closures will do when called, not the dispatches that call them. The settling behaviour is proved separately about a call of a settling closure (`SettleFirst`, `FirstSettlement`, `FirstSettlerWins`), not about a dispatch of the watched signal that makes that call.
- ExtendedSignals.FilterStream, ExtendedSignals.ReduceStream: they are about successive calls of one wrapper. Over dispatches, the model proves that each call of a relay wrapper produces the next piece of that stream (`NextCallDelivers`, `ReduceCallDelivers`) and which dispatches called it (`Invocations`). It does not prove that the events of a whole dispatch sequence, in the log, equal the stream.
- ExtendedSignals.Base.Replay: the replay always completes. A listener that throws during the replay would end `add` or `addOnce` after the wrapper is mapped and inserted upstream, and the later cached payloads would not be replayed; that path is not modelled.
- A `peek` callback, a `filter` predicate, a `map` transform and a `reduce` step never throw in the model: they are total functions, and the peek callback is an event in the log. In the source each runs unguarded inside the relay wrapper, so its exception would reach the upstream set's catchers; that path is not modelled. Only client listeners and catchers throw.
- Signals.FiresOnce, Signals.DispatchedReaches, Signals.DispatchedSpares, Signals.DispatchedSpends, Signals.AfterAccumulates, Signals.NextCallDelivers, Signals.ReduceCallDelivers, Signals.CacheKeepsUp, Wiring.RemovedDeletes, Wiring.PerformSpares, Wiring.PerformSpends: they assume the hub is `Tidy`. Every dispatch keeps it (`AfterTidy`). That `add`, `addOnce`, `remove` and the combinators establish it is proved only for the filtered once-listener (`FilteredOnceWired`, `FilteredOnce`).
- Signals.CacheKeepsUp, Signals.DispatchedRecords: they assume the cache has one recorder. Calling `cache` twice with the same cache adds two recorders; the model then records the payload once per recorder invoked, as the source does, but no lemma states that count.
- Signals.FilteredOnce: shown on one concrete pair of signals made by `FilteredOnceSetup`, not for every readable built by the first-generation combinators.

=== FILE: caches.dfy ===
/**
 * The replay caches of src/caches.ts. Both keep their payloads in an array;
 * `ValueCache` replaces the array with the newest payload, `CollectionCache`
 * appends to it. The two subclasses of the abstract `ArrayCache` become one
 * class with a fixed `Policy`.
 */
module Caches {
  import opened Common

  datatype Policy = ValueCache | CollectionCache

  /** The array after `add(v)`. */
  function Record(policy: Policy, stored: seq<Payload>, v: Payload): seq<Payload> {
    match policy
    case ValueCache => [v]
    case CollectionCache => stored + [v]
  }

  /** The array of a fresh cache after `add` was called with each of `values`, in order. */
  function History(policy: Policy, values: seq<Payload>): seq<Payload>
    decreases |values|
  {
    if values == [] then []
    else Record(policy, History(policy, values[..|values| - 1]), values[|values| - 1])
  }

  /** A ValueCache holds only the most recent payload, or nothing before the first add. */
  lemma ValueCacheKeepsLast(values: seq<Payload>)
    ensures History(ValueCache, values) == if values == [] then [] else [values[|values| - 1]]
  {
  }

  /** A CollectionCache holds every payload, oldest first. */
  lemma {:induction false} CollectionCacheKeepsAll(values: seq<Payload>)
    ensures History(CollectionCache, values) == values
    decreases |values|
  {
    if values != [] {
      CollectionCacheKeepsAll(values[..|values| - 1]);
      assert values[..|values| - 1] + [values[|values| - 1]] == values;
    }
  }

  class ArrayCache {
    const policy: Policy
    var payloads: seq<Payload>

    ghost predicate Valid()
      reads this
    {
      policy == ValueCache ==> |payloads| <= 1
    }

    constructor (policy: Policy)
      ensures this.policy == policy && payloads == [] && Valid()
    {
      this.policy := policy;
      payloads := [];
    }

    method Add(v: Payload)
      modifies this
      ensures Valid()
      ensures payloads == Record(policy, old(payloads), v)
    {
      match policy
      case ValueCache =>
        payloads := [v];
      case CollectionCache =>
        payloads := payloads + [v];
    }

    /**
     * `forEach(callback)`: the callback's arguments, in the order it receives
     * them. A fresh cache visits nothing.
     */
    method ForEach() returns (visited: seq<Payload>)
      ensures |visited| == |payloads|
      ensures forall i :: 0 <= i < |visited| ==> visited[i] == payloads[i]
    {
      visited := [];
      for i := 0 to |payloads|
        invariant visited == payloads[..i]
      {
        visited := visited + [payloads[i]];
      }
    }
  }
}

=== FILE: common.dfy ===
/**
 * Identities and payloads shared by every part of the model.
 *
 * JavaScript compares listeners and tags by reference. The model gives every
 * such reference a `Key`: `User` keys stand for the functions and tag objects
 * that client code passes in, `Made` keys for the closures the library itself
 * allocates (once-wrappers, forwarding wrappers, cache recorders, promise
 * settlers). A `Made` key is drawn from an `IdSource`, which is how the model
 * says "a new closure, distinct from every earlier one".
 */
module Common {

  datatype Key = User(n: nat) | Made(n: nat)

  /** Payloads are untyped JavaScript values; the model fixes one carrier type. */
  type Payload = int

  datatype Option<T> = None | Some(value: T)

  /** Allocation of fresh closure identities. */
  class IdSource {
    var next: nat

    /** True when `k` cannot have been handed out before. */
    predicate Unused(k: Key)
      reads this
    {
      k.Made? && k.n >= next
    }

    constructor ()
      ensures next == 0
    {
      next := 0;
    }

    method Fresh() returns (k: Key)
      modifies this
      ensures k == Made(old(next)) && next == old(next) + 1
      ensures old(Unused(k)) && !Unused(k)
    {
      k := Made(next);
      next := next + 1;
    }
  }

  /** The state of a host promise. */
  datatype Settlement = Pending | Resolved(value: Payload) | Rejected(reason: Payload)

  /**
   * A host promise as far as the signals see it: it settles once, and a later
   * resolve or reject is ignored. The scheduling of its callbacks is not modelled.
   */
  class Promise {
    var state: Settlement

    constructor ()
      ensures state == Pending
    {
      state := Pending;
    }

    method Resolve(v: Payload)
      modifies this
      ensures state == if old(state) == Pending then Resolved(v) else old(state)
    {
      if state == Pending {
        state := Resolved(v);
      }
    }

    method Reject(r: Payload)
      modifies this
      ensures state == if old(state) == Pending then Rejected(r) else old(state)
    {
      if state == Pending {
        state := Rejected(r);
      }
    }
  }
}

=== FILE: delivery.dfy ===
/**
 * What the registrations of the binding-based readables deliver, and how
 * they end: each key `add(l)` installs forwards through its route's filters
 * and maps to `l`; a merge puts `l` itself on every source; detaching the
 * returned binding removes everything `add` put there; and the wrapper of
 * `addOnce` detaches its binding, at most once over any number of
 * dispatches, before anything reaches the listener.
 */
module Delivery {
  import opened Common
  import opened OrderedSets
  import opened MicroSignals
  import opened Readables

  // ---------------------------------------------------------------------
  // Every signal under a readable is reached by at least one route.

  lemma {:induction false} RoutesReach(r: Readable, s: MicroSignal)
    requires s in Signals(r)
    ensures |Routes(r, s)| > 0 && |OnceRoutes(r, s)| > 0
    decreases r
  {
    match r
    case Micro(_) =>
    case ReadOnly(inner) => RoutesReach(inner, s);
    case Merged(sources) => RoutesUpToReach(sources, |sources|, s);
    case Filtered(inner, _) => RoutesReach(inner, s);
    case Mapped(inner, _) => RoutesReach(inner, s);
  }

  lemma {:induction false} RoutesUpToReach(sources: seq<Readable>, n: nat, s: MicroSignal)
    requires n <= |sources| && s in SignalsUpTo(sources, n)
    ensures |RoutesUpTo(sources, n, s)| > 0
    decreases sources, n
  {
    if s in Signals(sources[n - 1]) {
      RoutesReach(sources[n - 1], s);
    } else {
      RoutesUpToReach(sources, n - 1, s);
    }
  }

  // ---------------------------------------------------------------------
  // add

  /**
   * Calling the `j`-th key that `add(l)` put on `s` runs the payload
   * through the filters and maps of the `j`-th route and, if none drops it,
   * calls `l` with what comes out.
   */
  lemma AddKeyInvoke(r: Readable, b: Binding, bs: map<Key, Behaviour>, l: Key, s: MicroSignal, j: nat, p: Payload)
    requires Ranked(bs) && AddRouted(r, b, bs, l) && s in Signals(r) && j < |KeysOn(b, s)|
    ensures j < |Routes(r, s)|
    ensures Invoke(bs, KeysOn(b, s)[j], p) ==
      match Flow(Routes(r, s)[j], p) case Some(q) => Invoke(bs, l, q) case None => []
  {
    ChainInvoke(bs, KeysOn(b, s)[j], l, Routes(r, s)[j], p);
  }

  /** A filtered readable forwards what its inner route delivers only when the filter holds. */
  lemma FilteredForwards(r: Readable, b: Binding, bs: map<Key, Behaviour>, l: Key, s: MicroSignal, j: nat, p: Payload)
    requires r.Filtered? && Ranked(bs) && AddRouted(r, b, bs, l) && s in Signals(r) && j < |KeysOn(b, s)|
    ensures j < |Routes(r.inner, s)|
    ensures Invoke(bs, KeysOn(b, s)[j], p) ==
      match Flow(Routes(r.inner, s)[j], p)
      case Some(q) => (if r.keep(q) then Invoke(bs, l, q) else [])
      case None => []
  {
    AddKeyInvoke(r, b, bs, l, s, j, p);
    FlowAppend(Routes(r.inner, s)[j], [Keep(r.keep)], p);
  }

  /** A mapped readable forwards the transform of what its inner route delivers. */
  lemma MappedForwards(r: Readable, b: Binding, bs: map<Key, Behaviour>, l: Key, s: MicroSignal, j: nat, p: Payload)
    requires r.Mapped? && Ranked(bs) && AddRouted(r, b, bs, l) && s in Signals(r) && j < |KeysOn(b, s)|
    ensures j < |Routes(r.inner, s)|
    ensures Invoke(bs, KeysOn(b, s)[j], p) ==
      match Flow(Routes(r.inner, s)[j], p)
      case Some(q) => Invoke(bs, l, r.transform(q))
      case None => []
  {
    AddKeyInvoke(r, b, bs, l, s, j, p);
    FlowAppend(Routes(r.inner, s)[j], [Transform(r.transform)], p);
  }

  /** A filter over a micro signal: its one key calls `l` with `p` exactly when `keep(p)`. */
  lemma FilteredMicro(sig: MicroSignal, keep: Payload -> bool, b: Binding, bs: map<Key, Behaviour>, l: Key, p: Payload)
    requires Ranked(bs) && AddRouted(Filtered(Micro(sig), keep), b, bs, l)
    ensures |KeysOn(b, sig)| == 1
    ensures Invoke(bs, KeysOn(b, sig)[0], p) == if keep(p) then Invoke(bs, l, p) else []
  {
    var r := Filtered(Micro(sig), keep);
    assert Routes(Micro(sig), sig) == [[]];
    assert sig in Signals(r);
    FilteredForwards(r, b, bs, l, sig, 0, p);
  }

  /** A map over a micro signal: its one key calls `l` with `transform(p)`. */
  lemma MappedMicro(sig: MicroSignal, transform: Payload -> Payload, b: Binding, bs: map<Key, Behaviour>, l: Key, p: Payload)
    requires Ranked(bs) && AddRouted(Mapped(Micro(sig), transform), b, bs, l)
    ensures |KeysOn(b, sig)| == 1
    ensures Invoke(bs, KeysOn(b, sig)[0], p) == Invoke(bs, l, transform(p))
  {
    var r := Mapped(Micro(sig), transform);
    assert Routes(Micro(sig), sig) == [[]];
    assert sig in Signals(r);
    MappedForwards(r, b, bs, l, sig, 0, p);
  }

  /** The readables of the micro signals `sigs`, in order. */
  function Micros(sigs: seq<MicroSignal>): (rs: seq<Readable>)
    ensures |rs| == |sigs| && forall i :: 0 <= i < |sigs| ==> rs[i] == Micro(sigs[i])
  {
    seq(|sigs|, i requires 0 <= i < |sigs| => Micro(sigs[i]))
  }

  ghost predicate Distinct(sigs: seq<MicroSignal>) {
    forall i, j :: 0 <= i < j < |sigs| ==> sigs[i] != sigs[j]
  }

  lemma {:induction false} MicrosRoutes(sigs: seq<MicroSignal>, n: nat, s: MicroSignal)
    requires n <= |sigs| && Distinct(sigs)
    ensures RoutesUpTo(Micros(sigs), n, s) == if s in sigs[..n] then [[]] else []
    decreases n
  {
    if n > 0 {
      var rs := Micros(sigs);
      MicrosRoutes(sigs, n - 1, s);
      assert RoutesUpTo(rs, n, s) == RoutesUpTo(rs, n - 1, s) + Routes(Micro(sigs[n - 1]), s);
      assert sigs[..n] == sigs[..n - 1] + [sigs[n - 1]];
      if s == sigs[n - 1] {
        assert s !in sigs[..n - 1];
      }
    }
  }

  /**
   * A merge of distinct micro signals: `add(l)` puts `l` itself, once, on
   * every source, so each dispatch of a source calls `l`.
   */
  lemma MergedAddsListener(sigs: seq<MicroSignal>, b: Binding, bs: map<Key, Behaviour>, l: Key, i: nat)
    requires Distinct(sigs) && i < |sigs| && AddRouted(Merged(Micros(sigs)), b, bs, l)
    ensures KeysOn(b, sigs[i]) == [l]
  {
    var r := Merged(Micros(sigs));
    MicrosRoutes(sigs, |sigs|, sigs[i]);
    assert sigs[..|sigs|] == sigs;
    SignalsUpToPart(Micros(sigs), |sigs|, i);
    assert sigs[i] in Signals(r);
    assert Routed(bs, KeysOn(b, sigs[i]), l, [[]]);
  }

  /** On the signals `sigs`, every listener of `L0` is older than `n0` and other than `l`. */
  ghost predicate Older(L0: map<MicroSignal, seq<Key>>, sigs: set<MicroSignal>, l: Key, n0: nat) {
    forall s, k :: s in sigs && s in L0 && k in L0[s] ==> k != l && Rank(k) <= n0
  }

  /**
   * Detaching the binding of `add(l)` gives every signal under `r` back the
   * listeners it had before, as long as `l` was not among them and they were
   * all made before the closures `add` made; other signals keep theirs.
   */
  lemma DetachRestores(r: Readable, b: Binding, l: Key, n0: nat, n: nat,
                       L0: map<MicroSignal, seq<Key>>, sets: map<MicroSignal, seq<Key>>)
    requires SignalsOf(b) <= Signals(r) && KeysFrom(r, b, l, n0, n)
    requires forall s :: s in Signals(r) ==> s in L0 && s in sets && sets[s] == InsertAll(L0[s], KeysOn(b, s))
    requires Older(L0, Signals(r), l, n0)
    ensures forall s :: s in Signals(r) ==> Unbound(sets, b)[s] == L0[s]
    ensures forall s :: s in sets && s !in Signals(r) ==> Unbound(sets, b)[s] == sets[s]
  {
    forall s | s in Signals(r) ensures Unbound(sets, b)[s] == L0[s] {
      FreshKeysAbsent(r, b, l, n0, n, s, L0);
      InsertAllThenDelete(L0[s], KeysOn(b, s), AsSet(KeysOn(b, s)));
    }
    forall s | s in sets && s !in Signals(r) ensures Unbound(sets, b)[s] == sets[s] {
      KeysOnElsewhere(b, s);
      assert AsSet(KeysOn(b, s)) == {};
      DeleteAllAbsent(sets[s], {});
    }
  }

  /** No key of `b` on `s` is among the older keys `ls`. */
  lemma FreshKeysAbsent(r: Readable, b: Binding, l: Key, n0: nat, n: nat, s: MicroSignal, L0: map<MicroSignal, seq<Key>>)
    requires s in Signals(r) && s in L0 && KeysFrom(r, b, l, n0, n)
    requires Older(L0, Signals(r), l, n0)
    ensures forall k :: k in AsSet(KeysOn(b, s)) ==> k !in L0[s]
  {
    forall k | k in AsSet(KeysOn(b, s)) ensures k !in L0[s] {
      assert s in Signals(r) && k in KeysOn(b, s);
      assert KeysFrom(r, b, l, n0, n);
      assert k == l || (k.Made? && n0 <= k.n);
      assert k in L0[s] ==> k != l && Rank(k) <= n0;
    }
  }

  /** `add(l)` followed by `detach()` of its binding: no listener is left behind. */
  method AddThenDetach(r: Readable, l: Key, rt: Closures)
    requires Healthy(r) && rt.Valid() && rt.Allocated(l)
    requires forall s, k :: s in Signals(r) && k in s.listeners ==> k != l && rt.Allocated(k)
    modifies Signals(r), rt
    ensures Healthy(r) && rt.Valid()
    ensures Listeners(r) == old(Listeners(r))
  {
    ghost var L0, n0 := Listeners(r), rt.next;
    forall s, k | s in Signals(r) && s in L0 && k in L0[s] ensures k != l && Rank(k) <= n0 {
      assert k in s.listeners && rt.Allocated(k);
    }
    SignalsAllocated(r);
    var b := Add(r, l, rt);
    DetachAdded(r, b, l, n0, rt.next, L0);
  }

  /** The `detach()` of a binding that `add(l)` returned. */
  method DetachAdded(r: Readable, b: Binding, l: Key, ghost n0: nat, ghost n: nat, ghost L0: map<MicroSignal, seq<Key>>)
    requires Healthy(r) && SignalsOf(b) <= Signals(r) && KeysFrom(r, b, l, n0, n)
    requires L0.Keys == Signals(r) && Inserted(r, b, L0) && Older(L0, Signals(r), l, n0)
    modifies Signals(r)
    ensures Healthy(r) && Listeners(r) == L0
  {
    ghost var W := Signals(r);
    forall s | s in W ensures DeleteAll(InsertAll(L0[s], KeysOn(b, s)), AsSet(KeysOn(b, s))) == L0[s] {
      FreshKeysAbsent(r, b, l, n0, n, s, L0);
      InsertAllThenDelete(L0[s], KeysOn(b, s), AsSet(KeysOn(b, s)));
    }
    DetachBinding(b, W);
    ListenersAre(r, L0);
  }

  /** The listener sets under `r` read off signal by signal. */
  lemma ListenersAre(r: Readable, L0: map<MicroSignal, seq<Key>>)
    requires L0.Keys == Signals(r) && forall s :: s in Signals(r) ==> s.listeners == L0[s]
    ensures Listeners(r) == L0
  {
  }

  // ---------------------------------------------------------------------
  // addOnce

  /**
   * Calling the `j`-th key that `addOnce(l)` put on `s`: if the route lets
   * the payload through, the once-wrapper first detaches its binding and
   * only then runs the rest of the chain to `l`, which may still drop it.
   */
  lemma OnceKeyInvoke(r: Readable, b: Binding, once: Key, l: Key, bs: map<Key, Behaviour>, s: MicroSignal, j: nat, p: Payload)
    requires Ranked(bs) && s in Signals(r) && OnceRouted(r, b, bs, once)
    requires once in bs && bs[once].OnceThen? && bs[once].binding == b
    requires Chain(bs, bs[once].next, l, OnceTail(r))
    requires j < |KeysOn(b, s)|
    ensures j < |OnceRoutes(r, s)|
    ensures Invoke(bs, KeysOn(b, s)[j], p) ==
      match Flow(OnceRoutes(r, s)[j], p)
      case None => []
      case Some(q) => [Unbind(b)] + match Flow(OnceTail(r), q) case Some(v) => Invoke(bs, l, v) case None => []
  {
    ChainInvoke(bs, KeysOn(b, s)[j], once, OnceRoutes(r, s)[j], p);
    match Flow(OnceRoutes(r, s)[j], p)
    case None =>
    case Some(q) => ChainInvoke(bs, bs[once].next, l, OnceTail(r), q);
  }

  /**
   * `addOnce(l)` on a filter over a micro signal: the first dispatch ends
   * the registration whether the filter passes or not; `l` is called only
   * when it passes.
   */
  lemma FilteredOnceEnds(sig: MicroSignal, keep: Payload -> bool, b: Binding, once: Key, l: Key, bs: map<Key, Behaviour>, p: Payload)
    requires Ranked(bs) && OnceRouted(Filtered(Micro(sig), keep), b, bs, once)
    requires once in bs && bs[once].OnceThen? && bs[once].binding == b
    requires Chain(bs, bs[once].next, l, OnceTail(Filtered(Micro(sig), keep)))
    ensures |KeysOn(b, sig)| == 1
    ensures Invoke(bs, KeysOn(b, sig)[0], p) == [Unbind(b)] + if keep(p) then Invoke(bs, l, p) else []
  {
    var r := Filtered(Micro(sig), keep);
    assert OnceRoutes(r, sig) == [[]] && OnceTail(r) == [Keep(keep)];
    OnceKeyInvoke(r, b, once, l, bs, sig, 0, p);
  }

  /** Every closure of rank up to `bound` holds only bindings of keys up to `bound`. */
  ghost predicate OlderBelow(bs: map<Key, Behaviour>, bound: nat) {
    forall w :: w in bs && Rank(w) <= bound ==> BehaviourBelow(bs[w], bound)
  }

  /**
   * After `addOnce`, the closures older than the once-wrapper detach only
   * older keys: those that were there before hold older bindings, and the
   * rest are filtering and mapping wrappers, which hold none.
   */
  lemma OnceOlderBelow(bs0: map<Key, Behaviour>, n0: nat, bs: map<Key, Behaviour>, n: nat, once: Key)
    requires WellMade(bs0, n0) && Grown(bs0, n0, bs, n) && WrappersBesides(bs0, bs, once)
    requires once.Made? && n0 <= once.n
    ensures OlderBelow(bs, once.n)
  {
    forall w | w in bs && Rank(w) <= once.n ensures BehaviourBelow(bs[w], once.n) {
      if w in bs0 {
        assert BehaviourBelow(bs0[w], n0);
        match bs0[w]
        case OnceThen(b, _) => assert BindingBelow(b, once.n);
        case Settle(bindings, _, _) =>
          assert forall i :: 0 <= i < |bindings| ==> BindingBelow(bindings[i], once.n);
        case _ =>
      }
    }
  }

  /**
   * On a signal whose listeners are the keys of an `addOnce` binding `b`
   * and older keys, only `b`'s own keys detach `b`, each at most once per call.
   */
  lemma OnceOwnKeys(r: Readable, b: Binding, once: Key, bs: map<Key, Behaviour>, n: nat, s: MicroSignal, live: seq<Key>, p: Payload)
    requires Ranked(bs) && OlderBelow(bs, once.n)
    requires once.Made? && once in bs && bs[once].OnceThen? && bs[once].binding == b
    requires s in Signals(r) && SignalsOf(b) <= Signals(r) && KeysFrom(r, b, once, once.n, n) && OnceRouted(r, b, bs, once)
    requires forall k :: k in live ==> k in KeysOn(b, s) || Rank(k) <= once.n
    ensures OnlyOwnKeysUnbind(bs, b, s, live, p)
  {
    RoutesReach(r, s);
    var k0 := KeysOn(b, s)[0];
    assert s in SignalsOf(b) by {
      if s !in SignalsOf(b) {
        KeysOnElsewhere(b, s);
      }
    }
    forall k | k in live
      ensures (Unbind(b) in Invoke(bs, k, p) ==> k in KeysOn(b, s)) && AtMostOnce(Invoke(bs, k, p), Unbind(b))
    {
      if k in KeysOn(b, s) {
        var j :| 0 <= j < |KeysOn(b, s)| && KeysOn(b, s)[j] == k;
        ChainInvoke(bs, k, once, OnceRoutes(r, s)[j], p);
        match Flow(OnceRoutes(r, s)[j], p)
        case None =>
        case Some(q) =>
          OlderKeysSpare(bs, bs[once].next, q, once.n, b, s, k);
          AtMostOnceConcat([Unbind(b)], Invoke(bs, bs[once].next, q), Unbind(b));
      } else {
        OlderKeysSpare(bs, k, p, once.n, b, s, k0);
      }
    }
  }

  /**
   * The once-wrapper of `addOnce` on `r` fires once in total: over any
   * number of dispatches, each on some signal under `r`, its binding is
   * detached at most once.
   */
  lemma AddOnceFiresOnce(r: Readable, b: Binding, once: Key, bs0: map<Key, Behaviour>, n0: nat, bs: map<Key, Behaviour>, n: nat,
                         w: World, L0: map<MicroSignal, seq<Key>>, shots: seq<Shot>)
    requires WellMade(bs0, n0) && Ranked(bs) && Grown(bs0, n0, bs, n) && WrappersBesides(bs0, bs, once)
    requires once.Made? && n0 <= once.n && once in bs && bs[once].OnceThen? && bs[once].binding == b
    requires SignalsOf(b) <= Signals(r) && KeysFrom(r, b, once, once.n, n) && OnceRouted(r, b, bs, once)
    requires forall s :: s in Signals(r) ==> s in w.sets && s in L0 && w.sets[s] == InsertAll(L0[s], KeysOn(b, s))
    requires forall s, k :: s in L0 && k in L0[s] ==> Rank(k) <= n0
    requires forall i :: 0 <= i < |shots| ==> shots[i].signal in Signals(r)
    ensures AtMostOnce(Series(w, shots, bs).log, Unbind(b))
  {
    OnceOlderBelow(bs0, n0, bs, n, once);
    forall i | 0 <= i < |shots|
      ensures shots[i].signal in w.sets &&
        OnlyOwnKeysUnbind(bs, b, shots[i].signal, w.sets[shots[i].signal], shots[i].payload)
    {
      var s := shots[i].signal;
      OnceOwnKeys(r, b, once, bs, n, s, w.sets[s], shots[i].payload);
    }
    SeriesUnbindsOnce(w, shots, bs, b);
  }
}

=== FILE: extended_signal.dfy ===
/**
 * The extended-signal layer of src/extended-signal.ts.
 *
 * An `ExtendedSignal` owns a tag registry and sits on a base: either the
 * listener set of a signal itself, or a relay made by
 * `convertedListenerSignal` (filter, map, peek, reduce, readOnly, cache) or
 * by `merge`. A relay keeps its own map from each caller listener to the
 * forwarding wrapper it installed upstream, so that removal can find that
 * exact wrapper again.
 *
 * Relays are modelled one level deep: their upstream is the listener set of
 * one or more signals.
 */
module ExtendedSignals {
  import opened Common
  import opened OrderedSets
  import opened TagMapping
  import opened Caches
  import opened ListenerSets

  /** What a forwarding wrapper does with a payload before calling its listener. */
  datatype Conversion =
    | Identity                                              // readOnly, merge, cache
    | Filter(keep: Payload -> bool)
    | Map(transform: Payload -> Payload)
    | Peek                                                  // the side effect runs first
    | Reduce(step: (Payload, Payload) -> Payload, seed: Payload)

  /** What a wrapper invocation does that the outside can see. */
  datatype Effect = Delivered(listener: Key, payload: Payload) | Peeked(payload: Payload)

  /** The accumulator a new wrapper starts from (`initialValue` for reduce). */
  function Seed(c: Conversion): Payload {
    if c.Reduce? then c.seed else 0
  }

  /** The effects of one wrapper invocation and the wrapper's accumulator afterwards. */
  datatype Firing = Firing(effects: seq<Effect>, accum: Payload)

  /** One invocation of a wrapper for `listener` holding accumulator `accum`. */
  function Convert(c: Conversion, listener: Key, accum: Payload, p: Payload): Firing
  {
    match c
    case Identity => Firing([Delivered(listener, p)], accum)
    case Filter(keep) => Firing(if keep(p) then [Delivered(listener, p)] else [], accum)
    case Map(transform) => Firing([Delivered(listener, transform(p))], accum)
    case Peek => Firing([Peeked(p), Delivered(listener, p)], accum)
    case Reduce(step, _) => var a := step(accum, p); Firing([Delivered(listener, a)], a)
  }

  /** The effects of one wrapper over successive calls with payloads `ps`. */
  function Stream(c: Conversion, listener: Key, accum: Payload, ps: seq<Payload>): seq<Effect>
    decreases |ps|
  {
    if ps == [] then []
    else
      var f := Convert(c, listener, accum, ps[0]);
      f.effects + Stream(c, listener, f.accum, ps[1..])
  }

  // Reference definitions the streams are compared with.

  function DeliverAll(listener: Key, qs: seq<Payload>): (r: seq<Effect>)
  {
    seq(|qs|, i requires 0 <= i < |qs| => Delivered(listener, qs[i]))
  }

  /** The payloads of `ps` that `keep` accepts, in order. */
  function Kept(keep: Payload -> bool, ps: seq<Payload>): seq<Payload>
    decreases |ps|
  {
    if ps == [] then [] else (if keep(ps[0]) then [ps[0]] else []) + Kept(keep, ps[1..])
  }

  /** Left fold of `step` over `ps` from `a`. */
  function Fold(step: (Payload, Payload) -> Payload, a: Payload, ps: seq<Payload>): Payload
    decreases |ps|
  {
    if ps == [] then a else Fold(step, step(a, ps[0]), ps[1..])
  }

  lemma DeliverAllCons(l: Key, q: Payload, qs: seq<Payload>)
    ensures DeliverAll(l, [q] + qs) == [Delivered(l, q)] + DeliverAll(l, qs)
  {
  }

  /** A filtered listener receives exactly the accepted payloads, in dispatch order. */
  lemma {:induction false} FilterStream(keep: Payload -> bool, l: Key, a: Payload, ps: seq<Payload>)
    ensures Stream(Filter(keep), l, a, ps) == DeliverAll(l, Kept(keep, ps))
    decreases |ps|
  {
    if ps != [] {
      FilterStream(keep, l, a, ps[1..]);
      if keep(ps[0]) {
        DeliverAllCons(l, ps[0], Kept(keep, ps[1..]));
      }
    }
  }

  /** A mapped listener receives `transform` of every payload, in dispatch order. */
  lemma {:induction false} MapStream(transform: Payload -> Payload, l: Key, a: Payload, ps: seq<Payload>)
    ensures Stream(Map(transform), l, a, ps) == DeliverAll(l, seq(|ps|, i requires 0 <= i < |ps| => transform(ps[i])))
    decreases |ps|
  {
    if ps != [] {
      MapStream(transform, l, a, ps[1..]);
      var mapped := seq(|ps|, i requires 0 <= i < |ps| => transform(ps[i]));
      assert mapped == [transform(ps[0])] + seq(|ps[1..]|, i requires 0 <= i < |ps[1..]| => transform(ps[1..][i]));
    }
  }

  /** An identity wrapper (readOnly, merge, cache) forwards every payload unchanged. */
  lemma {:induction false} IdentityStream(l: Key, a: Payload, ps: seq<Payload>)
    ensures Stream(Identity, l, a, ps) == DeliverAll(l, ps)
    decreases |ps|
  {
    if ps != [] {
      IdentityStream(l, a, ps[1..]);
      DeliverAllCons(l, ps[0], ps[1..]);
      assert ps == [ps[0]] + ps[1..];
    }
  }

  /** A peeked listener sees every payload unchanged, each right after the side effect saw it. */
  lemma {:induction false} PeekStream(l: Key, a: Payload, ps: seq<Payload>)
    ensures |Stream(Peek, l, a, ps)| == 2 * |ps|
    ensures forall i :: 0 <= i < |ps| ==>
      Stream(Peek, l, a, ps)[2 * i] == Peeked(ps[i]) && Stream(Peek, l, a, ps)[2 * i + 1] == Delivered(l, ps[i])
    decreases |ps|
  {
    if ps != [] {
      PeekStream(l, a, ps[1..]);
      var s := Stream(Peek, l, a, ps);
      assert s == [Peeked(ps[0]), Delivered(l, ps[0])] + Stream(Peek, l, a, ps[1..]);
      forall i | 1 <= i < |ps| ensures s[2 * i] == Peeked(ps[i]) && s[2 * i + 1] == Delivered(l, ps[i]) {
        assert ps[1..][i - 1] == ps[i];
      }
    }
  }

  /**
   * A reduced listener receives, at the k-th call of its wrapper, the fold
   * of the wrapper's accumulator over the first k payloads.
   */
  lemma {:induction false} ReduceStream(step: (Payload, Payload) -> Payload, seed: Payload, l: Key, a: Payload, ps: seq<Payload>)
    ensures |Stream(Reduce(step, seed), l, a, ps)| == |ps|
    ensures forall i :: 0 <= i < |ps| ==> Stream(Reduce(step, seed), l, a, ps)[i] == Delivered(l, Fold(step, a, ps[..i + 1]))
    decreases |ps|
  {
    if ps != [] {
      var a' := step(a, ps[0]);
      ReduceStream(step, seed, l, a', ps[1..]);
      var s := Stream(Reduce(step, seed), l, a, ps);
      assert s == [Delivered(l, a')] + Stream(Reduce(step, seed), l, a', ps[1..]);
      assert ps[..1] == [ps[0]];
      forall i | 1 <= i < |ps| ensures s[i] == Delivered(l, Fold(step, a, ps[..i + 1])) {
        assert ps[..i + 1][0] == ps[0];
        assert ps[..i + 1][1..] == ps[1..][..i];
      }
    }
  }

  /** The accumulator a wrapper holds after calls with `ps`, starting from `accum`. */
  function Accumulated(c: Conversion, listener: Key, accum: Payload, ps: seq<Payload>): Payload
    decreases |ps|
  {
    if ps == [] then accum else Accumulated(c, listener, Convert(c, listener, accum, ps[0]).accum, ps[1..])
  }

  /** One more call: its effects are the next piece of the stream, and it moves the accumulator on. */
  lemma {:induction false} StreamSnoc(c: Conversion, l: Key, a: Payload, ps: seq<Payload>, p: Payload)
    ensures Stream(c, l, a, ps + [p]) == Stream(c, l, a, ps) + Convert(c, l, Accumulated(c, l, a, ps), p).effects
    ensures Accumulated(c, l, a, ps + [p]) == Convert(c, l, Accumulated(c, l, a, ps), p).accum
    decreases |ps|
  {
    if ps == [] {
      assert [p][1..] == [];
    } else {
      var f := Convert(c, l, a, ps[0]);
      assert (ps + [p])[0] == ps[0] && (ps + [p])[1..] == ps[1..] + [p];
      StreamSnoc(c, l, f.accum, ps[1..], p);
    }
  }

  /** A reduce wrapper's accumulator is the fold of `step` over the payloads it was called with. */
  lemma {:induction false} ReduceAccumulated(step: (Payload, Payload) -> Payload, seed: Payload, l: Key, a: Payload, ps: seq<Payload>)
    ensures Accumulated(Reduce(step, seed), l, a, ps) == Fold(step, a, ps)
    decreases |ps|
  {
    if ps != [] {
      ReduceAccumulated(step, seed, l, step(a, ps[0]), ps[1..]);
    }
  }

  // ---------------------------------------------------------------------
  // The base an ExtendedSignal sits on.

  /** A cache relay's cache, and the recorder closure it put on the source. */
  datatype Replay = Replay(cache: ArrayCache, recorder: Key)

  /**
   * `Own`: the base is the listener set of a signal. `Relay`: the base was
   * made by `convertedListenerSignal` (or by `merge`, with `Identity` and no
   * replay) and installs one wrapper upstream per caller listener.
   */
  datatype BaseKind = Own | Relay(conversion: Conversion, replay: Option<Replay>)

  /** The wrapper's caller listener and the accumulator of its closure. */
  datatype WrapperState = WrapperState(listener: Key, accum: Payload)

  /**
   * What a base looks like: a relay's `listenerMap` and its wrappers' state
   * (both empty for `Own`), and the listener sequence of each upstream set.
   */
  datatype BaseState = BaseState(listenerMap: map<Key, Key>, wrappers: map<Key, WrapperState>, upstream: seq<seq<Key>>)

  function InsertEach(ups: seq<seq<Key>>, k: Key): (r: seq<seq<Key>>)
    ensures |r| == |ups|
  {
    seq(|ups|, i requires 0 <= i < |ups| => Insert(ups[i], k))
  }

  function DeleteEach(ups: seq<seq<Key>>, ks: set<Key>): (r: seq<seq<Key>>)
    ensures |r| == |ups|
  {
    seq(|ups|, i requires 0 <= i < |ups| => DeleteAll(ups[i], ks))
  }

  /** The upstream listeners that stand for the caller listeners `ks`. */
  function Installed(kind: BaseKind, st: BaseState, ks: set<Key>): set<Key> {
    if kind.Own? then ks else set k | k in ks && k in st.listenerMap :: st.listenerMap[k]
  }

  /** The state after `remove(k)` for every `k` of `ks`. */
  function Detached(kind: BaseKind, st: BaseState, ks: set<Key>): BaseState {
    BaseState(st.listenerMap - ks, st.wrappers, DeleteEach(st.upstream, Installed(kind, st, ks)))
  }

  /** The state after `add(l)`, before any replay; `w` is the fresh wrapper of a relay. */
  function Attached(kind: BaseKind, st: BaseState, l: Key, w: Key): BaseState {
    if kind.Own? then st.(upstream := InsertEach(st.upstream, l))
    else BaseState(st.listenerMap[l := w], st.wrappers[w := WrapperState(l, Seed(kind.conversion))],
                   InsertEach(st.upstream, w))
  }

  /** The cached payloads a relay replays to a new listener. */
  function Cached(kind: BaseKind): seq<Payload>
    reads if kind.Relay? && kind.replay.Some? then {kind.replay.value.cache} else {}
  {
    if kind.Relay? && kind.replay.Some? then kind.replay.value.cache.payloads else []
  }

  /**
   * The effects of the replay after `add(l)`: every cached payload for a
   * plain listener; for a once-wrapper only the first, since it removes
   * itself, which makes `listenerActive()` false for the rest.
   */
  function Replayed(l: Key, once: map<Key, Key>, vs: seq<Payload>): seq<Effect> {
    if l in once then (if vs == [] then [] else [Delivered(once[l], vs[0])])
    else DeliverAll(l, vs)
  }

  /** The whole state after `add(l)`, replay included. */
  function AfterAdd(kind: BaseKind, st: BaseState, l: Key, w: Key, once: map<Key, Key>, vs: seq<Payload>): BaseState {
    var added := Attached(kind, st, l, w);
    if l in once && vs != [] then Detached(kind, added, {l}) else added
  }

  /** Removing `A` and then `B` is removing both. */
  lemma DetachedTwice(kind: BaseKind, st: BaseState, a: set<Key>, b: set<Key>)
    ensures Detached(kind, Detached(kind, st, a), b) == Detached(kind, st, a + b)
  {
    var mid := Detached(kind, st, a);
    var ia, ib := Installed(kind, st, a), Installed(kind, mid, b);
    assert ia + ib == Installed(kind, st, a + b);
    forall i | 0 <= i < |st.upstream|
      ensures DeleteEach(mid.upstream, ib)[i] == DeleteEach(st.upstream, ia + ib)[i]
    {
      DeleteAllTwice(st.upstream[i], ia, ib);
    }
  }

  /** Removing a caller listener that is not registered changes nothing. */
  lemma DetachAbsent(kind: BaseKind, st: BaseState, k: Key)
    requires k !in st.listenerMap
    requires kind.Own? ==> forall i :: 0 <= i < |st.upstream| ==> k !in st.upstream[i]
    ensures Detached(kind, st, {k}) == st
  {
    var ik := Installed(kind, st, {k});
    forall i | 0 <= i < |st.upstream| ensures DeleteEach(st.upstream, ik)[i] == st.upstream[i] {
      DeleteAllAbsent(st.upstream[i], ik);
    }
  }

  lemma DetachedNothing(kind: BaseKind, st: BaseState)
    ensures Detached(kind, st, {}) == st
  {
    assert Installed(kind, st, {}) == {};
    assert st.listenerMap - {} == st.listenerMap;
    forall i | 0 <= i < |st.upstream| ensures DeleteEach(st.upstream, {})[i] == st.upstream[i] {
      DeleteAllAbsent(st.upstream[i], {});
    }
  }

  /**
   * `add(l)` then `remove(l)` leaves every upstream set and the relay's map
   * as they were: the exact wrapper installed is the one removed. Only the
   * dead wrapper's closure state remains.
   */
  lemma AddThenRemoveRestores(kind: BaseKind, st: BaseState, l: Key, w: Key)
    requires l !in st.listenerMap
    requires forall i :: 0 <= i < |st.upstream| ==> (if kind.Own? then l else w) !in st.upstream[i]
    ensures Detached(kind, Attached(kind, st, l, w), {l}).upstream == st.upstream
    ensures Detached(kind, Attached(kind, st, l, w), {l}).listenerMap == st.listenerMap
  {
    var added := Attached(kind, st, l, w);
    var k := if kind.Own? then l else w;
    assert Installed(kind, added, {l}) == {k};
    forall i | 0 <= i < |st.upstream| ensures DeleteEach(added.upstream, {k})[i] == st.upstream[i] {
      InsertThenDelete(st.upstream[i], k);
    }
  }

  /** Whether the wrapper calls its listener for `p` at all. */
  function Forwards(c: Conversion, p: Payload): bool {
    !(c.Filter? && !c.keep(p))
  }

  /** A call of a once-wrapper `o` reaches the listener it stands for, `once[o]`. */
  function Retarget(effects: seq<Effect>, once: map<Key, Key>): (r: seq<Effect>)
    ensures |r| == |effects|
  {
    seq(|effects|, i requires 0 <= i < |effects| =>
      match effects[i]
      case Delivered(l, q) => if l in once then Delivered(once[l], q) else effects[i]
      case Peeked(_) => effects[i])
  }

  /** The object behind the base closures `add` and `remove` that an ExtendedSignal is given. */
  class Base {
    const kind: BaseKind
    /** The listener sets upstream; one for `Own`, one per merged signal for `merge`. */
    const sources: seq<ListenerSet>
    /** A relay's `listenerMap`: caller listener to the wrapper installed for it. */
    var listenerMap: map<Key, Key>
    /** The state of each wrapper closure a relay created. */
    var wrappers: map<Key, WrapperState>

    function Upstream(): set<ListenerSet> {
      set s | s in sources
    }

    function State(): BaseState
      reads this, Upstream()
    {
      BaseState(listenerMap, wrappers,
                seq(|sources|, i requires 0 <= i < |sources| reads sources => sources[i].listeners))
    }

    ghost predicate Valid()
      reads this, Upstream()
    {
      (kind.Own? ==> |sources| == 1 && listenerMap == map[] && wrappers == map[]) &&
      (forall s :: s in sources ==> s.Valid())
    }

    constructor (kind: BaseKind, sources: seq<ListenerSet>)
      requires kind.Own? ==> |sources| == 1
      requires forall s :: s in sources ==> s.Valid()
      ensures Valid()
      ensures this.kind == kind && this.sources == sources && listenerMap == map[] && wrappers == map[]
    {
      this.kind := kind;
      this.sources := sources;
      listenerMap, wrappers := map[], map[];
    }

    /** `signal.add(k)` for every upstream signal, in order. */
    method InsertUpstream(k: Key)
      requires Valid()
      modifies Upstream()
      ensures Valid()
      ensures State() == old(State()).(upstream := InsertEach(old(State()).upstream, k))
    {
      ghost var done: set<ListenerSet> := {};
      for i := 0 to |sources|
        invariant forall s :: s in sources ==> s.Valid()
        invariant forall m :: 0 <= m < i ==> sources[m] in done
        invariant forall j :: 0 <= j < |sources| ==>
          sources[j].listeners == if sources[j] in done then Insert(old(sources[j].listeners), k) else old(sources[j].listeners)
      {
        sources[i].Add(k);
        done := done + {sources[i]};
      }
      ghost var before := old(State()).upstream;
      assert forall j :: 0 <= j < |sources| ==> sources[j].listeners == InsertEach(before, k)[j];
      assert State().upstream == InsertEach(before, k);
    }

    /** `signal.remove(k)` for every upstream signal, in order. */
    method DeleteUpstream(k: Key)
      requires Valid()
      modifies Upstream()
      ensures Valid()
      ensures State() == old(State()).(upstream := DeleteEach(old(State()).upstream, {k}))
      ensures forall s :: s in Upstream() ==> s.catchers == old(s.catchers)
    {
      ghost var done: set<ListenerSet> := {};
      for i := 0 to |sources|
        invariant forall s :: s in sources ==> s.Valid() && s.catchers == old(s.catchers)
        invariant forall m :: 0 <= m < i ==> sources[m] in done
        invariant forall j :: 0 <= j < |sources| ==>
          sources[j].listeners == if sources[j] in done then Delete(old(sources[j].listeners), k) else old(sources[j].listeners)
      {
        sources[i].Remove(k);
        done := done + {sources[i]};
      }
      ghost var before := old(State()).upstream;
      assert forall j :: 0 <= j < |sources| ==> sources[j].listeners == DeleteEach(before, {k})[j];
      assert State().upstream == DeleteEach(before, {k});
    }

    /** `remove(l)`: a relay removes the exact wrapper it installed for `l`, if any. */
    method Remove(l: Key)
      requires Valid()
      modifies this, Upstream()
      ensures Valid()
      ensures State() == Detached(kind, old(State()), {l})
      ensures forall s :: s in Upstream() ==> s.catchers == old(s.catchers)
    {
      if kind.Own? {
        DeleteUpstream(l);
      } else if l in listenerMap {
        var w := listenerMap[l];
        assert Installed(kind, State(), {l}) == {w};
        listenerMap := listenerMap - {l};
        DeleteUpstream(w);
      } else {
        DetachAbsent(kind, State(), l);
      }
    }
  
    /**
     * `add(l)`: an own base adds `l` upstream; a relay makes a fresh wrapper,
     * maps `l` to it, adds it upstream, then runs its replay. `once` tells
     * which caller listeners are once-wrappers and whom they stand for.
     */
    method Add(l: Key, once: map<Key, Key>, ids: IdSource) returns (replayed: seq<Effect>)
      requires Valid()
      modifies this, Upstream(), ids
      ensures Valid()
      ensures ids.next == old(ids.next) + (if kind.Own? then 0 else 1)
      ensures State() == AfterAdd(kind, old(State()), l, Made(old(ids.next)), once, Cached(kind))
      ensures replayed == Replayed(l, once, Cached(kind))
    {
      if kind.Own? {
        InsertUpstream(l);
        replayed := [];
      } else {
        replayed := AddRelay(l, once, ids);
      }
    }

    /** The relay half of `add(l)`: a fresh wrapper is mapped, installed upstream and replayed to. */
    method AddRelay(l: Key, once: map<Key, Key>, ids: IdSource) returns (replayed: seq<Effect>)
      requires Valid() && kind.Relay?
      modifies this, Upstream(), ids
      ensures Valid()
      ensures ids.next == old(ids.next) + 1
      ensures State() == AfterAdd(kind, old(State()), l, Made(old(ids.next)), once, Cached(kind))
      ensures replayed == Replayed(l, once, Cached(kind))
    {
      ghost var st := State();
      var w := ids.Fresh();
      listenerMap := listenerMap[l := w];
      wrappers := wrappers[w := WrapperState(l, Seed(kind.conversion))];
      assert State() == st.(listenerMap := listenerMap, wrappers := wrappers);
      InsertUpstream(w);
      assert State() == Attached(kind, st, l, w);
      if kind.replay.Some? {
        replayed := Replay(l, once);
      } else {
        replayed := [];
      }
    }

    /**
     * The replay after a relay's `add(l)`: each cached payload goes to the
     * new wrapper while it is still active; a once-wrapper removes itself on
     * the first.
     */
    method Replay(l: Key, once: map<Key, Key>) returns (replayed: seq<Effect>)
      requires Valid() && kind.Relay? && kind.replay.Some? && l in listenerMap
      modifies this, Upstream()
      ensures Valid()
      ensures State() == if l in once && Cached(kind) != [] then Detached(kind, old(State()), {l}) else old(State())
      ensures replayed == Replayed(l, once, Cached(kind))
    {
      replayed := [];
      var vs := kind.replay.value.cache.ForEach();
      assert vs == Cached(kind);
      for i := 0 to |vs|
        invariant Valid()
        invariant l in once && i > 0 ==> State() == Detached(kind, old(State()), {l}) && l !in listenerMap
        invariant !(l in once && i > 0) ==> State() == old(State()) && l in listenerMap
        invariant replayed == Replayed(l, once, vs[..i])
      {
        if l in listenerMap {
          if l in once {
            Remove(l);
            replayed := replayed + [Delivered(once[l], vs[i])];
          } else {
            assert DeliverAll(l, vs[..i + 1]) == DeliverAll(l, vs[..i]) + [Delivered(l, vs[i])];
            replayed := replayed + [Delivered(l, vs[i])];
          }
        }
      }
      assert vs[..|vs|] == vs;
    }

    /**
     * The start of a call of wrapper `w` by an upstream dispatch of `p`: the
     * conversion runs on the wrapper's accumulator, which keeps the result.
     */
    method Advance(w: Key, p: Payload) returns (f: Firing)
      requires Valid() && kind.Relay? && w in wrappers
      modifies this
      ensures Valid()
      ensures f == Convert(kind.conversion, old(wrappers[w]).listener, old(wrappers[w]).accum, p)
      ensures wrappers == old(wrappers)[w := old(wrappers[w]).(accum := f.accum)] && listenerMap == old(listenerMap)
    {
      var ws := wrappers[w];
      f := Convert(kind.conversion, ws.listener, ws.accum, p);
      wrappers := wrappers[w := ws.(accum := f.accum)];
    }

    /** The recorder closure a cache relay put on its source: `cache.add(p)`. */
    method Record(p: Payload)
      requires kind.Relay? && kind.replay.Some?
      modifies kind.replay.value.cache
      ensures Cached(kind) == Caches.Record(kind.replay.value.cache.policy, old(Cached(kind)), p)
    {
      kind.replay.value.cache.Add(p);
    }
  }

  /** A once-wrapper is tagged with the listener it stands for and with every tag given. */
  lemma OnceTagged(r: Registry, o: Key, l: Key, tags: seq<Key>)
    ensures o in ThingsOf(Associate(r, o, [l] + tags), l)
    ensures forall t :: t in tags ==> o in ThingsOf(Associate(r, o, [l] + tags), t)
  {
    AssociateLinks(r, o, [l] + tags);
  }

  /** `remove(x)` for a listener `x` reaches exactly `x` and every thing tagged with `x`. */
  function Gone(r: Registry, x: Key): set<Key> {
    ThingsOf(r, x) + {x}
  }

  /** `r` is `r0` with every key of `gone` cleared: untagged, and taken out of every tag. */
  ghost predicate Cleared(r0: Registry, r: Registry, gone: set<Key>) {
    (forall k :: k in gone ==> TagsOf(r, k) == {}) &&
    (forall y :: y !in gone ==> TagsOf(r, y) == TagsOf(r0, y)) &&
    (forall t :: ThingsOf(r, t) == ThingsOf(r0, t) - gone)
  }

  lemma ClearedTrans(r0: Registry, r1: Registry, r2: Registry, a: set<Key>, b: set<Key>)
    requires Cleared(r0, r1, a) && Cleared(r1, r2, b)
    ensures Cleared(r0, r2, a + b)
  {
  }

  lemma ClearedNothing(r: Registry)
    ensures Cleared(r, r, {})
  {
  }

  class ExtendedSignal {
    const base: Base
    const tagMap: TagMap
    /** The once-wrappers this signal made, each with the listener it stands for. */
    var once: map<Key, Key>

    ghost predicate Valid()
      reads this, base, base.Upstream(), tagMap
    {
      base.Valid() && TagMapping.Valid(tagMap.Model())
    }

    constructor (base: Base)
      requires base.Valid()
      ensures Valid() && fresh(tagMap)
      ensures this.base == base && once == map[] && tagMap.Model() == Empty
    {
      this.base := base;
      tagMap := new TagMap();
      once := map[];
    }

    /** `add(listener, ...tags)`: tag it, then add it to the base. */
    method Add(l: Key, tags: seq<Key>, ids: IdSource) returns (replayed: seq<Effect>)
      requires Valid()
      modifies base, base.Upstream(), tagMap, ids
      ensures Valid() && once == old(once)
      ensures tagMap.Model() == Associate(old(tagMap.Model()), l, tags)
      ensures base.State() == AfterAdd(base.kind, old(base.State()), l, Made(old(ids.next)), once, Cached(base.kind))
      ensures replayed == Replayed(l, once, Cached(base.kind))
    {
      AssociateValid(tagMap.Model(), l, tags);
      tagMap.SetHandlers(l, tags);
      replayed := base.Add(l, once, ids);
    }

    /**
     * `remove(listenerOrTag)`: every thing tagged with `x` is removed from
     * the base and loses its tags; then so is `x` itself.
     */
    method Remove(x: Key)
      requires Valid()
      modifies base, base.Upstream(), tagMap
      ensures Valid()
      ensures base.State() == Detached(base.kind, old(base.State()), Gone(old(tagMap.Model()), x))
      ensures Cleared(old(tagMap.Model()), tagMap.Model(), Gone(old(tagMap.Model()), x))
    {
      var things := tagMap.GetThings(x);
      ghost var done: set<Key> := {};
      var todo := things;
      DetachedNothing(base.kind, base.State());
      ClearedNothing(tagMap.Model());
      while todo != {}
        invariant Valid()
        invariant todo <= things && done == things - todo
        invariant base.State() == Detached(base.kind, old(base.State()), done)
        invariant Cleared(old(tagMap.Model()), tagMap.Model(), done)
        decreases todo
      {
        var k :| k in todo;
        ghost var before := tagMap.Model();
        Unregister(k);
        ClearedTrans(old(tagMap.Model()), before, tagMap.Model(), done, {k});
        DetachedTwice(base.kind, old(base.State()), done, {k});
        todo := todo - {k};
        done := done + {k};
      }
      ghost var before := tagMap.Model();
      Unregister(x);
      ClearedTrans(old(tagMap.Model()), before, tagMap.Model(), done, {x});
      DetachedTwice(base.kind, old(base.State()), done, {x});
    }

    /** One step of `remove`: `base.remove(k)` and `tagMap.clearThing(k)`. */
    method Unregister(k: Key)
      requires Valid()
      modifies base, base.Upstream(), tagMap
      ensures Valid()
      ensures base.State() == Detached(base.kind, old(base.State()), {k})
      ensures Cleared(old(tagMap.Model()), tagMap.Model(), {k})
    {
      ghost var r := tagMap.Model();
      base.Remove(k);
      tagMap.ClearThing(k);
      ForgetClears(r, k);
      ForgetValid(r, k);
      forall y | y != k ensures TagsOf(tagMap.Model(), y) == TagsOf(r, y) {
        ForgetKeepsOthers(r, k, y);
      }
    }
  
    /**
     * `addOnce(listener, ...tags)`: nothing happens while something is still
     * tagged with `l`; otherwise a fresh once-wrapper, tagged with `l` and
     * the tags, is added to the base.
     */
    method AddOnce(l: Key, tags: seq<Key>, ids: IdSource) returns (replayed: seq<Effect>)
      requires Valid()
      modifies this, base, base.Upstream(), tagMap, ids
      ensures Valid()
      ensures ThingsOf(old(tagMap.Model()), l) != {} ==>
        once == old(once) && tagMap.Model() == old(tagMap.Model()) && base.State() == old(base.State()) &&
        ids.next == old(ids.next) && replayed == []
      ensures ThingsOf(old(tagMap.Model()), l) == {} ==>
        var o := Made(old(ids.next));
        once == old(once)[o := l] &&
        tagMap.Model() == Associate(old(tagMap.Model()), o, [l] + tags) &&
        base.State() == AfterAdd(base.kind, old(base.State()), o, Made(old(ids.next) + 1), once, Cached(base.kind)) &&
        replayed == Replayed(o, once, Cached(base.kind))
    {
      var registered := tagMap.GetThings(l);
      if registered != {} {
        replayed := [];
      } else {
        replayed := AddWrapper(l, tags, ids);
      }
    }

    /** The second half of `addOnce`: the once-wrapper for `l` is made, tagged and added. */
    method AddWrapper(l: Key, tags: seq<Key>, ids: IdSource) returns (replayed: seq<Effect>)
      requires Valid()
      modifies this, base, base.Upstream(), tagMap, ids
      ensures Valid()
      ensures var o := Made(old(ids.next));
        once == old(once)[o := l] &&
        tagMap.Model() == Associate(old(tagMap.Model()), o, [l] + tags) &&
        base.State() == AfterAdd(base.kind, old(base.State()), o, Made(old(ids.next) + 1), once, Cached(base.kind)) &&
        replayed == Replayed(o, once, Cached(base.kind))
    {
      var o := ids.Fresh();
      once := once[o := l];
      AssociateValid(tagMap.Model(), o, [l] + tags);
      tagMap.SetHandlers(o, [l] + tags);
      replayed := base.Add(o, once, ids);
    }

    /** The relay `convertedListenerSignal` builds over this signal's base. */
    method Derive(kind: BaseKind) returns (d: ExtendedSignal)
      requires Valid() && base.kind.Own? && kind.Relay?
      ensures fresh(d) && fresh(d.base) && fresh(d.tagMap) && d.Valid()
      ensures d.base.kind == kind && d.base.sources == base.sources
      ensures d.base.State() == BaseState(map[], map[], base.State().upstream)
      ensures d.once == map[] && d.tagMap.Model() == Empty
    {
      var b := new Base(kind, base.sources);
      d := new ExtendedSignal(b);
    }

    method Filter(keep: Payload -> bool) returns (d: ExtendedSignal)
      requires Valid() && base.kind.Own?
      ensures fresh(d) && fresh(d.base) && fresh(d.tagMap) && d.Valid() && d.base.sources == base.sources
      ensures d.base.kind == Relay(Conversion.Filter(keep), None) && d.base.listenerMap == map[]
      ensures d.once == map[] && d.tagMap.Model() == Empty
    {
      d := Derive(Relay(Conversion.Filter(keep), None));
    }

    method Map(transform: Payload -> Payload) returns (d: ExtendedSignal)
      requires Valid() && base.kind.Own?
      ensures fresh(d) && fresh(d.base) && fresh(d.tagMap) && d.Valid() && d.base.sources == base.sources
      ensures d.base.kind == Relay(Conversion.Map(transform), None) && d.base.listenerMap == map[]
      ensures d.once == map[] && d.tagMap.Model() == Empty
    {
      d := Derive(Relay(Conversion.Map(transform), None));
    }

    method ReadOnly() returns (d: ExtendedSignal)
      requires Valid() && base.kind.Own?
      ensures fresh(d) && fresh(d.base) && fresh(d.tagMap) && d.Valid() && d.base.sources == base.sources
      ensures d.base.kind == Relay(Identity, None) && d.base.listenerMap == map[]
      ensures d.once == map[] && d.tagMap.Model() == Empty
    {
      d := Derive(Relay(Identity, None));
    }

    method Reduce(step: (Payload, Payload) -> Payload, seed: Payload) returns (d: ExtendedSignal)
      requires Valid() && base.kind.Own?
      ensures fresh(d) && fresh(d.base) && fresh(d.tagMap) && d.Valid() && d.base.sources == base.sources
      ensures d.base.kind == Relay(Conversion.Reduce(step, seed), None) && d.base.listenerMap == map[]
      ensures d.once == map[] && d.tagMap.Model() == Empty
    {
      d := Derive(Relay(Conversion.Reduce(step, seed), None));
    }

    method Peek() returns (d: ExtendedSignal)
      requires Valid() && base.kind.Own?
      ensures fresh(d) && fresh(d.base) && fresh(d.tagMap) && d.Valid() && d.base.sources == base.sources
      ensures d.base.kind == Relay(Conversion.Peek, None) && d.base.listenerMap == map[]
      ensures d.once == map[] && d.tagMap.Model() == Empty
    {
      d := Derive(Relay(Conversion.Peek, None));
    }

    /**
     * `cache(cache)`: a fresh recorder closure is added to this signal's base
     * at once, so the cache fills whether or not the relay has listeners.
     */
    method Cache(cache: ArrayCache, ids: IdSource) returns (d: ExtendedSignal)
      requires Valid() && base.kind.Own?
      modifies base, base.Upstream(), ids
      ensures Valid() && fresh(d) && fresh(d.base) && fresh(d.tagMap) && d.Valid() && d.base.sources == base.sources
      ensures d.base.kind == Relay(Identity, Some(Replay(cache, Made(old(ids.next))))) && d.base.listenerMap == map[]
      ensures d.once == map[] && d.tagMap.Model() == Empty
      ensures ids.next == old(ids.next) + 1
      ensures base.State() == Attached(Own, old(base.State()), Made(old(ids.next)), Made(old(ids.next)))
    {
      var recorder := ids.Fresh();
      var _ := base.Add(recorder, map[], ids);
      d := Derive(Relay(Identity, Some(Replay(cache, recorder))));
    }

    /** `merge(...signals)`: this signal's own set comes first. */
    method Merge(others: seq<ListenerSet>) returns (d: ExtendedSignal)
      requires Valid() && base.kind.Own?
      requires forall s :: s in others ==> s.Valid()
      ensures fresh(d) && fresh(d.base) && fresh(d.tagMap) && d.Valid()
      ensures d.base.kind == Relay(Identity, None) && d.base.sources == base.sources + others
      ensures d.base.listenerMap == map[] && d.once == map[] && d.tagMap.Model() == Empty
    {
      d := MergeSignals(base.sources + others);
    }

    /**
     * The no-leak property: `add(l, ...tags)` followed by `remove(l)`, for a
     * listener not registered before, leaves every upstream listener set,
     * the relay's map and the tag registry as they were. Upstream keys the
     * source already held are not fresh, so the new wrapper is none of them.
     */
    method AddThenRemove(l: Key, tags: seq<Key>, ids: IdSource) returns (replayed: seq<Effect>)
      requires Valid()
      requires l !in once && l !in base.listenerMap
      requires ThingsOf(tagMap.Model(), l) == {} && TagsOf(tagMap.Model(), l) == {}
      requires base.kind.Own? ==> forall i :: 0 <= i < |base.sources| ==> l !in base.sources[i].listeners
      requires forall i, k :: 0 <= i < |base.sources| && k in base.sources[i].listeners ==> !ids.Unused(k)
      modifies base, base.Upstream(), tagMap, ids
      ensures Valid()
      ensures base.State().upstream == old(base.State().upstream) && base.listenerMap == old(base.listenerMap)
      ensures forall t :: ThingsOf(tagMap.Model(), t) == ThingsOf(old(tagMap.Model()), t)
      ensures forall y :: TagsOf(tagMap.Model(), y) == TagsOf(old(tagMap.Model()), y)
    {
      ghost var st := base.State();
      ghost var r := tagMap.Model();
      ghost var w := Made(ids.next);
      assert forall i :: 0 <= i < |st.upstream| ==> w !in st.upstream[i] by {
        assert ids.Unused(w);
        forall i | 0 <= i < |st.upstream| ensures w !in st.upstream[i] {
          assert st.upstream[i] == base.sources[i].listeners;
        }
      }
      replayed := Add(l, tags, ids);
      AssociateLinks(r, l, tags);
      AssociateMerges(r, l, tags);
      assert Gone(tagMap.Model(), l) == {l};
      Remove(l);
      AddThenRemoveRestores(base.kind, st, l, w);
      forall t ensures ThingsOf(tagMap.Model(), t) == ThingsOf(r, t) {
        assert l !in ThingsOf(r, t) by {
          assert t !in TagsOf(r, l);
        }
      }
    }
  }

  /** The static `ExtendedSignal.merge(...signals)`: one identity wrapper per listener, on every signal. */
  method MergeSignals(sources: seq<ListenerSet>) returns (d: ExtendedSignal)
    requires forall s :: s in sources ==> s.Valid()
    ensures fresh(d) && fresh(d.base) && fresh(d.tagMap) && d.Valid()
    ensures d.base.kind == Relay(Identity, None) && d.base.sources == sources
    ensures d.base.listenerMap == map[] && d.once == map[] && d.tagMap.Model() == Empty
  {
    var b := new Base(Relay(Identity, None), sources);
    d := new ExtendedSignal(b);
  }

  /** Removing a key that was never registered and tags nothing changes nothing. */
  lemma RemoveUnknown(kind: BaseKind, st: BaseState, r: Registry, x: Key)
    requires ThingsOf(r, x) == {} && x !in st.listenerMap
    requires kind.Own? ==> forall i :: 0 <= i < |st.upstream| ==> x !in st.upstream[i]
    ensures Detached(kind, st, Gone(r, x)) == st
  {
    assert Gone(r, x) == {x};
    DetachAbsent(kind, st, x);
  }

  /**
   * The closures of the static `ExtendedSignal.promisify(resolveSignal,
   * rejectSignal)` and the promise they settle. `completeResolution` is
   * added before `completeRejection`.
   */
  class Promisified {
    const promise: Promise
    const resolveSignal: ListenerSet
    const rejectSignal: Option<ListenerSet>
    const completeResolution: Key
    const completeRejection: Key

    function Sets(): set<ListenerSet> {
      {resolveSignal} + (if rejectSignal.Some? then {rejectSignal.value} else {})
    }

    /** The closures of this promise that `s` holds. */
    function Closures(s: ListenerSet): set<Key> {
      (if s == resolveSignal then {completeResolution} else {}) +
      (if rejectSignal.Some? && s == rejectSignal.value then {completeRejection} else {})
    }

    ghost predicate Valid()
      reads this, Sets()
    {
      forall s :: s in Sets() ==> s.Valid()
    }

    constructor (resolveSignal: ListenerSet, rejectSignal: Option<ListenerSet>, ids: IdSource)
      requires resolveSignal.Valid() && (rejectSignal.Some? ==> rejectSignal.value.Valid())
      modifies resolveSignal, (if rejectSignal.Some? then {rejectSignal.value} else {}), ids
      ensures Valid() && fresh(promise) && promise.state == Pending
      ensures this.resolveSignal == resolveSignal && this.rejectSignal == rejectSignal
      ensures completeResolution == Made(old(ids.next)) && completeRejection == Made(old(ids.next) + 1)
      ensures rejectSignal != Some(resolveSignal) ==>
        resolveSignal.listeners == Insert(old(resolveSignal.listeners), completeResolution)
      ensures rejectSignal.Some? && rejectSignal.value != resolveSignal ==>
        rejectSignal.value.listeners == Insert(old(rejectSignal.value.listeners), completeRejection)
      ensures rejectSignal == Some(resolveSignal) ==>
        resolveSignal.listeners == Insert(Insert(old(resolveSignal.listeners), completeResolution), completeRejection)
    {
      var resolution := ids.Fresh();
      var rejection := ids.Fresh();
      var p := new Promise();
      promise := p;
      this.resolveSignal := resolveSignal;
      this.rejectSignal := rejectSignal;
      completeResolution := resolution;
      completeRejection := rejection;
      new;
      resolveSignal.Add(resolution);
      if rejectSignal.Some? {
        rejectSignal.value.Add(rejection);
      }
    }

    /** `clearListeners()`: both closures leave the signals that hold them; nothing else changes. */
    method ClearListeners()
      requires Valid()
      modifies Sets()
      ensures Valid()
      ensures forall s :: s in Sets() ==> s.listeners == DeleteAll(old(s.listeners), Closures(s))
      ensures forall s :: s in Sets() ==> s.catchers == old(s.catchers)
    {
      resolveSignal.Remove(completeResolution);
      if rejectSignal.None? {
        assert Sets() == {resolveSignal};
        assert Closures(resolveSignal) == {completeResolution};
      } else if rejectSignal.value == resolveSignal {
        DeleteAllTwice(old(resolveSignal.listeners), {completeResolution}, {completeRejection});
        assert {completeResolution} + {completeRejection} == Closures(resolveSignal);
        resolveSignal.Remove(completeRejection);
        assert Sets() == {resolveSignal};
      } else {
        rejectSignal.value.Remove(completeRejection);
        assert Closures(resolveSignal) == {completeResolution};
        assert Closures(rejectSignal.value) == {completeRejection};
      }
    }

    /** `completeResolution(p)`: clear both closures, then resolve. */
    method CompleteResolution(p: Payload)
      requires Valid()
      modifies Sets(), promise
      ensures Valid()
      ensures forall s :: s in Sets() ==> s.listeners == DeleteAll(old(s.listeners), Closures(s))
      ensures forall s :: s in Sets() ==> s.catchers == old(s.catchers)
      ensures promise.state == if old(promise.state) == Pending then Resolved(p) else old(promise.state)
    {
      ClearListeners();
      promise.Resolve(p);
    }

    /** `completeRejection(p)`: clear both closures, then reject. */
    method CompleteRejection(p: Payload)
      requires Valid()
      modifies Sets(), promise
      ensures Valid()
      ensures forall s :: s in Sets() ==> s.listeners == DeleteAll(old(s.listeners), Closures(s))
      ensures forall s :: s in Sets() ==> s.catchers == old(s.catchers)
      ensures promise.state == if old(promise.state) == Pending then Rejected(p) else old(promise.state)
    {
      ClearListeners();
      promise.Reject(p);
    }
  }
}

=== FILE: listener_set.dfy ===
/**
 * The two sets a signal of src/signal.ts owns, and the four closures its
 * constructor hands to the extended-signal layer as its base:
 * add/remove a listener, catch/removeCatcher an exception observer.
 */
module ListenerSets {
  import opened Common
  import opened OrderedSets

  class ListenerSet {
    /** `_listeners`, in insertion order. */
    var listeners: seq<Key>
    /** `_catchers`, in insertion order. */
    var catchers: seq<Key>

    ghost predicate Valid()
      reads this
    {
      NoDup(listeners) && NoDup(catchers)
    }

    constructor ()
      ensures Valid() && listeners == [] && catchers == []
    {
      listeners, catchers := [], [];
    }

    /** A listener already present stays where it is; the set does not grow. */
    method Add(l: Key)
      requires Valid()
      modifies this
      ensures Valid()
      ensures listeners == Insert(old(listeners), l) && catchers == old(catchers)
    {
      listeners := Insert(listeners, l);
    }

    /** Removing an absent listener changes nothing. */
    method Remove(l: Key)
      requires Valid()
      modifies this
      ensures Valid()
      ensures listeners == Delete(old(listeners), l) && catchers == old(catchers)
      ensures l !in old(listeners) ==> listeners == old(listeners)
    {
      listeners := Delete(listeners, l);
    }

    method Catch(c: Key)
      requires Valid()
      modifies this
      ensures Valid()
      ensures catchers == Insert(old(catchers), c) && listeners == old(listeners)
    {
      catchers := Insert(catchers, c);
    }

    method RemoveCatcher(c: Key)
      requires Valid()
      modifies this
      ensures Valid()
      ensures catchers == Delete(old(catchers), c) && listeners == old(listeners)
      ensures c !in old(catchers) ==> catchers == old(catchers)
    {
      catchers := Delete(catchers, c);
    }
  }
}

=== FILE: micro_signals.dfy ===
/**
 * The binding-based signal of src/micro-signals.ts and the closures the
 * binding-based layers create.
 *
 * `add` returns a binding whose `detach` removes exactly that registration.
 * Every closure the library makes (a once-wrapper, a filtering or mapping
 * wrapper, a promise settler) is a `Made` key with a `Behaviour` recorded in
 * `Closures`; what calling a key does is the pure function `Invoke`.
 */
module MicroSignals {
  import opened Common
  import opened OrderedSets

  /** What `detach()` of a binding removes. */
  datatype Binding =
    | Detach(signal: MicroSignal, listener: Key)    // from `Signal.add`
    | Combined(parts: seq<Binding>)                 // from merged `add`: detaches every part, in order

  /** The keys `b` detaches from `s`, in the order they were added. */
  function KeysOn(b: Binding, s: MicroSignal): seq<Key>
    decreases b
  {
    match b
    case Detach(sig, k) => if sig == s then [k] else []
    case Combined(parts) => KeysOnAll(parts, s)
  }

  function KeysOnAll(parts: seq<Binding>, s: MicroSignal): seq<Key>
    decreases parts
  {
    if parts == [] then [] else KeysOnAll(parts[..|parts| - 1], s) + KeysOn(parts[|parts| - 1], s)
  }

  /** The signals `b` detaches from. */
  function SignalsOf(b: Binding): set<MicroSignal>
    decreases b
  {
    match b
    case Detach(sig, _) => {sig}
    case Combined(parts) => SignalsOfAll(parts)
  }

  function SignalsOfAll(parts: seq<Binding>): set<MicroSignal>
    decreases parts
  {
    if parts == [] then {} else SignalsOfAll(parts[..|parts| - 1]) + SignalsOf(parts[|parts| - 1])
  }

  function AsSet(ks: seq<Key>): set<Key> {
    set k | k in ks
  }

  lemma {:induction false} KeysOnElsewhere(b: Binding, s: MicroSignal)
    requires s !in SignalsOf(b)
    ensures KeysOn(b, s) == []
    decreases b
  {
    if b.Combined? {
      KeysOnAllElsewhere(b.parts, s);
    }
  }

  lemma {:induction false} KeysOnAllElsewhere(parts: seq<Binding>, s: MicroSignal)
    requires s !in SignalsOfAll(parts)
    ensures KeysOnAll(parts, s) == []
    decreases parts
  {
    if parts != [] {
      KeysOnAllElsewhere(parts[..|parts| - 1], s);
      KeysOnElsewhere(parts[|parts| - 1], s);
    }
  }

  /** The `Signal` of src/micro-signals.ts: one listener set. */
  class MicroSignal {
    var listeners: seq<Key>

    ghost predicate Valid()
      reads this
    {
      NoDup(listeners)
    }

    constructor ()
      ensures Valid() && listeners == []
    {
      listeners := [];
    }

    /** `add(listener)`: a set insertion; the binding detaches this very listener from this signal. */
    method Add(l: Key) returns (b: Binding)
      requires Valid()
      modifies this
      ensures Valid()
      ensures listeners == Insert(old(listeners), l)
      ensures b == Detach(this, l) && KeysOn(b, this) == [l]
    {
      listeners := Insert(listeners, l);
      b := Detach(this, l);
    }

    /**
     * `addOnce(listener)`: a fresh wrapper that detaches its own binding and
     * then calls `l` is added; the same binding is returned.
     */
    method AddOnce(l: Key, rt: Closures) returns (b: Binding)
      requires Valid() && rt.Valid() && rt.Allocated(l)
      modifies this, rt
      ensures Valid() && rt.Valid()
      ensures var o := Made(old(rt.next));
              rt.next == old(rt.next) + 1 && b == Detach(this, o) &&
              listeners == Insert(old(listeners), o) &&
              rt.behaviours == old(rt.behaviours)[o := OnceThen(b, l)]
    {
      var o := rt.Fresh();
      b := Add(o);
      rt.Define(o, OnceThen(b, l));
    }

    /**
     * `dispatch(payload)`: every listener of the set, in insertion order,
     * is called with `p`; one detached by an earlier call of the same
     * dispatch is not reached.
     */
    method Dispatch(p: Payload, rt: Closures, ghost sigs: set<MicroSignal>, ghost proms: set<Promise>)
      returns (log: seq<Step>)
      requires this in sigs && forall s :: s in sigs ==> s.Valid()
      requires rt.Valid() && BehavioursWithin(rt.behaviours, sigs, proms)
      modifies sigs, proms
      ensures forall s :: s in sigs ==> s.Valid()
      ensures var t := Run(old(Snapshot(sigs, proms)), this, old(listeners), |old(listeners)|, rt.behaviours, p);
              log == t.log && Snapshot(sigs, proms) == t.world
    {
      var ls := listeners;
      ghost var w0 := Snapshot(sigs, proms);
      log := [];
      for i := 0 to |ls|
        invariant forall s :: s in sigs ==> s.Valid()
        invariant var t := Run(w0, this, ls, i, rt.behaviours, p); log == t.log && Snapshot(sigs, proms) == t.world
      {
        if ls[i] in listeners {
          var steps := Invoke(rt.behaviours, ls[i], p);
          InvokeWithin(rt.behaviours, ls[i], p, sigs, proms);
          Perform(steps, sigs, proms);
          log := log + steps;
        }
      }
    }

    /** The body of a binding's `detach`: `_listeners.delete(listener)`. */
    method Delete(l: Key)
      requires Valid()
      modifies this
      ensures Valid()
      ensures listeners == DeleteAll(old(listeners), {l})
    {
      listeners := OrderedSets.Delete(listeners, l);
    }
  }

  /**
   * `binding.detach()`. Every signal the binding names loses the keys it
   * names there, and nothing else; detaching again finds nothing to remove.
   */
  method DetachBinding(b: Binding, ghost world: set<MicroSignal>)
    requires SignalsOf(b) <= world
    requires forall s :: s in world ==> s.Valid()
    modifies SignalsOf(b)
    ensures forall s :: s in world ==> s.Valid()
    ensures forall s :: s in world ==> s.listeners == DeleteAll(old(s.listeners), AsSet(KeysOn(b, s)))
    decreases b, 1
  {
    match b
    case Detach(sig, k) =>
      assert AsSet(KeysOn(b, sig)) == {k};
      sig.Delete(k);
      forall s | s in world && s != sig ensures s.listeners == DeleteAll(old(s.listeners), AsSet(KeysOn(b, s))) {
        assert AsSet(KeysOn(b, s)) == {};
        DeleteAllAbsent(s.listeners, {});
      }
    case Combined(parts) =>
      DetachParts(parts, world);
  }

  /** The `detach()` of a combined binding: each part's `detach()` in turn. */
  method DetachParts(parts: seq<Binding>, ghost world: set<MicroSignal>)
    requires SignalsOfAll(parts) <= world
    requires forall s :: s in world ==> s.Valid()
    modifies SignalsOfAll(parts)
    ensures forall s :: s in world ==> s.Valid()
    ensures forall s :: s in world ==> s.listeners == DeleteAll(old(s.listeners), AsSet(KeysOnAll(parts, s)))
    decreases Combined(parts), 0
  {
    forall s | s in world ensures s.listeners == DeleteAll(s.listeners, AsSet(KeysOnAll(parts[..0], s))) {
      assert AsSet(KeysOnAll(parts[..0], s)) == {};
      DeleteAllAbsent(s.listeners, {});
    }
    for i := 0 to |parts|
      invariant forall s :: s in world ==> s.Valid()
      invariant forall s :: s in world ==>
        s.listeners == DeleteAll(old(s.listeners), AsSet(KeysOnAll(parts[..i], s)))
    {
      assert parts[..i + 1][..i] == parts[..i];
      SignalsOfPart(parts, i);
      DetachBinding(parts[i], world);
      forall s | s in world
        ensures s.listeners == DeleteAll(old(s.listeners), AsSet(KeysOnAll(parts[..i + 1], s)))
      {
        DeleteAllTwice(old(s.listeners), AsSet(KeysOnAll(parts[..i], s)), AsSet(KeysOn(parts[i], s)));
        assert AsSet(KeysOnAll(parts[..i + 1], s)) == AsSet(KeysOnAll(parts[..i], s)) + AsSet(KeysOn(parts[i], s));
      }
    }
    assert parts[..|parts|] == parts;
  }

  lemma {:induction false} SignalsOfPart(parts: seq<Binding>, i: nat)
    requires i < |parts|
    ensures SignalsOf(parts[i]) <= SignalsOfAll(parts)
    decreases |parts|
  {
    if i < |parts| - 1 {
      SignalsOfPart(parts[..|parts| - 1], i);
    }
  }

  // ---------------------------------------------------------------------
  // The closures the library makes, and what calling one does.

  /** A closure the library made and what it does with a payload. */
  datatype Behaviour =
    | FilterThen(keep: Payload -> bool, next: Key)          // calls `next` only if `keep` holds
    | MapThen(transform: Payload -> Payload, next: Key)     // calls `next` with the transformed payload
    | OnceThen(binding: Binding, next: Key)                 // detaches its own binding, then calls `next`
    | Settle(bindings: seq<Binding>, promise: Promise, resolving: bool)  // detaches all, then settles

  /** What calling a key does that the outside can see. */
  datatype Step =
    | Call(listener: Key, payload: Payload)                 // a listener the library did not make
    | Unbind(binding: Binding)
    | Settled(promise: Promise, outcome: Settlement)

  /** Closures are made after the listener they call, so a chain of calls ends. */
  function Rank(k: Key): nat {
    if k.User? then 0 else k.n + 1
  }

  ghost predicate Ranked(bs: map<Key, Behaviour>) {
    forall w :: w in bs && !bs[w].Settle? ==> Rank(bs[w].next) < Rank(w)
  }

  /** The steps of calling `k` with `p`. */
  function Invoke(bs: map<Key, Behaviour>, k: Key, p: Payload): seq<Step>
    requires Ranked(bs)
    decreases Rank(k)
  {
    if k !in bs then [Call(k, p)]
    else match bs[k]
      case FilterThen(keep, next) => if keep(p) then Invoke(bs, next, p) else []
      case MapThen(transform, next) => Invoke(bs, next, transform(p))
      case OnceThen(binding, next) => [Unbind(binding)] + Invoke(bs, next, p)
      case Settle(bindings, promise, resolving) =>
        seq(|bindings|, i requires 0 <= i < |bindings| => Unbind(bindings[i])) +
        [Settled(promise, if resolving then Resolved(p) else Rejected(p))]
  }

  /** Every listener `b` detaches is a closure made before `bound`, never a user's listener. */
  ghost predicate BindingBelow(b: Binding, bound: nat) {
    forall s, k :: s in SignalsOf(b) && k in KeysOn(b, s) ==> k.Made? && Rank(k) <= bound
  }

  /** The bindings a closure holds detach only listeners below `bound`. */
  ghost predicate BehaviourBelow(beh: Behaviour, bound: nat) {
    match beh
    case OnceThen(b, _) => BindingBelow(b, bound)
    case Settle(bindings, _, _) => forall i :: 0 <= i < |bindings| ==> BindingBelow(bindings[i], bound)
    case _ => true
  }

  /** Every closure made before `next` calls and detaches only closures made before it. */
  ghost predicate WellMade(bs: map<Key, Behaviour>, next: nat) {
    Ranked(bs) &&
    forall w :: w in bs ==> w.Made? && w.n < next && BehaviourBelow(bs[w], next)
  }

  /** The closures made so far. */
  class Closures {
    var behaviours: map<Key, Behaviour>
    /** The next fresh closure identity. */
    var next: nat

    /** A key the program already knows: a user's, or a closure already made. */
    predicate Allocated(k: Key)
      reads this
    {
      k.User? || k.n < next
    }

    ghost predicate Valid()
      reads this
    {
      WellMade(behaviours, next)
    }

    constructor ()
      ensures Valid() && behaviours == map[] && next == 0
    {
      behaviours, next := map[], 0;
    }

    /** A new closure object, distinct from every key known so far. */
    method Fresh() returns (w: Key)
      requires Valid()
      modifies this
      ensures Valid() && behaviours == old(behaviours)
      ensures w == Made(old(next)) && next == old(next) + 1 && !old(Allocated(w)) && Allocated(w)
    {
      w := Made(next);
      next := next + 1;
    }

    /** Record what the new closure `w` does; it calls only keys made before it. */
    method Define(w: Key, b: Behaviour)
      requires Valid() && w.Made? && Allocated(w) && w !in behaviours
      requires !b.Settle? ==> Rank(b.next) < Rank(w)
      requires BehaviourBelow(b, next)
      modifies this
      ensures Valid() && next == old(next)
      ensures behaviours == old(behaviours)[w := b]
    {
      behaviours := behaviours[w := b];
    }
  }

  // ---------------------------------------------------------------------
  // Dispatch over a world of signals and promises.

  /** The listener set of every signal and the state of every promise. */
  datatype World = World(sets: map<MicroSignal, seq<Key>>, promises: map<Promise, Settlement>)

  /** Every signal of the world after `binding.detach()`. */
  function Unbound(sets: map<MicroSignal, seq<Key>>, b: Binding): map<MicroSignal, seq<Key>> {
    map s | s in sets :: DeleteAll(sets[s], AsSet(KeysOn(b, s)))
  }

  function Apply(w: World, st: Step): World {
    match st
    case Call(_, _) => w
    case Unbind(b) => w.(sets := Unbound(w.sets, b))
    case Settled(pr, outcome) =>
      if pr in w.promises && w.promises[pr] == Pending then w.(promises := w.promises[pr := outcome]) else w
  }

  function ApplyAll(w: World, steps: seq<Step>): World
    decreases |steps|
  {
    if steps == [] then w else Apply(ApplyAll(w, steps[..|steps| - 1]), steps[|steps| - 1])
  }

  datatype Trace = Trace(log: seq<Step>, world: World)

  /**
   * The first `n` listeners of the snapshot `ls` of signal `s` visited in
   * order; a listener detached by an earlier call is skipped, as a `Set`'s
   * `forEach` skips entries deleted before it reaches them.
   */
  function Run(w: World, s: MicroSignal, ls: seq<Key>, n: nat, bs: map<Key, Behaviour>, p: Payload): Trace
    requires n <= |ls| && Ranked(bs)
    decreases n
  {
    if n == 0 then Trace([], w)
    else
      var t := Run(w, s, ls, n - 1, bs, p);
      var k := ls[n - 1];
      if s in t.world.sets && k in t.world.sets[s] then
        var steps := Invoke(bs, k, p);
        Trace(t.log + steps, ApplyAll(t.world, steps))
      else t
  }

  /** Every binding and promise a step names lies in the given world. */
  ghost predicate StepWithin(st: Step, sigs: set<MicroSignal>, proms: set<Promise>) {
    match st
    case Call(_, _) => true
    case Unbind(b) => SignalsOf(b) <= sigs
    case Settled(pr, _) => pr in proms
  }

  ghost predicate BehavioursWithin(bs: map<Key, Behaviour>, sigs: set<MicroSignal>, proms: set<Promise>) {
    forall w :: w in bs ==>
      match bs[w]
      case OnceThen(b, _) => SignalsOf(b) <= sigs
      case Settle(bindings, pr, _) => pr in proms && forall i :: 0 <= i < |bindings| ==> SignalsOf(bindings[i]) <= sigs
      case _ => true
  }

  lemma {:induction false} InvokeWithin(bs: map<Key, Behaviour>, k: Key, p: Payload, sigs: set<MicroSignal>, proms: set<Promise>)
    requires Ranked(bs) && BehavioursWithin(bs, sigs, proms)
    ensures forall st :: st in Invoke(bs, k, p) ==> StepWithin(st, sigs, proms)
    decreases Rank(k)
  {
    if k in bs {
      match bs[k]
      case FilterThen(keep, next) => InvokeWithin(bs, next, p, sigs, proms);
      case MapThen(transform, next) => InvokeWithin(bs, next, transform(p), sigs, proms);
      case OnceThen(binding, next) => InvokeWithin(bs, next, p, sigs, proms);
      case Settle(bindings, promise, resolving) =>
    }
  }

  ghost function Snapshot(sigs: set<MicroSignal>, proms: set<Promise>): World
    reads sigs, proms
  {
    World(map s | s in sigs :: s.listeners, map pr | pr in proms :: pr.state)
  }

  /** Carry out the steps of one call, in order. */
  method Perform(steps: seq<Step>, ghost sigs: set<MicroSignal>, ghost proms: set<Promise>)
    requires forall st :: st in steps ==> StepWithin(st, sigs, proms)
    requires forall s :: s in sigs ==> s.Valid()
    modifies sigs, proms
    ensures forall s :: s in sigs ==> s.Valid()
    ensures Snapshot(sigs, proms) == ApplyAll(old(Snapshot(sigs, proms)), steps)
  {
    for i := 0 to |steps|
      invariant forall s :: s in sigs ==> s.Valid()
      invariant Snapshot(sigs, proms) == ApplyAll(old(Snapshot(sigs, proms)), steps[..i])
    {
      assert steps[..i + 1][..i] == steps[..i];
      PerformStep(steps[i], sigs, proms);
    }
    assert steps[..|steps|] == steps;
  }

  method PerformStep(st: Step, ghost sigs: set<MicroSignal>, ghost proms: set<Promise>)
    requires StepWithin(st, sigs, proms)
    requires forall s :: s in sigs ==> s.Valid()
    modifies sigs, proms
    ensures forall s :: s in sigs ==> s.Valid()
    ensures Snapshot(sigs, proms) == Apply(old(Snapshot(sigs, proms)), st)
  {
    match st
    case Call(_, _) =>
    case Unbind(b) => PerformUnbind(b, sigs, proms);
    case Settled(pr, outcome) => PerformSettled(pr, outcome, sigs, proms);
  }

  /** `binding.detach()` run by a closure. */
  method PerformUnbind(b: Binding, ghost sigs: set<MicroSignal>, ghost proms: set<Promise>)
    requires SignalsOf(b) <= sigs
    requires forall s :: s in sigs ==> s.Valid()
    modifies sigs
    ensures forall s :: s in sigs ==> s.Valid()
    ensures Snapshot(sigs, proms) == Apply(old(Snapshot(sigs, proms)), Unbind(b))
  {
    ghost var L, P := map s | s in sigs :: s.listeners, map q | q in proms :: q.state;
    DetachBinding(b, sigs);
    assert (map q | q in proms :: q.state) == P;
    forall s | s in sigs ensures s.listeners == Unbound(L, b)[s] {
      assert L[s] == old(s.listeners);
    }
    assert (map s | s in sigs :: s.listeners) == Unbound(L, b);
  }

  /** `resolve(v)` or `reject(e)` run by a closure; a settled promise ignores it. */
  method PerformSettled(pr: Promise, outcome: Settlement, ghost sigs: set<MicroSignal>, ghost proms: set<Promise>)
    requires pr in proms
    modifies proms
    ensures Snapshot(sigs, proms) == Apply(old(Snapshot(sigs, proms)), Settled(pr, outcome))
  {
    match outcome
    case Pending =>
    case Resolved(v) => pr.Resolve(v);
    case Rejected(r) => pr.Reject(r);
    assert (map q | q in proms :: q.state) ==
      if old(pr.state) == Pending then old(Snapshot(sigs, proms)).promises[pr := outcome] else old(Snapshot(sigs, proms)).promises;
  }

  // ---------------------------------------------------------------------
  // Properties of detach and dispatch.

  /** Detaching a binding a second time finds nothing left to remove. */
  lemma UnboundTwice(sets: map<MicroSignal, seq<Key>>, b: Binding)
    ensures Unbound(Unbound(sets, b), b) == Unbound(sets, b)
  {
    forall s | s in sets ensures Unbound(Unbound(sets, b), b)[s] == Unbound(sets, b)[s] {
      var ks := AsSet(KeysOn(b, s));
      DeleteAllTwice(sets[s], ks, ks);
      assert ks + ks == ks;
    }
  }

  /** Calls and detaches only ever remove listeners, and no signal leaves the world. */
  lemma {:induction false} ApplyAllShrinks(w: World, steps: seq<Step>)
    ensures ApplyAll(w, steps).sets.Keys == w.sets.Keys
    ensures forall s, k :: s in w.sets && k in ApplyAll(w, steps).sets[s] ==> k in w.sets[s]
    decreases |steps|
  {
    if steps != [] {
      ApplyAllShrinks(w, steps[..|steps| - 1]);
    }
  }

  lemma {:induction false} RunShrinks(w: World, s: MicroSignal, ls: seq<Key>, n: nat, bs: map<Key, Behaviour>, p: Payload)
    requires n <= |ls| && Ranked(bs)
    ensures Run(w, s, ls, n, bs, p).world.sets.Keys == w.sets.Keys
    ensures forall s', k :: s' in w.sets && k in Run(w, s, ls, n, bs, p).world.sets[s'] ==> k in w.sets[s']
    decreases n
  {
    if n > 0 {
      var t := Run(w, s, ls, n - 1, bs, p);
      RunShrinks(w, s, ls, n - 1, bs, p);
      if s in t.world.sets && ls[n - 1] in t.world.sets[s] {
        ApplyAllShrinks(t.world, Invoke(bs, ls[n - 1], p));
      }
    }
  }

  /** Once `b` is detached during the steps, none of its keys remains on `s`. */
  lemma {:induction false} ApplyAllUnbinds(w: World, steps: seq<Step>, b: Binding, s: MicroSignal)
    requires s in w.sets && Unbind(b) in steps
    ensures s in ApplyAll(w, steps).sets
    ensures forall k :: k in KeysOn(b, s) ==> k !in ApplyAll(w, steps).sets[s]
    decreases |steps|
  {
    ApplyAllShrinks(w, steps);
    var init := steps[..|steps| - 1];
    ApplyAllShrinks(w, init);
    if steps[|steps| - 1] != Unbind(b) {
      assert Unbind(b) in init by {
        var j :| 0 <= j < |steps| && steps[j] == Unbind(b);
        assert init[j] == Unbind(b);
      }
      ApplyAllUnbinds(w, init, b, s);
    }
  }

  /** `x` occurs at most once in `xs`. */
  ghost predicate AtMostOnce(xs: seq<Step>, x: Step) {
    forall i, j :: 0 <= i < j < |xs| && xs[i] == x ==> xs[j] != x
  }

  /**
   * Of the listeners in `live`, only those `b` detaches from `s` call
   * `b.detach()`, and each at most once per call: what a once-wrapper's
   * binding looks like.
   */
  ghost predicate OnlyOwnKeysUnbind(bs: map<Key, Behaviour>, b: Binding, s: MicroSignal, live: seq<Key>, p: Payload)
    requires Ranked(bs)
  {
    forall k :: k in live ==>
      (Unbind(b) in Invoke(bs, k, p) ==> k in KeysOn(b, s)) && AtMostOnce(Invoke(bs, k, p), Unbind(b))
  }

  lemma AtMostOnceConcat(xs: seq<Step>, ys: seq<Step>, x: Step)
    requires AtMostOnce(xs, x) && AtMostOnce(ys, x) && !(x in xs && x in ys)
    ensures AtMostOnce(xs + ys, x)
    ensures x in xs + ys <==> x in xs || x in ys
  {
    var zs := xs + ys;
    forall i, j | 0 <= i < j < |zs| && zs[i] == x ensures zs[j] != x {
      if i < |xs| && j >= |xs| {
        assert xs[i] == x && ys[j - |xs|] == zs[j];
      } else if i >= |xs| {
        assert ys[i - |xs|] == x && ys[j - |xs|] == zs[j];
      } else {
        assert xs[j] == zs[j];
      }
    }
  }

  /**
   * A once-binding is detached at most once by a dispatch; once detached,
   * its keys are gone from the signal, so later dispatches do not reach
   * them; and if none of them is registered, the dispatch never detaches it.
   */
  lemma {:induction false} RunUnbindsOnce(w: World, s: MicroSignal, ls: seq<Key>, n: nat, bs: map<Key, Behaviour>, p: Payload, b: Binding)
    requires n <= |ls| && Ranked(bs) && s in w.sets
    requires OnlyOwnKeysUnbind(bs, b, s, w.sets[s], p)
    ensures AtMostOnce(Run(w, s, ls, n, bs, p).log, Unbind(b))
    ensures s in Run(w, s, ls, n, bs, p).world.sets
    ensures Unbind(b) in Run(w, s, ls, n, bs, p).log ==>
      forall k :: k in KeysOn(b, s) ==> k !in Run(w, s, ls, n, bs, p).world.sets[s]
    ensures (forall k :: k in KeysOn(b, s) ==> k !in w.sets[s]) ==> Unbind(b) !in Run(w, s, ls, n, bs, p).log
    decreases n
  {
    RunShrinks(w, s, ls, n, bs, p);
    if n > 0 {
      var t := Run(w, s, ls, n - 1, bs, p);
      RunUnbindsOnce(w, s, ls, n - 1, bs, p, b);
      RunShrinks(w, s, ls, n - 1, bs, p);
      var k := ls[n - 1];
      if k in t.world.sets[s] {
        var steps := Invoke(bs, k, p);
        assert k in w.sets[s];
        ApplyAllShrinks(t.world, steps);
        if Unbind(b) in steps {
          ApplyAllUnbinds(t.world, steps, b, s);
        }
        AtMostOnceConcat(t.log, steps, Unbind(b));
      }
    }
  }

  /** `b` only ever detaches closures the library made, never a user's listener. */
  ghost predicate SparesUsers(b: Binding) {
    forall s, k :: s in SignalsOf(b) && k in KeysOn(b, s) ==> k.Made?
  }

  lemma UnboundKeepsUsers(sets: map<MicroSignal, seq<Key>>, b: Binding)
    requires SparesUsers(b)
    ensures forall s, u: Key :: s in sets && u.User? && u in sets[s] ==> u in Unbound(sets, b)[s]
  {
    forall s, u: Key | s in sets && u.User? && u in sets[s] ensures u in Unbound(sets, b)[s] {
      if s !in SignalsOf(b) {
        KeysOnElsewhere(b, s);
      } else {
        assert u in KeysOn(b, s) ==> u.Made?;
      }
    }
  }

  /** Every binding a closure holds spares users' listeners. */
  ghost predicate BehavioursSpareUsers(bs: map<Key, Behaviour>) {
    forall w :: w in bs ==>
      match bs[w]
      case OnceThen(b, _) => SparesUsers(b)
      case Settle(bindings, _, _) => forall i :: 0 <= i < |bindings| ==> SparesUsers(bindings[i])
      case _ => true
  }

  /** The closures made so far hold only bindings that spare users' listeners. */
  lemma WellMadeSparesUsers(bs: map<Key, Behaviour>, next: nat)
    requires WellMade(bs, next)
    ensures BehavioursSpareUsers(bs)
  {
    forall w | w in bs && bs[w].Settle?
      ensures forall i :: 0 <= i < |bs[w].bindings| ==> SparesUsers(bs[w].bindings[i])
    {
      assert BehaviourBelow(bs[w], next);
    }
  }

  lemma {:induction false} InvokeSparesUsers(bs: map<Key, Behaviour>, k: Key, p: Payload)
    requires Ranked(bs) && BehavioursSpareUsers(bs)
    ensures forall st :: st in Invoke(bs, k, p) && st.Unbind? ==> SparesUsers(st.binding)
    decreases Rank(k)
  {
    if k in bs {
      match bs[k]
      case FilterThen(keep, next) => InvokeSparesUsers(bs, next, p);
      case MapThen(transform, next) => InvokeSparesUsers(bs, next, transform(p));
      case OnceThen(binding, next) => InvokeSparesUsers(bs, next, p);
      case Settle(bindings, promise, resolving) =>
    }
  }

  lemma {:induction false} ApplyAllKeepsUsers(w: World, steps: seq<Step>)
    requires forall st :: st in steps && st.Unbind? ==> SparesUsers(st.binding)
    ensures ApplyAll(w, steps).sets.Keys == w.sets.Keys
    ensures forall s, u: Key :: s in w.sets && u.User? && u in w.sets[s] ==> u in ApplyAll(w, steps).sets[s]
    decreases |steps|
  {
    ApplyAllShrinks(w, steps);
    if steps != [] {
      ApplyAllKeepsUsers(w, steps[..|steps| - 1]);
      var last := steps[|steps| - 1];
      if last.Unbind? {
        UnboundKeepsUsers(ApplyAll(w, steps[..|steps| - 1]).sets, last.binding);
      }
    }
  }

  /**
   * A dispatch calls every user's listener that was registered when it
   * began, with the dispatched payload: closures detach only closures, so no
   * earlier listener can unsubscribe a user's listener before its turn.
   */
  lemma {:induction false} RunCallsUsers(w: World, s: MicroSignal, ls: seq<Key>, n: nat, bs: map<Key, Behaviour>, next: nat, p: Payload)
    requires n <= |ls| && WellMade(bs, next) && s in w.sets
    ensures s in Run(w, s, ls, n, bs, p).world.sets
    ensures forall u: Key :: u.User? && u in w.sets[s] ==> u in Run(w, s, ls, n, bs, p).world.sets[s]
    ensures forall i :: 0 <= i < n && ls[i].User? && ls[i] in w.sets[s] ==> Call(ls[i], p) in Run(w, s, ls, n, bs, p).log
    decreases n
  {
    RunShrinks(w, s, ls, n, bs, p);
    if n > 0 {
      var t := Run(w, s, ls, n - 1, bs, p);
      RunCallsUsers(w, s, ls, n - 1, bs, next, p);
      var k := ls[n - 1];
      if k in t.world.sets[s] {
        var steps := Invoke(bs, k, p);
        WellMadeSparesUsers(bs, next);
        InvokeSparesUsers(bs, k, p);
        ApplyAllKeepsUsers(t.world, steps);
        if k.User? {
          assert steps == [Call(k, p)];
        }
      }
    }
  }

  /**
   * A binding that names a listener made after `bound` is held by no
   * closure made before it, so calling an older key never detaches it.
   */
  lemma {:induction false} OlderKeysSpare(bs: map<Key, Behaviour>, k: Key, p: Payload, bound: nat, b: Binding, s0: MicroSignal, k0: Key)
    requires Ranked(bs) && Rank(k) <= bound
    requires forall w :: w in bs && Rank(w) <= bound ==> BehaviourBelow(bs[w], bound)
    requires s0 in SignalsOf(b) && k0 in KeysOn(b, s0) && Rank(k0) > bound
    ensures Unbind(b) !in Invoke(bs, k, p)
    decreases Rank(k)
  {
    if k in bs {
      match bs[k]
      case FilterThen(keep, next) => OlderKeysSpare(bs, next, p, bound, b, s0, k0);
      case MapThen(transform, next) => OlderKeysSpare(bs, next, transform(p), bound, b, s0, k0);
      case OnceThen(binding, next) =>
        assert BindingBelow(binding, bound);
        assert binding != b;
        OlderKeysSpare(bs, next, p, bound, b, s0, k0);
      case Settle(bindings, promise, resolving) =>
        assert forall i :: 0 <= i < |bindings| ==> BindingBelow(bindings[i], bound);
    }
  }

  /**
   * Once a dispatch has detached `b`, no key of `b` is left on any signal,
   * not only on the one dispatched.
   */
  lemma {:induction false} RunUnbindGone(w: World, s: MicroSignal, ls: seq<Key>, n: nat, bs: map<Key, Behaviour>, p: Payload, b: Binding, s2: MicroSignal)
    requires n <= |ls| && Ranked(bs) && s2 in w.sets
    ensures s2 in Run(w, s, ls, n, bs, p).world.sets
    ensures Unbind(b) in Run(w, s, ls, n, bs, p).log ==>
      forall k :: k in KeysOn(b, s2) ==> k !in Run(w, s, ls, n, bs, p).world.sets[s2]
    decreases n
  {
    RunShrinks(w, s, ls, n, bs, p);
    if n > 0 {
      var t := Run(w, s, ls, n - 1, bs, p);
      RunUnbindGone(w, s, ls, n - 1, bs, p, b, s2);
      RunShrinks(w, s, ls, n - 1, bs, p);
      var k := ls[n - 1];
      if s in t.world.sets && k in t.world.sets[s] {
        var steps := Invoke(bs, k, p);
        ApplyAllShrinks(t.world, steps);
        if Unbind(b) in steps {
          ApplyAllUnbinds(t.world, steps, b, s2);
        }
      }
    }
  }

  /** One `dispatch(payload)` on a signal. */
  datatype Shot = Shot(signal: MicroSignal, payload: Payload)

  /** Dispatches one after another, each over the listeners its signal has when it begins. */
  function Series(w: World, shots: seq<Shot>, bs: map<Key, Behaviour>): Trace
    requires Ranked(bs)
    decreases |shots|
  {
    if shots == [] then Trace([], w)
    else
      var t := Series(w, shots[..|shots| - 1], bs);
      var sh := shots[|shots| - 1];
      var ls := if sh.signal in t.world.sets then t.world.sets[sh.signal] else [];
      var u := Run(t.world, sh.signal, ls, |ls|, bs, sh.payload);
      Trace(t.log + u.log, u.world)
  }

  lemma {:induction false} SeriesShrinks(w: World, shots: seq<Shot>, bs: map<Key, Behaviour>)
    requires Ranked(bs)
    ensures Series(w, shots, bs).world.sets.Keys == w.sets.Keys
    ensures forall s, k :: s in w.sets && k in Series(w, shots, bs).world.sets[s] ==> k in w.sets[s]
    decreases |shots|
  {
    if shots != [] {
      var t := Series(w, shots[..|shots| - 1], bs);
      var sh := shots[|shots| - 1];
      var ls := if sh.signal in t.world.sets then t.world.sets[sh.signal] else [];
      SeriesShrinks(w, shots[..|shots| - 1], bs);
      RunShrinks(t.world, sh.signal, ls, |ls|, bs, sh.payload);
    }
  }

  /** Fewer listeners to call: a once-binding's guarantee still holds. */
  lemma OnlyOwnKeysFewer(bs: map<Key, Behaviour>, b: Binding, s: MicroSignal, live: seq<Key>, fewer: seq<Key>, p: Payload)
    requires Ranked(bs) && OnlyOwnKeysUnbind(bs, b, s, live, p)
    requires forall k :: k in fewer ==> k in live
    ensures OnlyOwnKeysUnbind(bs, b, s, fewer, p)
  {
  }

  /**
   * Over any number of dispatches, on any signals where only `b`'s own keys
   * detach `b`, the once-binding is detached at most once in total; once it
   * is, none of its keys is left on any signal.
   */
  lemma {:induction false} SeriesUnbindsOnce(w: World, shots: seq<Shot>, bs: map<Key, Behaviour>, b: Binding)
    requires Ranked(bs)
    requires forall i :: 0 <= i < |shots| ==>
      shots[i].signal in w.sets && OnlyOwnKeysUnbind(bs, b, shots[i].signal, w.sets[shots[i].signal], shots[i].payload)
    ensures Series(w, shots, bs).world.sets.Keys == w.sets.Keys
    ensures AtMostOnce(Series(w, shots, bs).log, Unbind(b))
    ensures Unbind(b) in Series(w, shots, bs).log ==>
      forall s, k :: s in w.sets && k in KeysOn(b, s) ==> k !in Series(w, shots, bs).world.sets[s]
    decreases |shots|
  {
    SeriesShrinks(w, shots, bs);
    if shots != [] {
      var init := shots[..|shots| - 1];
      var t := Series(w, init, bs);
      var sh := shots[|shots| - 1];
      SeriesUnbindsOnce(w, init, bs, b);
      SeriesShrinks(w, init, bs);
      var s, p := sh.signal, sh.payload;
      var ls := t.world.sets[s];
      var u := Run(t.world, s, ls, |ls|, bs, p);
      OnlyOwnKeysFewer(bs, b, s, w.sets[s], ls, p);
      RunUnbindsOnce(t.world, s, ls, |ls|, bs, p, b);
      RunShrinks(t.world, s, ls, |ls|, bs, p);
      AtMostOnceConcat(t.log, u.log, Unbind(b));
      forall s2, k | s2 in w.sets && k in KeysOn(b, s2) && Unbind(b) in t.log + u.log
        ensures k !in u.world.sets[s2]
      {
        RunUnbindGone(t.world, s, ls, |ls|, bs, p, b, s2);
      }
    }
  }

  // ---------------------------------------------------------------------
  // Chains of filter and map wrappers.

  /** One wrapper of a chain: `filteredListener` or the mapping closure. */
  datatype Stage = Keep(keep: Payload -> bool) | Transform(transform: Payload -> Payload)

  /** What comes out of the stages, applied in order, or None if a filter drops the payload. */
  function Flow(stages: seq<Stage>, p: Payload): Option<Payload>
    decreases |stages|
  {
    if stages == [] then Some(p)
    else match stages[0]
      case Keep(keep) => if keep(p) then Flow(stages[1..], p) else None
      case Transform(transform) => Flow(stages[1..], transform(p))
  }

  /** In `bs`, `k` is a chain of one wrapper per stage, in order, ending in a call of `l`. */
  ghost predicate Chain(bs: map<Key, Behaviour>, k: Key, l: Key, stages: seq<Stage>)
    decreases |stages|
  {
    if stages == [] then k == l
    else k in bs && match stages[0]
      case Keep(keep) => bs[k].FilterThen? && bs[k].keep == keep && Chain(bs, bs[k].next, l, stages[1..])
      case Transform(transform) => bs[k].MapThen? && bs[k].transform == transform && Chain(bs, bs[k].next, l, stages[1..])
  }

  /** Calling the head of a chain calls its end with what flows through, or nothing. */
  lemma {:induction false} ChainInvoke(bs: map<Key, Behaviour>, k: Key, l: Key, stages: seq<Stage>, p: Payload)
    requires Ranked(bs) && Chain(bs, k, l, stages)
    ensures Invoke(bs, k, p) == match Flow(stages, p) case Some(q) => Invoke(bs, l, q) case None => []
    decreases |stages|
  {
    if stages != [] {
      match stages[0]
      case Keep(keep) =>
        if keep(p) {
          ChainInvoke(bs, bs[k].next, l, stages[1..], p);
        }
      case Transform(transform) =>
        ChainInvoke(bs, bs[k].next, l, stages[1..], transform(p));
    }
  }

  /** A chain to `m` followed by a chain from `m` is one chain. */
  lemma {:induction false} ChainAppend(bs: map<Key, Behaviour>, k: Key, m: Key, l: Key, first: seq<Stage>, second: seq<Stage>)
    requires Chain(bs, k, m, first) && Chain(bs, m, l, second)
    ensures Chain(bs, k, l, first + second)
    decreases |first|
  {
    if first != [] {
      var all := first + second;
      assert all[0] == first[0] && all[1..] == first[1..] + second;
      ChainAppend(bs, bs[k].next, m, l, first[1..], second);
      assert Chain(bs, bs[k].next, l, all[1..]);
    } else {
      assert first + second == second;
    }
  }

  /** `bs2` keeps every closure of `bs`. */
  ghost predicate Extends(bs: map<Key, Behaviour>, bs2: map<Key, Behaviour>) {
    forall w :: w in bs ==> w in bs2 && bs2[w] == bs[w]
  }

  /** Defining more closures leaves an existing chain as it was. */
  lemma {:induction false} ChainExtends(bs: map<Key, Behaviour>, bs2: map<Key, Behaviour>, k: Key, l: Key, stages: seq<Stage>)
    requires Extends(bs, bs2) && Chain(bs, k, l, stages)
    ensures Chain(bs2, k, l, stages)
    decreases |stages|
  {
    if stages != [] {
      ChainExtends(bs, bs2, bs[k].next, l, stages[1..]);
    }
  }

  /** Stages applied one after another. */
  lemma {:induction false} FlowAppend(first: seq<Stage>, second: seq<Stage>, p: Payload)
    ensures Flow(first + second, p) == match Flow(first, p) case Some(q) => Flow(second, q) case None => None
    decreases |first|
  {
    if first != [] {
      var all := first + second;
      assert all[0] == first[0] && all[1..] == first[1..] + second;
      match first[0]
      case Keep(keep) =>
        if keep(p) {
          FlowAppend(first[1..], second, p);
          assert Flow(all, p) == Flow(all[1..], p);
        }
      case Transform(transform) =>
        FlowAppend(first[1..], second, transform(p));
        assert Flow(all, p) == Flow(all[1..], transform(p));
    } else {
      assert first + second == second;
    }
  }
}

=== FILE: ordered_sets.dfy ===
/**
 * A JavaScript `Set` remembers insertion order, and `Set.forEach` visits its
 * members in that order. The model keeps such a set as a sequence without
 * duplicates; `Insert` is `Set.add` and `Delete` is `Set.delete`.
 */
module OrderedSets {

  ghost predicate NoDup<T>(s: seq<T>) {
    forall i, j :: 0 <= i < j < |s| ==> s[i] != s[j]
  }

  /** `Set.add`: appends `x` unless it is already a member. */
  function Insert<T(==,!new)>(s: seq<T>, x: T): (r: seq<T>)
    ensures forall e :: e in r <==> e in s || e == x
    ensures x in s ==> r == s
    ensures x !in s ==> r == s + [x]
    ensures NoDup(s) ==> NoDup(r)
  {
    if x in s then s else s + [x]
  }

  /** Every member of `s` outside `xs`, in the order of `s`. */
  function DeleteAll<T(==,!new)>(s: seq<T>, xs: set<T>): (r: seq<T>)
    ensures forall e :: e in r <==> e in s && e !in xs
    ensures |r| <= |s|
    ensures NoDup(s) ==> NoDup(r)
  {
    if s == [] then []
    else if s[0] in xs then DeleteAll(s[1..], xs)
    else
      var rest := DeleteAll(s[1..], xs);
      assert NoDup(s) ==> s[0] !in s[1..];
      [s[0]] + rest
  }

  /**
   * `Set.delete`: a non-member changes nothing, and the member at index `i`
   * of a set without duplicates leaves a gap that closes, the rest keeping
   * their order.
   */
  function Delete<T(==,!new)>(s: seq<T>, x: T): (r: seq<T>)
    ensures forall e :: e in r <==> e in s && e != x
    ensures x !in s ==> r == s
    ensures NoDup(s) ==> forall i :: 0 <= i < |s| && s[i] == x ==> r == s[..i] + s[i + 1..]
    ensures NoDup(s) ==> NoDup(r)
  {
    DeleteOne(s, x);
    DeleteAll(s, {x})
  }

  lemma DeleteOne<T(!new)>(s: seq<T>, x: T)
    ensures x !in s ==> DeleteAll(s, {x}) == s
    ensures NoDup(s) ==> forall i :: 0 <= i < |s| && s[i] == x ==> DeleteAll(s, {x}) == s[..i] + s[i + 1..]
  {
    if x !in s {
      DeleteAllAbsent(s, {x});
    }
    if NoDup(s) {
      forall i | 0 <= i < |s| && s[i] == x ensures DeleteAll(s, {x}) == s[..i] + s[i + 1..] {
        NoDupApart(s, i);
        DeleteAt(s, i, x);
      }
    }
  }

  /** Deleting the only occurrence of `x`, at index `i`, closes the gap. */
  lemma {:induction false} DeleteAt<T(!new)>(s: seq<T>, i: nat, x: T)
    requires i < |s| && s[i] == x && x !in s[..i] && x !in s[i + 1..]
    ensures DeleteAll(s, {x}) == s[..i] + s[i + 1..]
  {
    if i == 0 {
      DeleteAllAbsent(s[1..], {x});
      assert s[..0] + s[1..] == s[1..];
    } else {
      var t := s[1..];
      assert s[0] == s[..i][0];
      assert t[..i - 1] == s[1..i] && t[i..] == s[i + 1..];
      DeleteAt(t, i - 1, x);
      assert s[..i] == [s[0]] + t[..i - 1];
    }
  }

  /** In a sequence without duplicates, `s[i]` occurs nowhere else. */
  lemma NoDupApart<T>(s: seq<T>, i: nat)
    requires NoDup(s) && i < |s|
    ensures s[i] !in s[..i] && s[i] !in s[i + 1..]
  {
  }

  lemma {:induction false} DeleteAllAbsent<T(!new)>(s: seq<T>, xs: set<T>)
    requires forall e :: e in s ==> e !in xs
    ensures DeleteAll(s, xs) == s
  {
    if s != [] {
      DeleteAllAbsent(s[1..], xs);
    }
  }

  lemma {:induction false} DeleteAllAppend<T(!new)>(s: seq<T>, t: seq<T>, xs: set<T>)
    ensures DeleteAll(s + t, xs) == DeleteAll(s, xs) + DeleteAll(t, xs)
  {
    if s != [] {
      assert (s + t)[0] == s[0] && (s + t)[1..] == s[1..] + t;
      DeleteAllAppend(s[1..], t, xs);
      if s[0] in xs {
        calc {
          DeleteAll(s + t, xs);
          DeleteAll(s[1..] + t, xs);
          DeleteAll(s[1..], xs) + DeleteAll(t, xs);
        }
      } else {
        calc {
          DeleteAll(s + t, xs);
          [s[0]] + DeleteAll(s[1..] + t, xs);
          [s[0]] + (DeleteAll(s[1..], xs) + DeleteAll(t, xs));
          ([s[0]] + DeleteAll(s[1..], xs)) + DeleteAll(t, xs);
        }
      }
    } else {
      assert s + t == t;
    }
  }

  lemma {:induction false} DeleteAllTwice<T(!new)>(s: seq<T>, xs: set<T>, ys: set<T>)
    ensures DeleteAll(DeleteAll(s, xs), ys) == DeleteAll(s, xs + ys)
  {
    if s != [] {
      DeleteAllTwice(s[1..], xs, ys);
    }
  }

  /** Adding a new member and deleting it again gives back the original set, order included. */
  lemma InsertThenDelete<T(!new)>(s: seq<T>, x: T)
    requires x !in s
    ensures Delete(Insert(s, x), x) == s
  {
    DeleteAllAppend(s, [x], {x});
    DeleteAllAbsent(s, {x});
  }

  /** `Set.add` of each of `xs`, in order. */
  function InsertAll<T(==,!new)>(s: seq<T>, xs: seq<T>): (r: seq<T>)
    ensures forall e :: e in r <==> e in s || e in xs
    ensures |s| <= |r| && r[..|s|] == s
    ensures forall i :: |s| <= i < |r| ==> r[i] in xs
    ensures NoDup(s) ==> NoDup(r)
    decreases |xs|
  {
    if xs == [] then s else Insert(InsertAll(s, xs[..|xs| - 1]), xs[|xs| - 1])
  }

  lemma {:induction false} InsertAllAppend<T(!new)>(s: seq<T>, a: seq<T>, b: seq<T>)
    ensures InsertAll(InsertAll(s, a), b) == InsertAll(s, a + b)
    decreases |b|
  {
    if b == [] {
      assert a + b == a;
    } else {
      InsertAllAppend(s, a, b[..|b| - 1]);
      assert (a + b)[..|a + b| - 1] == a + b[..|b| - 1];
    }
  }

  /** Adding members that were all new and deleting them again gives back the original set. */
  lemma InsertAllThenDelete<T(!new)>(s: seq<T>, xs: seq<T>, ys: set<T>)
    requires forall e :: e in xs ==> e !in s && e in ys
    requires forall e :: e in ys ==> e !in s
    ensures DeleteAll(InsertAll(s, xs), ys) == s
  {
    var r := InsertAll(s, xs);
    var tail := r[|s|..];
    assert r == s + tail;
    DeleteAllAppend(s, tail, ys);
    DeleteAllAbsent(s, ys);
    DeleteAllCovered(tail, ys);
  }

  lemma DeleteAllCovered<T(!new)>(s: seq<T>, xs: set<T>)
    requires forall e :: e in s ==> e in xs
    ensures DeleteAll(s, xs) == []
  {
    var r := DeleteAll(s, xs);
    assert forall e :: e !in r;
  }
}

=== FILE: promisify.dfy ===
/**
 * `promisifySignal(resolveSignal, rejectSignal?)` of src/promisify-signal.ts:
 * a promise that settles from the first dispatch of either signal. Each
 * signal gets one settling closure; the closure first detaches every binding
 * of the promise (`clearBindings`), then resolves or rejects with the
 * payload. The promise is the three-state `Promise` of the common module;
 * the scheduling of its callbacks is not modelled.
 */
module Promisify {
  import opened Common
  import opened OrderedSets
  import opened MicroSignals
  import opened Readables

  /** The micro signals under the resolve signal and, if given, the reject signal. */
  function Watched(resolveSignal: Readable, rejectSignal: Option<Readable>): set<MicroSignal> {
    Signals(resolveSignal) + if rejectSignal.Some? then Signals(rejectSignal.value) else {}
  }

  lemma WatchedAllocated(resolveSignal: Readable, rejectSignal: Option<Readable>)
    ensures forall s :: s in Watched(resolveSignal, rejectSignal) ==> allocated(s)
  {
    SignalsAllocated(resolveSignal);
    if rejectSignal.Some? {
      SignalsAllocated(rejectSignal.value);
    }
  }

  /** The listener set of each of `sigs`. */
  ghost function Lists(sigs: set<MicroSignal>): map<MicroSignal, seq<Key>>
    reads sigs
  {
    map s | s in sigs :: s.listeners
  }

  /** On each of `sigs`, the sets `L` are the sets `L0` with the keys of `bindings` added in order. */
  ghost predicate Registered(sigs: set<MicroSignal>, L0: map<MicroSignal, seq<Key>>, L: map<MicroSignal, seq<Key>>,
                             bindings: seq<Binding>) {
    forall s :: s in sigs ==> s in L0 && s in L && L[s] == InsertAll(L0[s], KeysOnAll(bindings, s))
  }

  /** The same, of the listener sets the signals hold now. */
  ghost predicate Holding(sigs: set<MicroSignal>, L0: map<MicroSignal, seq<Key>>, bindings: seq<Binding>)
    reads sigs
  {
    forall s :: s in sigs ==> s in L0 && s.listeners == InsertAll(L0[s], KeysOnAll(bindings, s))
  }

  /** Every key `bindings` put on `sigs` is a closure made between `n0` and `n`. */
  ghost predicate MadeBetween(sigs: set<MicroSignal>, bindings: seq<Binding>, n0: nat, n: nat) {
    forall s, k :: s in sigs && k in KeysOnAll(bindings, s) ==> k.Made? && n0 <= k.n < n
  }

  /** One more `bindings.push(signal.add(...))`, the signal covering the signals `A` among `sigs`. */
  lemma RegisteredStep(sigs: set<MicroSignal>, A: set<MicroSignal>, L0: map<MicroSignal, seq<Key>>,
                       L1: map<MicroSignal, seq<Key>>, L2: map<MicroSignal, seq<Key>>,
                       bindings: seq<Binding>, b: Binding, n0: nat, n1: nat, n2: nat)
    requires Registered(sigs, L0, L1, bindings) && MadeBetween(sigs, bindings, n0, n1) && n0 <= n1 <= n2
    requires A <= sigs && SignalsOf(b) <= A
    requires forall s :: s in A ==> s in L2 && L2[s] == InsertAll(L1[s], KeysOn(b, s))
    requires forall s, k :: s in A && k in KeysOn(b, s) ==> k.Made? && n1 <= k.n < n2
    requires forall s :: s in sigs && s !in A ==> s in L2 && L2[s] == L1[s]
    ensures Registered(sigs, L0, L2, bindings + [b]) && MadeBetween(sigs, bindings + [b], n0, n2)
  {
    forall s | s in sigs && s !in A ensures KeysOn(b, s) == [] {
      KeysOnElsewhere(b, s);
    }
    MadeStep(sigs, A, bindings, b, n0, n1, n2);
    var all := bindings + [b];
    assert all[..|all| - 1] == bindings;
    forall s | s in sigs
      ensures L2[s] == InsertAll(L0[s], KeysOnAll(all, s))
    {
      assert KeysOnAll(all, s) == KeysOnAll(bindings, s) + KeysOn(b, s);
      if s in A {
        InsertAllAppend(L0[s], KeysOnAll(bindings, s), KeysOn(b, s));
      } else {
        KeysOnElsewhere(b, s);
        assert KeysOnAll(bindings, s) + KeysOn(b, s) == KeysOnAll(bindings, s);
      }
    }
  }

  lemma MadeStep(sigs: set<MicroSignal>, A: set<MicroSignal>, bindings: seq<Binding>, b: Binding, n0: nat, n1: nat, n2: nat)
    requires MadeBetween(sigs, bindings, n0, n1) && n0 <= n1 <= n2 && A <= sigs
    requires forall s, k :: s in A && k in KeysOn(b, s) ==> k.Made? && n1 <= k.n < n2
    requires forall s :: s in sigs && s !in A ==> KeysOn(b, s) == []
    ensures MadeBetween(sigs, bindings + [b], n0, n2)
  {
    var all := bindings + [b];
    assert all[..|all| - 1] == bindings;
    forall s, k | s in sigs && k in KeysOnAll(all, s) ensures k.Made? && n0 <= k.n < n2 {
      assert KeysOnAll(all, s) == KeysOnAll(bindings, s) + KeysOn(b, s);
      if k !in KeysOnAll(bindings, s) {
        assert k in KeysOn(b, s);
        assert s in A;
      }
    }
  }

  /**
   * `signal.add(settler)` for a settling closure made just before; what the
   * closure does is recorded once all bindings exist.
   */
  method Register(r: Readable, rt: Closures) returns (w: Key, b: Binding)
    requires Healthy(r) && rt.Valid()
    modifies Signals(r), rt
    ensures Healthy(r) && rt.Valid()
    ensures w == Made(old(rt.next)) && w.n < rt.next && w !in rt.behaviours
    ensures Grown(old(rt.behaviours), old(rt.next), rt.behaviours, rt.next)
    ensures SignalsOf(b) <= Signals(r) && AddRouted(r, b, rt.behaviours, w)
    ensures Inserted(r, b, old(Listeners(r)))
    ensures forall s, k :: s in Signals(r) && k in KeysOn(b, s) ==> k.Made? && old(rt.next) <= k.n < rt.next
  {
    SignalsAllocated(r);
    w := rt.Fresh();
    b := Add(r, w, rt);
  }

  /** `Register` on one of the readables of `W`; the other signals of `W` keep their listeners. */
  method RegisterWithin(r: Readable, ghost W: set<MicroSignal>, ghost held: seq<Binding>,
                        ghost L0: map<MicroSignal, seq<Key>>, ghost n0: nat, rt: Closures)
    returns (w: Key, b: Binding)
    requires Signals(r) <= W && (forall s :: s in W ==> s.Valid()) && rt.Valid()
    requires Holding(W, L0, held) && MadeBetween(W, held, n0, rt.next) && n0 <= rt.next && SignalsOfAll(held) <= W
    modifies Signals(r), rt
    ensures (forall s :: s in W ==> s.Valid()) && rt.Valid()
    ensures w == Made(old(rt.next)) && w.n < rt.next && w !in rt.behaviours
    ensures Grown(old(rt.behaviours), old(rt.next), rt.behaviours, rt.next)
    ensures AddRouted(r, b, rt.behaviours, w) && SignalsOfAll(held + [b]) <= W
    ensures Holding(W, L0, held + [b]) && MadeBetween(W, held + [b], n0, rt.next)
  {
    ghost var L1, n1 := Lists(W), rt.next;
    assert Registered(W, L0, L1, held);
    w, b := Register(r, rt);
    ghost var L2 := Lists(W);
    forall s | s in W && s !in Signals(r) ensures s.Valid() && L2[s] == L1[s] {
    }
    RegisteredStep(W, Signals(r), L0, L1, L2, held, b, n0, n1, rt.next);
    assert (held + [b])[..|held|] == held;
  }

  /**
   * `promisifySignal`: inside the executor, the reject signal (if any) is
   * bound first and the resolve signal second; both settling closures hold
   * the same bindings array, in that order, and each is the only listener
   * its `add` was given.
   */
  method PromisifySignal(resolveSignal: Readable, rejectSignal: Option<Readable>, rt: Closures)
    returns (pr: Promise, ghost bindings: seq<Binding>, ghost resolver: Key, ghost rejecter: Option<Key>)
    requires Healthy(resolveSignal) && (rejectSignal.Some? ==> Healthy(rejectSignal.value)) && rt.Valid()
    modifies Watched(resolveSignal, rejectSignal), rt
    ensures fresh(pr) && pr.state == Pending && rt.Valid()
    ensures forall s :: s in Watched(resolveSignal, rejectSignal) ==> s.Valid()
    ensures Grown(old(rt.behaviours), old(rt.next), rt.behaviours, rt.next)
    ensures |bindings| == (if rejectSignal.Some? then 2 else 1) && rejecter.Some? == rejectSignal.Some?
    ensures SignalsOfAll(bindings) <= Watched(resolveSignal, rejectSignal)
    ensures resolver in rt.behaviours && rt.behaviours[resolver] == Settle(bindings, pr, true)
    ensures AddRouted(resolveSignal, bindings[|bindings| - 1], rt.behaviours, resolver)
    ensures rejectSignal.Some? ==>
      rejecter.value in rt.behaviours && rt.behaviours[rejecter.value] == Settle(bindings, pr, false) &&
      rejecter.value.n < resolver.n && AddRouted(rejectSignal.value, bindings[0], rt.behaviours, rejecter.value)
    ensures Holding(Watched(resolveSignal, rejectSignal), old(Lists(Watched(resolveSignal, rejectSignal))), bindings)
    ensures MadeBetween(Watched(resolveSignal, rejectSignal), bindings, old(rt.next), rt.next)
  {
    WatchedAllocated(resolveSignal, rejectSignal);
    pr := new Promise();
    bindings, resolver, rejecter := Executor(resolveSignal, rejectSignal, pr, rt);
  }

  /** The executor the promise runs at once: bind, then record the settling closures. */
  method Executor(resolveSignal: Readable, rejectSignal: Option<Readable>, pr: Promise, rt: Closures)
    returns (ghost bindings: seq<Binding>, ghost resolver: Key, ghost rejecter: Option<Key>)
    requires Healthy(resolveSignal) && (rejectSignal.Some? ==> Healthy(rejectSignal.value)) && rt.Valid()
    requires pr.state == Pending
    modifies Watched(resolveSignal, rejectSignal), rt
    ensures pr.state == Pending && rt.Valid()
    ensures forall s :: s in Watched(resolveSignal, rejectSignal) ==> s.Valid()
    ensures Grown(old(rt.behaviours), old(rt.next), rt.behaviours, rt.next)
    ensures |bindings| == (if rejectSignal.Some? then 2 else 1) && rejecter.Some? == rejectSignal.Some?
    ensures SignalsOfAll(bindings) <= Watched(resolveSignal, rejectSignal)
    ensures resolver in rt.behaviours && rt.behaviours[resolver] == Settle(bindings, pr, true)
    ensures AddRouted(resolveSignal, bindings[|bindings| - 1], rt.behaviours, resolver)
    ensures rejectSignal.Some? ==>
      rejecter.value in rt.behaviours && rt.behaviours[rejecter.value] == Settle(bindings, pr, false) &&
      rejecter.value.n < resolver.n && AddRouted(rejectSignal.value, bindings[0], rt.behaviours, rejecter.value)
    ensures Holding(Watched(resolveSignal, rejectSignal), old(Lists(Watched(resolveSignal, rejectSignal))), bindings)
    ensures MadeBetween(Watched(resolveSignal, rejectSignal), bindings, old(rt.next), rt.next)
  {
    ghost var W := Watched(resolveSignal, rejectSignal);
    ghost var L0, bs0, n0 := Lists(W), rt.behaviours, rt.next;
    var held, rs, rj := BindBoth(resolveSignal, rejectSignal, W, L0, n0, rt);
    ghost var bs1 := rt.behaviours;
    Settlers(held, pr, rs, if rejectSignal.Some? then Some(rj) else None, W, L0, n0, rt);
    SettlersGrown(bs0, n0, bs1, rt.behaviours, rt.next, rs, if rejectSignal.Some? then Some(rj) else None);
    RoutedKept(resolveSignal, held[|held| - 1], bs1, rt.behaviours, rs);
    if rejectSignal.Some? {
      RoutedKept(rejectSignal.value, held[0], bs1, rt.behaviours, rj);
    }
    bindings, resolver, rejecter := held, rs, if rejectSignal.Some? then Some(rj) else None;
  }

  /** The `add` calls of the executor, in order. */
  method BindBoth(resolveSignal: Readable, rejectSignal: Option<Readable>, ghost W: set<MicroSignal>,
                  ghost L0: map<MicroSignal, seq<Key>>, ghost n0: nat, rt: Closures)
    returns (held: seq<Binding>, rs: Key, rj: Key)
    requires W == Watched(resolveSignal, rejectSignal) && Holding(W, L0, []) && n0 == rt.next
    requires (forall s :: s in W ==> s.Valid()) && rt.Valid()
    modifies W, rt
    ensures (forall s :: s in W ==> s.Valid()) && rt.Valid()
    ensures Grown(old(rt.behaviours), old(rt.next), rt.behaviours, rt.next)
    ensures |held| == (if rejectSignal.Some? then 2 else 1) && SignalsOfAll(held) <= W
    ensures Holding(W, L0, held) && MadeBetween(W, held, n0, rt.next)
    ensures rs.Made? && n0 <= rs.n < rt.next && rs !in rt.behaviours
    ensures AddRouted(resolveSignal, held[|held| - 1], rt.behaviours, rs)
    ensures rejectSignal.Some? ==>
      rj.Made? && n0 <= rj.n < rs.n && rj !in rt.behaviours && AddRouted(rejectSignal.value, held[0], rt.behaviours, rj)
  {
    ghost var bs0 := rt.behaviours;
    var first;
    first, rj := BindReject(resolveSignal, rejectSignal, W, L0, n0, rt);
    ghost var bs1, n1 := rt.behaviours, rt.next;
    held, rs := BindResolve(resolveSignal, rejectSignal, W, L0, n0, first, rj, rt);
    GrownTrans(bs0, n0, bs1, n1, rt.behaviours, rt.next);
  }

  /** The second `add` of the executor, on the resolve signal, after the bindings `first`. */
  method BindResolve(resolveSignal: Readable, rejectSignal: Option<Readable>, ghost W: set<MicroSignal>,
                     ghost L0: map<MicroSignal, seq<Key>>, ghost n0: nat, first: seq<Binding>, rj: Key, rt: Closures)
    returns (held: seq<Binding>, rs: Key)
    requires W == Watched(resolveSignal, rejectSignal) && (forall s :: s in W ==> s.Valid()) && rt.Valid()
    requires |first| == (if rejectSignal.Some? then 1 else 0) && SignalsOfAll(first) <= W
    requires Holding(W, L0, first) && MadeBetween(W, first, n0, rt.next) && n0 <= rt.next
    requires rejectSignal.Some? ==>
      rj.Made? && n0 <= rj.n < rt.next && rj !in rt.behaviours && AddRouted(rejectSignal.value, first[0], rt.behaviours, rj)
    modifies W, rt
    ensures (forall s :: s in W ==> s.Valid()) && rt.Valid()
    ensures Grown(old(rt.behaviours), old(rt.next), rt.behaviours, rt.next)
    ensures |held| == |first| + 1 && held[..|first|] == first && SignalsOfAll(held) <= W
    ensures Holding(W, L0, held) && MadeBetween(W, held, n0, rt.next)
    ensures rs.Made? && old(rt.next) <= rs.n < rt.next && rs !in rt.behaviours
    ensures AddRouted(resolveSignal, held[|held| - 1], rt.behaviours, rs)
    ensures rejectSignal.Some? ==> rj !in rt.behaviours && AddRouted(rejectSignal.value, held[0], rt.behaviours, rj)
  {
    ghost var bs1 := rt.behaviours;
    var b;
    rs, b := RegisterWithin(resolveSignal, W, first, L0, n0, rt);
    if rejectSignal.Some? {
      RoutedKept(rejectSignal.value, first[0], bs1, rt.behaviours, rj);
    }
    held := first + [b];
    assert held[..|first|] == first && held[|held| - 1] == b;
  }

  /** The first `add` of the executor, on the reject signal when there is one. */
  method BindReject(resolveSignal: Readable, rejectSignal: Option<Readable>, ghost W: set<MicroSignal>,
                    ghost L0: map<MicroSignal, seq<Key>>, ghost n0: nat, rt: Closures)
    returns (held: seq<Binding>, rj: Key)
    requires W == Watched(resolveSignal, rejectSignal) && Holding(W, L0, []) && n0 == rt.next
    requires (forall s :: s in W ==> s.Valid()) && rt.Valid()
    modifies W, rt
    ensures (forall s :: s in W ==> s.Valid()) && rt.Valid()
    ensures Grown(old(rt.behaviours), old(rt.next), rt.behaviours, rt.next)
    ensures |held| == (if rejectSignal.Some? then 1 else 0) && SignalsOfAll(held) <= W
    ensures Holding(W, L0, held) && MadeBetween(W, held, n0, rt.next) && n0 <= rt.next
    ensures rejectSignal.Some? ==>
      rj.Made? && n0 <= rj.n < rt.next && rj !in rt.behaviours && AddRouted(rejectSignal.value, held[0], rt.behaviours, rj)
  {
    held := [];
    rj := Made(0);
    if rejectSignal.Some? {
      var b;
      rj, b := RegisterWithin(rejectSignal.value, W, held, L0, n0, rt);
      held := held + [b];
    }
  }

  /**
   * The `payload => { clearBindings(bindings); resolve/reject(payload); }`
   * closures, each holding the full bindings array.
   */
  method Settlers(held: seq<Binding>, pr: Promise, rs: Key, rj: Option<Key>, ghost W: set<MicroSignal>,
                  ghost L0: map<MicroSignal, seq<Key>>, ghost n0: nat, rt: Closures)
    requires rt.Valid() && MadeBetween(W, held, n0, rt.next) && SignalsOfAll(held) <= W
    requires rs.Made? && rs.n < rt.next && rs !in rt.behaviours
    requires rj.Some? ==> rj.value.Made? && rj.value.n < rs.n && rj.value !in rt.behaviours
    requires Holding(W, L0, held) && (forall s :: s in W ==> s.Valid()) && pr.state == Pending
    modifies rt
    ensures rt.Valid() && rt.next == old(rt.next) && Extends(old(rt.behaviours), rt.behaviours)
    ensures forall w :: w in rt.behaviours && w !in old(rt.behaviours) ==> w == rs || rj == Some(w)
    ensures rs in rt.behaviours && rt.behaviours[rs] == Settle(held, pr, true)
    ensures rj.Some? ==> rj.value in rt.behaviours && rt.behaviours[rj.value] == Settle(held, pr, false)
    ensures Holding(W, L0, held) && (forall s :: s in W ==> s.Valid()) && pr.state == Pending
  {
    SettleBelow(W, held, n0, rt.next);
    rt.Define(rs, Settle(held, pr, true));
    if rj.Some? {
      rt.Define(rj.value, Settle(held, pr, false));
    }
  }

  lemma SettlersGrown(bs0: map<Key, Behaviour>, n0: nat, bs1: map<Key, Behaviour>, bs2: map<Key, Behaviour>, n: nat,
                      rs: Key, rj: Option<Key>)
    requires Grown(bs0, n0, bs1, n) && Extends(bs1, bs2)
    requires forall w :: w in bs2 && w !in bs1 ==> w == rs || rj == Some(w)
    requires rs.Made? && n0 <= rs.n && (rj.Some? ==> rj.value.Made? && n0 <= rj.value.n)
    ensures Grown(bs0, n0, bs2, n)
  {
  }

  /** Defining more closures keeps the chains `add` built. */
  lemma RoutedKept(r: Readable, b: Binding, bs: map<Key, Behaviour>, bs2: map<Key, Behaviour>, l: Key)
    requires AddRouted(r, b, bs, l) && Extends(bs, bs2)
    ensures AddRouted(r, b, bs2, l)
  {
    forall s | s in Signals(r) ensures Routed(bs2, KeysOn(b, s), l, Routes(r, s)) {
      RoutedExtends(bs, bs2, KeysOn(b, s), l, Routes(r, s));
    }
  }

  lemma {:induction false} KeysOnPart(parts: seq<Binding>, i: nat, s: MicroSignal)
    requires i < |parts|
    ensures forall k :: k in KeysOn(parts[i], s) ==> k in KeysOnAll(parts, s)
    decreases |parts|
  {
    if i < |parts| - 1 {
      KeysOnPart(parts[..|parts| - 1], i, s);
    }
  }

  /** The registered bindings detach only closures made before `n`. */
  lemma SettleBelow(sigs: set<MicroSignal>, bindings: seq<Binding>, n0: nat, n: nat)
    requires MadeBetween(sigs, bindings, n0, n) && SignalsOfAll(bindings) <= sigs
    ensures forall i :: 0 <= i < |bindings| ==> BindingBelow(bindings[i], n)
  {
    forall i | 0 <= i < |bindings| ensures BindingBelow(bindings[i], n) {
      SignalsOfPart(bindings, i);
      forall s, k | s in SignalsOf(bindings[i]) && k in KeysOn(bindings[i], s) ensures k.Made? && Rank(k) <= n {
        KeysOnPart(bindings, i, s);
        assert s in sigs && k in KeysOnAll(bindings, s);
      }
    }
  }

  // ---------------------------------------------------------------------
  // Settling.

  /** `clearBindings` step by step: detaching each binding in turn detaches them all at once. */
  lemma {:induction false} ApplyClears(w: World, steps: seq<Step>, bindings: seq<Binding>)
    requires |steps| == |bindings| && forall i :: 0 <= i < |steps| ==> steps[i] == Unbind(bindings[i])
    ensures ApplyAll(w, steps) == w.(sets := Unbound(w.sets, Combined(bindings)))
    decreases |steps|
  {
    if steps == [] {
      forall s | s in w.sets ensures Unbound(w.sets, Combined(bindings))[s] == w.sets[s] {
        assert AsSet(KeysOnAll(bindings, s)) == {};
        DeleteAllAbsent(w.sets[s], {});
      }
      assert Unbound(w.sets, Combined(bindings)) == w.sets;
    } else {
      var m := |steps| - 1;
      ApplyClears(w, steps[..m], bindings[..m]);
      assert ApplyAll(w, steps) == w.(sets := Unbound(Unbound(w.sets, Combined(bindings[..m])), bindings[m]));
      UnboundSnoc(w.sets, bindings);
    }
  }

  /** Detaching all bindings but the last, then the last, detaches them all. */
  lemma UnboundSnoc(sets: map<MicroSignal, seq<Key>>, bindings: seq<Binding>)
    requires bindings != []
    ensures var m := |bindings| - 1;
            Unbound(Unbound(sets, Combined(bindings[..m])), bindings[m]) == Unbound(sets, Combined(bindings))
  {
    var m := |bindings| - 1;
    var before := Unbound(sets, Combined(bindings[..m]));
    forall s | s in sets ensures Unbound(before, bindings[m])[s] == Unbound(sets, Combined(bindings))[s] {
      DeleteAllTwice(sets[s], AsSet(KeysOnAll(bindings[..m], s)), AsSet(KeysOn(bindings[m], s)));
      assert AsSet(KeysOnAll(bindings, s)) == AsSet(KeysOnAll(bindings[..m], s)) + AsSet(KeysOn(bindings[m], s));
    }
  }

  /** What settling with `p` makes of the promise: a pending promise takes the outcome, a settled one stays. */
  function Settling(proms: map<Promise, Settlement>, pr: Promise, resolving: bool, p: Payload): map<Promise, Settlement> {
    if pr in proms && proms[pr] == Pending
    then proms[pr := if resolving then Resolved(p) else Rejected(p)]
    else proms
  }

  /**
   * Calling a settling closure with `p`: every binding of the promise is
   * detached, then the promise settles with `p` if it was still pending.
   */
  lemma SettleFirst(w: World, bs: map<Key, Behaviour>, settler: Key, p: Payload)
    requires Ranked(bs) && settler in bs && bs[settler].Settle?
    ensures ApplyAll(w, Invoke(bs, settler, p))
            == World(Unbound(w.sets, Combined(bs[settler].bindings)),
                     Settling(w.promises, bs[settler].promise, bs[settler].resolving, p))
  {
    var bindings := bs[settler].bindings;
    var steps := Invoke(bs, settler, p);
    var m := |bindings|;
    assert steps[..m] == seq(m, i requires 0 <= i < m => Unbind(bindings[i]));
    ApplyClears(w, steps[..m], bindings);
  }

  /** Once settled, a promise keeps its outcome whatever steps follow. */
  lemma {:induction false} SettledStays(w: World, steps: seq<Step>, pr: Promise)
    requires pr in w.promises && w.promises[pr] != Pending
    ensures pr in ApplyAll(w, steps).promises && ApplyAll(w, steps).promises[pr] == w.promises[pr]
    decreases |steps|
  {
    if steps != [] {
      SettledStays(w, steps[..|steps| - 1], pr);
    }
  }

  /**
   * Of the resolving and the rejecting closure of one promise, the one called
   * first decides it with its own payload; calling the other afterwards
   * changes nothing.
   */
  lemma FirstSettlerWins(w: World, bs: map<Key, Behaviour>, first: Key, second: Key, p: Payload, q: Payload)
    requires Ranked(bs) && first in bs && second in bs && bs[first].Settle? && bs[second].Settle?
    requires bs[first].promise == bs[second].promise
    requires bs[first].promise in w.promises && w.promises[bs[first].promise] == Pending
    ensures var pr := bs[first].promise;
            var w2 := ApplyAll(ApplyAll(w, Invoke(bs, first, p)), Invoke(bs, second, q));
            pr in w2.promises && w2.promises[pr] == if bs[first].resolving then Resolved(p) else Rejected(p)
  {
    var w1 := ApplyAll(w, Invoke(bs, first, p));
    SettleFirst(w, bs, first, p);
    SettledStays(w1, Invoke(bs, second, q), bs[first].promise);
  }

  /**
   * Right after `promisifySignal`, detaching its bindings gives every watched
   * signal back the listeners it had before: the settling closures and
   * wrappers leave nothing behind, provided the earlier listeners were all
   * made before `n0`.
   */
  lemma ClearRestores(sigs: set<MicroSignal>, L0: map<MicroSignal, seq<Key>>, sets: map<MicroSignal, seq<Key>>,
                      bindings: seq<Binding>, n0: nat, n: nat)
    requires Registered(sigs, L0, sets, bindings) && MadeBetween(sigs, bindings, n0, n)
    requires forall s, k :: s in sigs && s in L0 && k in L0[s] ==> Rank(k) <= n0
    ensures forall s :: s in sigs ==> Unbound(sets, Combined(bindings))[s] == L0[s]
  {
    forall s | s in sigs ensures Unbound(sets, Combined(bindings))[s] == L0[s] {
      var ks := KeysOnAll(bindings, s);
      forall k | k in ks ensures k !in L0[s] {
        assert Rank(k) > n0;
      }
      InsertAllThenDelete(L0[s], ks, AsSet(ks));
    }
  }

  /**
   * The first settlement after `promisifySignal`: whichever closure fires,
   * the watched signals get back their earlier listeners, signals outside
   * them are untouched, and the pending promise takes the payload.
   */
  lemma FirstSettlement(w: World, bs: map<Key, Behaviour>, settler: Key, p: Payload,
                        sigs: set<MicroSignal>, L0: map<MicroSignal, seq<Key>>, n0: nat, n: nat)
    requires Ranked(bs) && settler in bs && bs[settler].Settle?
    requires SignalsOfAll(bs[settler].bindings) <= sigs
    requires Registered(sigs, L0, w.sets, bs[settler].bindings) && MadeBetween(sigs, bs[settler].bindings, n0, n)
    requires forall s, k :: s in sigs && s in L0 && k in L0[s] ==> Rank(k) <= n0
    requires bs[settler].promise in w.promises && w.promises[bs[settler].promise] == Pending
    ensures var w1 := ApplyAll(w, Invoke(bs, settler, p));
            w1.sets.Keys == w.sets.Keys &&
            (forall s :: s in sigs ==> w1.sets[s] == L0[s]) &&
            (forall s :: s in w.sets && s !in sigs ==> w1.sets[s] == w.sets[s]) &&
            bs[settler].promise in w1.promises &&
            w1.promises[bs[settler].promise] == if bs[settler].resolving then Resolved(p) else Rejected(p)
  {
    var bindings := bs[settler].bindings;
    SettleFirst(w, bs, settler, p);
    ClearRestores(sigs, L0, w.sets, bindings, n0, n);
    forall s | s in w.sets && s !in sigs ensures Unbound(w.sets, Combined(bindings))[s] == w.sets[s] {
      KeysOnAllElsewhere(bindings, s);
      assert AsSet(KeysOnAll(bindings, s)) == {};
      DeleteAllAbsent(w.sets[s], {});
    }
  }

  /** `clearBindings(bindings)`: the same loop of `detach()` calls as a merged binding's. */
  method ClearBindings(bindings: seq<Binding>, ghost world: set<MicroSignal>)
    requires SignalsOfAll(bindings) <= world
    requires forall s :: s in world ==> s.Valid()
    modifies SignalsOfAll(bindings)
    ensures forall s :: s in world ==> s.Valid()
    ensures forall s :: s in world ==> s.listeners == DeleteAll(old(s.listeners), AsSet(KeysOnAll(bindings, s)))
  {
    DetachBinding(Combined(bindings), world);
  }
}

=== FILE: readables.dfy ===
/**
 * The readable signals of the binding-based generation, built over micro
 * signals: the read-only view (`ReadOnlySignal` of src/micro-signals.ts and
 * `readOnlyBase`), merges (src/merged-signal.ts and `mergedBase`), filters
 * (src/filtered-signal.ts and `filteredBase`) and maps
 * (src/mapped-signal.ts and `mappedBase`). The class-based and the
 * function-based forms build the same closures, so one node type serves
 * both. No node keeps registration state of its own: `add` installs
 * wrapper closures on the micro signals at the leaves and returns their
 * bindings.
 */
module Readables {
  import opened Common
  import opened OrderedSets
  import opened MicroSignals

  datatype Readable =
    | Micro(signal: MicroSignal)
    | ReadOnly(inner: Readable)
    | Merged(sources: seq<Readable>)
    | Filtered(inner: Readable, keep: Payload -> bool)
    | Mapped(inner: Readable, transform: Payload -> Payload)

  /** `new FilteredSignal(base)`: the default filter `() => true`. */
  function FilteredSignal(base: Readable): (r: Readable)
    ensures r.Filtered? && r.inner == base && forall p :: r.keep(p)
  {
    Filtered(base, _ => true)
  }

  /** The micro signals a readable is built over. */
  function Signals(r: Readable): set<MicroSignal>
    decreases r
  {
    match r
    case Micro(s) => {s}
    case ReadOnly(inner) => Signals(inner)
    case Merged(sources) => SignalsUpTo(sources, |sources|)
    case Filtered(inner, _) => Signals(inner)
    case Mapped(inner, _) => Signals(inner)
  }

  /** The micro signals under the first `n` sources. */
  function SignalsUpTo(sources: seq<Readable>, n: nat): set<MicroSignal>
    requires n <= |sources|
    decreases sources, n
  {
    if n == 0 then {} else SignalsUpTo(sources, n - 1) + Signals(sources[n - 1])
  }

  lemma {:induction false} SignalsUpToPart(sources: seq<Readable>, n: nat, i: nat)
    requires i < n <= |sources|
    ensures Signals(sources[i]) <= SignalsUpTo(sources, n)
    decreases n
  {
    if i < n - 1 {
      SignalsUpToPart(sources, n - 1, i);
    }
  }

  lemma {:induction false} SignalsAllocated(r: Readable)
    ensures forall s :: s in Signals(r) ==> allocated(s)
    decreases r
  {
    match r
    case Micro(_) =>
    case ReadOnly(inner) => SignalsAllocated(inner);
    case Merged(sources) => SignalsUpToAllocated(sources, |sources|);
    case Filtered(inner, _) => SignalsAllocated(inner);
    case Mapped(inner, _) => SignalsAllocated(inner);
  }

  lemma {:induction false} SignalsUpToAllocated(sources: seq<Readable>, n: nat)
    requires n <= |sources|
    ensures forall s :: s in SignalsUpTo(sources, n) ==> allocated(s)
    decreases sources, n
  {
    if n != 0 {
      SignalsUpToAllocated(sources, n - 1);
      SignalsAllocated(sources[n - 1]);
    }
  }

  ghost predicate Healthy(r: Readable)
    reads Signals(r)
  {
    forall s :: s in Signals(r) ==> s.Valid()
  }

  /** The listener set of every micro signal under `r`. */
  ghost function Listeners(r: Readable): map<MicroSignal, seq<Key>>
    reads Signals(r)
  {
    map s | s in Signals(r) :: s.listeners
  }

  /**
   * The wrapper chains that `add(l)` on `r` puts on `s`, one per way `s`
   * reaches `r`, each listing the filters and maps a payload of `s` passes,
   * innermost first.
   */
  function Routes(r: Readable, s: MicroSignal): seq<seq<Stage>>
    decreases r
  {
    match r
    case Micro(s') => if s' == s then [[]] else []
    case ReadOnly(inner) => Routes(inner, s)
    case Merged(sources) => RoutesUpTo(sources, |sources|, s)
    case Filtered(inner, keep) => Then(Routes(inner, s), Keep(keep))
    case Mapped(inner, transform) => Then(Routes(inner, s), Transform(transform))
  }

  /** The routes to `s` through the first `n` sources, source by source. */
  function RoutesUpTo(sources: seq<Readable>, n: nat, s: MicroSignal): seq<seq<Stage>>
    requires n <= |sources|
    decreases sources, n
  {
    if n == 0 then [] else RoutesUpTo(sources, n - 1, s) + Routes(sources[n - 1], s)
  }

  /** Every route followed by one more stage. */
  function Then(routes: seq<seq<Stage>>, st: Stage): (r: seq<seq<Stage>>)
    ensures |r| == |routes| && forall j :: 0 <= j < |r| ==> r[j] == routes[j] + [st]
  {
    seq(|routes|, j requires 0 <= j < |routes| => routes[j] + [st])
  }

  /** A signal `r` is not built over has no route to it. */
  lemma {:induction false} RoutesElsewhere(r: Readable, s: MicroSignal)
    requires s !in Signals(r)
    ensures Routes(r, s) == []
    decreases r
  {
    match r
    case Micro(_) =>
    case ReadOnly(inner) => RoutesElsewhere(inner, s);
    case Merged(sources) => RoutesUpToElsewhere(sources, |sources|, s);
    case Filtered(inner, _) => RoutesElsewhere(inner, s);
    case Mapped(inner, _) => RoutesElsewhere(inner, s);
  }

  lemma {:induction false} RoutesUpToElsewhere(sources: seq<Readable>, n: nat, s: MicroSignal)
    requires n <= |sources| && s !in SignalsUpTo(sources, n)
    ensures RoutesUpTo(sources, n, s) == []
    decreases sources, n
  {
    if n != 0 {
      RoutesUpToElsewhere(sources, n - 1, s);
      RoutesElsewhere(sources[n - 1], s);
    }
  }

  /** Key `keys[j]` heads a chain of the stages `routes[j]` ending in `l`. */
  ghost predicate Routed(bs: map<Key, Behaviour>, keys: seq<Key>, l: Key, routes: seq<seq<Stage>>) {
    |keys| == |routes| && forall j :: 0 <= j < |keys| ==> Chain(bs, keys[j], l, routes[j])
  }

  lemma RoutedAppend(bs: map<Key, Behaviour>, k1: seq<Key>, k2: seq<Key>, l: Key, r1: seq<seq<Stage>>, r2: seq<seq<Stage>>)
    requires Routed(bs, k1, l, r1) && Routed(bs, k2, l, r2)
    ensures Routed(bs, k1 + k2, l, r1 + r2)
  {
    forall j | 0 <= j < |k1 + k2| ensures Chain(bs, (k1 + k2)[j], l, (r1 + r2)[j]) {
      if j >= |k1| {
        assert (k1 + k2)[j] == k2[j - |k1|] && (r1 + r2)[j] == r2[j - |k1|];
      }
    }
  }

  lemma RoutedExtends(bs: map<Key, Behaviour>, bs2: map<Key, Behaviour>, keys: seq<Key>, l: Key, routes: seq<seq<Stage>>)
    requires Extends(bs, bs2) && Routed(bs, keys, l, routes)
    ensures Routed(bs2, keys, l, routes)
  {
    forall j | 0 <= j < |keys| ensures Chain(bs2, keys[j], l, routes[j]) {
      ChainExtends(bs, bs2, keys[j], l, routes[j]);
    }
  }

  /** Chains that end in the wrapper `w` of `l` end, one stage later, in `l`. */
  lemma RoutedThen(bs: map<Key, Behaviour>, keys: seq<Key>, w: Key, l: Key, routes: seq<seq<Stage>>, st: Stage)
    requires Routed(bs, keys, w, routes) && Chain(bs, w, l, [st])
    ensures Routed(bs, keys, l, Then(routes, st))
  {
    forall j | 0 <= j < |keys| ensures Chain(bs, keys[j], l, Then(routes, st)[j]) {
      ChainAppend(bs, keys[j], w, l, routes[j], [st]);
    }
  }

  /** Each micro signal under `r` has gained the keys `b` puts on it. */
  ghost predicate Inserted(r: Readable, b: Binding, L0: map<MicroSignal, seq<Key>>)
    reads Signals(r)
  {
    forall s :: s in Signals(r) ==> s in L0 && s.listeners == InsertAll(L0[s], KeysOn(b, s))
  }

  /** The keys `b` puts on each signal under `r` head the chains of `add(l)`. */
  ghost predicate AddRouted(r: Readable, b: Binding, bs: map<Key, Behaviour>, l: Key) {
    forall s :: s in Signals(r) ==> Routed(bs, KeysOn(b, s), l, Routes(r, s))
  }

  /** The keys `b` puts on each signal under `r` head the chains of `addOnce`, ending in `once`. */
  ghost predicate OnceRouted(r: Readable, b: Binding, bs: map<Key, Behaviour>, once: Key) {
    forall s :: s in Signals(r) ==> Routed(bs, KeysOn(b, s), once, OnceRoutes(r, s))
  }

  /** New closures are all made after `n0`. */
  ghost predicate Grown(bs0: map<Key, Behaviour>, n0: nat, bs: map<Key, Behaviour>, n: nat) {
    n0 <= n && Extends(bs0, bs) && forall w :: w in bs && w !in bs0 ==> w.Made? && n0 <= w.n
  }

  lemma GrownTrans(bs0: map<Key, Behaviour>, n0: nat, bs1: map<Key, Behaviour>, n1: nat, bs2: map<Key, Behaviour>, n2: nat)
    requires Grown(bs0, n0, bs1, n1) && Grown(bs1, n1, bs2, n2)
    ensures Grown(bs0, n0, bs2, n2)
  {
  }

  lemma GrownDefine(bs0: map<Key, Behaviour>, n0: nat, bs: map<Key, Behaviour>, n: nat, w: Key, beh: Behaviour)
    requires Grown(bs0, n0, bs, n) && w.Made? && n0 <= w.n && w !in bs
    ensures Grown(bs0, n0, bs[w := beh], n)
  {
  }

  /** Every closure of `bs` that `bs0` lacks forwards to another: a filtering or mapping wrapper. */
  ghost predicate WrappersOnly(bs0: map<Key, Behaviour>, bs: map<Key, Behaviour>) {
    forall w :: w in bs && w !in bs0 ==> bs[w].FilterThen? || bs[w].MapThen?
  }

  /** The same, except for the one closure `once`. */
  ghost predicate WrappersBesides(bs0: map<Key, Behaviour>, bs: map<Key, Behaviour>, once: Key) {
    forall w :: w in bs && w !in bs0 && w != once ==> bs[w].FilterThen? || bs[w].MapThen?
  }

  /** Each key `b` puts on a signal of `r` is `l` or a closure made between `n0` and `n`. */
  ghost predicate KeysFrom(r: Readable, b: Binding, l: Key, n0: nat, n: nat) {
    forall s, k :: s in Signals(r) && k in KeysOn(b, s) ==> k == l || (k.Made? && n0 <= k.n < n)
  }

  /**
   * `add(l)` on any readable: each micro signal under it gains the keys of
   * the returned binding, one per route, each heading a chain of the
   * route's filters and maps that ends in `l`; all other keys are fresh
   * closures, and detaching the binding touches only those signals.
   */
  method Add(r: Readable, l: Key, rt: Closures) returns (b: Binding)
    requires Healthy(r) && rt.Valid() && rt.Allocated(l)
    modifies Signals(r), rt
    ensures Healthy(r) && rt.Valid()
    ensures Grown(old(rt.behaviours), old(rt.next), rt.behaviours, rt.next) && WrappersOnly(old(rt.behaviours), rt.behaviours)
    ensures SignalsOf(b) <= Signals(r) && KeysFrom(r, b, l, old(rt.next), rt.next)
    ensures Inserted(r, b, old(Listeners(r)))
    ensures AddRouted(r, b, rt.behaviours, l)
    decreases r, 2
  {
    match r
    case Micro(sig) =>
      b := AddMicro(r, l, rt);
    case ReadOnly(inner) =>
      b := AddReadOnly(r, l, rt);
    case Filtered(inner, keep) =>
      b := AddWrapped(r, Keep(keep), l, rt);
    case Mapped(inner, transform) =>
      b := AddWrapped(r, Transform(transform), l, rt);
    case Merged(sources) =>
      b := AddEach(r, sources, l, rt);
  }

  /** `Signal.add(l)` of a micro signal: `l` itself joins the set. */
  method AddMicro(r: Readable, l: Key, rt: Closures) returns (b: Binding)
    requires r.Micro?
    requires Healthy(r) && rt.Valid() && rt.Allocated(l)
    modifies Signals(r), rt
    ensures Healthy(r) && rt.Valid()
    ensures Grown(old(rt.behaviours), old(rt.next), rt.behaviours, rt.next) && WrappersOnly(old(rt.behaviours), rt.behaviours)
    ensures SignalsOf(b) <= Signals(r) && KeysFrom(r, b, l, old(rt.next), rt.next)
    ensures Inserted(r, b, old(Listeners(r)))
    ensures AddRouted(r, b, rt.behaviours, l)
    decreases r, 1
  {
    b := r.signal.Add(l);
    MicroAdd(r, l, b, rt.behaviours, rt.next);
  }

  lemma MicroAdd(r: Readable, l: Key, b: Binding, bs: map<Key, Behaviour>, n: nat)
    requires r.Micro? && b == Detach(r.signal, l)
    ensures Grown(bs, n, bs, n)
    ensures SignalsOf(b) <= Signals(r) && KeysFrom(r, b, l, n, n)
    ensures InsertAll(r.signal.listeners, KeysOn(b, r.signal)) == Insert(r.signal.listeners, l)
    ensures AddRouted(r, b, bs, l)
  {
    assert [l][..0] == [];
  }

  /** `add(l)` on a read-only view is `add(l)` on the signal it wraps. */
  method AddReadOnly(r: Readable, l: Key, rt: Closures) returns (b: Binding)
    requires r.ReadOnly?
    requires Healthy(r) && rt.Valid() && rt.Allocated(l)
    modifies Signals(r), rt
    ensures Healthy(r) && rt.Valid()
    ensures Grown(old(rt.behaviours), old(rt.next), rt.behaviours, rt.next) && WrappersOnly(old(rt.behaviours), rt.behaviours)
    ensures SignalsOf(b) <= Signals(r) && KeysFrom(r, b, l, old(rt.next), rt.next)
    ensures Inserted(r, b, old(Listeners(r)))
    ensures AddRouted(r, b, rt.behaviours, l)
    decreases r, 1
  {
    b := Add(r.inner, l, rt);
  }

  /** The closure for one stage: `filteredListener(l, filter)` or `payload => l(transform(payload))`. */
  function Wrapper(st: Stage, l: Key): (beh: Behaviour)
    ensures (beh.FilterThen? || beh.MapThen?) && beh.next == l
  {
    match st
    case Keep(keep) => FilterThen(keep, l)
    case Transform(transform) => MapThen(transform, l)
  }

  /** A fresh closure for one stage, calling `l`. */
  method Wrap(st: Stage, l: Key, rt: Closures) returns (w: Key)
    requires rt.Valid() && rt.Allocated(l)
    modifies rt
    ensures rt.Valid() && rt.Allocated(w)
    ensures w == Made(old(rt.next)) && rt.next == old(rt.next) + 1
    ensures rt.behaviours == old(rt.behaviours)[w := Wrapper(st, l)]
    ensures Grown(old(rt.behaviours), old(rt.next), rt.behaviours, rt.next)
    ensures Chain(rt.behaviours, w, l, [st])
  {
    w := rt.Fresh();
    rt.Define(w, Wrapper(st, l));
  }

  /** The stage a filtered or mapped readable adds. */
  function Outer(r: Readable): Stage
    requires r.Filtered? || r.Mapped?
  {
    if r.Filtered? then Keep(r.keep) else Transform(r.transform)
  }

  /**
   * `add(l)` on a filtered or mapped readable: a fresh wrapper of `l` is
   * made and added to the inner readable, whose binding is returned.
   */
  method AddWrapped(r: Readable, st: Stage, l: Key, rt: Closures) returns (b: Binding)
    requires (r.Filtered? || r.Mapped?) && st == Outer(r)
    requires Healthy(r) && rt.Valid() && rt.Allocated(l)
    modifies Signals(r), rt
    ensures Healthy(r) && rt.Valid()
    ensures Grown(old(rt.behaviours), old(rt.next), rt.behaviours, rt.next) && WrappersOnly(old(rt.behaviours), rt.behaviours)
    ensures SignalsOf(b) <= Signals(r) && KeysFrom(r, b, l, old(rt.next), rt.next)
    ensures Inserted(r, b, old(Listeners(r)))
    ensures AddRouted(r, b, rt.behaviours, l)
    decreases r, 1
  {
    ghost var bs0, n0 := rt.behaviours, rt.next;
    SignalsAllocated(r.inner);
    var w := Wrap(st, l, rt);
    ghost var bs1, n1 := rt.behaviours, rt.next;
    assert Listeners(r.inner) == old(Listeners(r));
    b := Add(r.inner, w, rt);
    WrappedAdd(r, st, l, w, b, bs0, n0, bs1, n1, rt.behaviours, rt.next);
  }

  /** The closures after the inner `add` of the wrapper `w` of `l`. */
  lemma WrappedAdd(r: Readable, st: Stage, l: Key, w: Key, b: Binding,
                   bs0: map<Key, Behaviour>, n0: nat, bs1: map<Key, Behaviour>, n1: nat, bs: map<Key, Behaviour>, n: nat)
    requires (r.Filtered? || r.Mapped?) && st == Outer(r)
    requires Grown(bs0, n0, bs1, n1) && Chain(bs1, w, l, [st]) && Grown(bs1, n1, bs, n)
    requires w == Made(n0) && n1 == n0 + 1
    requires SignalsOf(b) <= Signals(r.inner) && KeysFrom(r.inner, b, w, n1, n)
    requires AddRouted(r.inner, b, bs, w)
    requires WrappersOnly(bs0, bs1) && WrappersOnly(bs1, bs)
    ensures Grown(bs0, n0, bs, n) && WrappersOnly(bs0, bs)
    ensures SignalsOf(b) <= Signals(r) && KeysFrom(r, b, l, n0, n)
    ensures AddRouted(r, b, bs, l)
  {
    GrownTrans(bs0, n0, bs1, n1, bs, n);
    ChainExtends(bs1, bs, w, l, [st]);
    forall s | s in Signals(r) ensures Routed(bs, KeysOn(b, s), l, Routes(r, s)) {
      RoutedThen(bs, KeysOn(b, s), w, l, Routes(r.inner, s), st);
    }
  }

  /** The loop of `MergedSignal.add`: `l` is added to each source in turn. */
  method AddEach(r: Readable, sources: seq<Readable>, l: Key, rt: Closures) returns (b: Binding)
    requires r == Merged(sources)
    requires Healthy(r) && rt.Valid() && rt.Allocated(l)
    modifies Signals(r), rt
    ensures Healthy(r) && rt.Valid()
    ensures Grown(old(rt.behaviours), old(rt.next), rt.behaviours, rt.next) && WrappersOnly(old(rt.behaviours), rt.behaviours)
    ensures SignalsOf(b) <= Signals(r) && KeysFrom(r, b, l, old(rt.next), rt.next)
    ensures Inserted(r, b, old(Listeners(r)))
    ensures AddRouted(r, b, rt.behaviours, l)
    decreases r, 1
  {
    ghost var L0, bs0, n0 := Listeners(r), rt.behaviours, rt.next;
    var parts: seq<Binding> := [];
    forall s | s in Signals(r) ensures s.listeners == InsertAll(L0[s], KeysOnAll(parts, s)) {
    }
    for i := 0 to |sources|
      invariant SoFar(r, sources, i, parts, l, rt, L0, bs0, n0)
    {
      parts := AddNext(r, sources, i, parts, l, rt, L0, bs0, n0);
    }
    b := Combined(parts);
  }

  /** What the first `i` turns of the loop of `MergedSignal.add` have done. */
  ghost predicate SoFar(r: Readable, sources: seq<Readable>, i: nat, parts: seq<Binding>, l: Key, rt: Closures,
                        L0: map<MicroSignal, seq<Key>>, bs0: map<Key, Behaviour>, n0: nat)
    reads Signals(r), rt
  {
    Healthy(r) && rt.Valid() && rt.Allocated(l) &&
    Progress(r, sources, i, parts, l, Listeners(r), rt.behaviours, rt.next, L0, bs0, n0)
  }

  /**
   * The same, over the listener sets `L` and the closures `bs` made before
   * `n`: the bindings `parts` of the first `i` sources have put their keys
   * on the sets `L0` from before the loop.
   */
  ghost predicate Progress(r: Readable, sources: seq<Readable>, i: nat, parts: seq<Binding>, l: Key,
                           L: map<MicroSignal, seq<Key>>, bs: map<Key, Behaviour>, n: nat,
                           L0: map<MicroSignal, seq<Key>>, bs0: map<Key, Behaviour>, n0: nat)
  {
    r == Merged(sources) && i <= |sources| && |parts| == i &&
    Grown(bs0, n0, bs, n) && WrappersOnly(bs0, bs) &&
    SignalsOfAll(parts) <= SignalsUpTo(sources, i) &&
    PartsFrom(r, parts, l, n0, n) &&
    PartsListed(r, parts, L, L0) &&
    PartsRouted(r, sources, i, parts, l, bs)
  }

  ghost predicate PartsFrom(r: Readable, parts: seq<Binding>, l: Key, n0: nat, n: nat) {
    forall s, k :: s in Signals(r) && k in KeysOnAll(parts, s) ==> k == l || (k.Made? && n0 <= k.n < n)
  }

  ghost predicate PartsListed(r: Readable, parts: seq<Binding>, L: map<MicroSignal, seq<Key>>, L0: map<MicroSignal, seq<Key>>) {
    forall s :: s in Signals(r) ==> s in L0 && s in L && L[s] == InsertAll(L0[s], KeysOnAll(parts, s))
  }

  ghost predicate PartsRouted(r: Readable, sources: seq<Readable>, i: nat, parts: seq<Binding>, l: Key, bs: map<Key, Behaviour>)
    requires i <= |sources|
  {
    forall s :: s in Signals(r) ==> Routed(bs, KeysOnAll(parts, s), l, RoutesUpTo(sources, i, s))
  }

  /** One turn of that loop: `sources[i].add(l)`. */
  method AddNext(r: Readable, sources: seq<Readable>, i: nat, parts: seq<Binding>, l: Key, rt: Closures,
                 ghost L0: map<MicroSignal, seq<Key>>, ghost bs0: map<Key, Behaviour>, ghost n0: nat)
    returns (parts': seq<Binding>)
    requires SoFar(r, sources, i, parts, l, rt, L0, bs0, n0) && i < |sources|
    modifies Signals(r), rt
    ensures SoFar(r, sources, i + 1, parts', l, rt, L0, bs0, n0)
    decreases r, 0
  {
    SignalsUpToPart(sources, |sources|, i);
    SignalsAllocated(r);
    ghost var mid, L1, bs1, n1 := Listeners(r), Listeners(sources[i]), rt.behaviours, rt.next;
    var bi := Add(sources[i], l, rt);
    parts' := parts + [bi];
    assert forall s :: s in Signals(r) && s !in Signals(sources[i]) ==> s.listeners == mid[s];
    NextSoFar(r, sources, i, parts, bi, l, rt, L0, bs0, n0, mid, L1, bs1, n1);
  }

  /** The state after `sources[i].add(l)` is the state of the loop after one more turn. */
  lemma NextSoFar(r: Readable, sources: seq<Readable>, i: nat, parts: seq<Binding>, bi: Binding, l: Key, rt: Closures,
                  L0: map<MicroSignal, seq<Key>>, bs0: map<Key, Behaviour>, n0: nat,
                  mid: map<MicroSignal, seq<Key>>, L1: map<MicroSignal, seq<Key>>, bs1: map<Key, Behaviour>, n1: nat)
    requires i < |sources| && Progress(r, sources, i, parts, l, mid, bs1, n1, L0, bs0, n0)
    requires Signals(sources[i]) <= Signals(r)
    requires forall s :: s in Signals(r) ==> NoDup(mid[s])
    requires forall s :: s in Signals(sources[i]) ==> s in L1 && L1[s] == mid[s]
    requires Healthy(sources[i]) && rt.Valid() && rt.Allocated(l)
    requires Grown(bs1, n1, rt.behaviours, rt.next) && WrappersOnly(bs1, rt.behaviours)
    requires SignalsOf(bi) <= Signals(sources[i]) && KeysFrom(sources[i], bi, l, n1, rt.next)
    requires Inserted(sources[i], bi, L1) && AddRouted(sources[i], bi, rt.behaviours, l)
    requires forall s :: s in Signals(r) && s !in Signals(sources[i]) ==> s.listeners == mid[s]
    ensures SoFar(r, sources, i + 1, parts + [bi], l, rt, L0, bs0, n0)
  {
    var post := Listeners(r);
    MergeStep(r, sources, i, parts, bi, l, L0, mid, post, bs1, rt.behaviours);
    assert Healthy(r) by {
      forall s | s in Signals(r) ensures s.Valid() {
        if s !in Signals(sources[i]) {
          assert s.listeners == mid[s];
        }
      }
    }
    GrownTrans(bs0, n0, bs1, n1, rt.behaviours, rt.next);
    PartsFromStep(r, sources, i, parts, bi, l, n0, n1, rt.next);
    CoveredStep(sources, i, parts, bi);
  }

  lemma CoveredStep(sources: seq<Readable>, i: nat, parts: seq<Binding>, bi: Binding)
    requires i < |sources| && SignalsOfAll(parts) <= SignalsUpTo(sources, i) && SignalsOf(bi) <= Signals(sources[i])
    ensures SignalsOfAll(parts + [bi]) <= SignalsUpTo(sources, i + 1)
  {
    assert (parts + [bi])[..|parts|] == parts;
  }

  lemma PartsFromStep(r: Readable, sources: seq<Readable>, i: nat, parts: seq<Binding>, bi: Binding, l: Key, n0: nat, n1: nat, n2: nat)
    requires i < |sources| && PartsFrom(r, parts, l, n0, n1) && n0 <= n1 <= n2
    requires KeysFrom(sources[i], bi, l, n1, n2) && SignalsOf(bi) <= Signals(sources[i]) <= Signals(r)
    ensures PartsFrom(r, parts + [bi], l, n0, n2)
  {
    assert (parts + [bi])[..|parts|] == parts;
    forall s, k | s in Signals(r) && k in KeysOnAll(parts + [bi], s)
      ensures k == l || (k.Made? && n0 <= k.n < n2)
    {
      if s !in Signals(sources[i]) {
        KeysOnElsewhere(bi, s);
      }
    }
  }

  /** The listener sets and chains after one more turn of the loop of `MergedSignal.add`. */
  lemma MergeStep(r: Readable, sources: seq<Readable>, i: nat, parts: seq<Binding>, bi: Binding, l: Key,
                  L0: map<MicroSignal, seq<Key>>, mid: map<MicroSignal, seq<Key>>, post: map<MicroSignal, seq<Key>>,
                  bs1: map<Key, Behaviour>, bs2: map<Key, Behaviour>)
    requires r == Merged(sources) && i < |sources|
    requires PartsListed(r, parts, mid, L0) && PartsRouted(r, sources, i, parts, l, bs1)
    requires Extends(bs1, bs2) && SignalsOf(bi) <= Signals(sources[i]) <= Signals(r)
    requires forall s :: s in Signals(r) ==> s in post
    requires forall s :: s in Signals(sources[i]) ==> post[s] == InsertAll(mid[s], KeysOn(bi, s))
    requires AddRouted(sources[i], bi, bs2, l)
    requires forall s :: s in Signals(r) && s !in Signals(sources[i]) ==> post[s] == mid[s]
    ensures PartsListed(r, parts + [bi], post, L0)
    ensures PartsRouted(r, sources, i + 1, parts + [bi], l, bs2)
  {
    assert (parts + [bi])[..|parts|] == parts;
    forall s | s in Signals(r)
      ensures post[s] == InsertAll(L0[s], KeysOnAll(parts + [bi], s))
      ensures Routed(bs2, KeysOnAll(parts + [bi], s), l, RoutesUpTo(sources, i + 1, s))
    {
      assert KeysOnAll(parts + [bi], s) == KeysOnAll(parts, s) + KeysOn(bi, s);
      RoutedExtends(bs1, bs2, KeysOnAll(parts, s), l, RoutesUpTo(sources, i, s));
      if s !in Signals(sources[i]) {
        KeysOnElsewhere(bi, s);
        RoutesElsewhere(sources[i], s);
        assert KeysOnAll(parts, s) + KeysOn(bi, s) == KeysOnAll(parts, s);
        assert RoutesUpTo(sources, i + 1, s) == RoutesUpTo(sources, i, s) + [];
      } else {
        InsertAllAppend(L0[s], KeysOnAll(parts, s), KeysOn(bi, s));
        RoutedAppend(bs2, KeysOnAll(parts, s), KeysOn(bi, s), l, RoutesUpTo(sources, i, s), Routes(sources[i], s));
      }
    }
  }

  // ---------------------------------------------------------------------
  // addOnce

  /**
   * The wrapper chains that `addOnce(l)` on `r` puts on `s`, each ending in
   * the one once-wrapper. Filters and maps pass their own wrapper down to
   * the inner `addOnce`, so they add no stage here; a merge adds the
   * once-wrapper to every source with `add`.
   */
  function OnceRoutes(r: Readable, s: MicroSignal): seq<seq<Stage>>
    decreases r
  {
    match r
    case Micro(s') => if s' == s then [[]] else []
    case ReadOnly(inner) => OnceRoutes(inner, s)
    case Merged(_) => Routes(r, s)
    case Filtered(inner, _) => OnceRoutes(inner, s)
    case Mapped(inner, _) => OnceRoutes(inner, s)
  }

  /** The stages between the once-wrapper and `l`: the filters and maps above the innermost `addOnce`. */
  function OnceTail(r: Readable): seq<Stage>
    decreases r
  {
    match r
    case Micro(_) => []
    case ReadOnly(inner) => OnceTail(inner)
    case Merged(_) => []
    case Filtered(inner, keep) => OnceTail(inner) + [Keep(keep)]
    case Mapped(inner, transform) => OnceTail(inner) + [Transform(transform)]
  }

  /**
   * `addOnce(l)` on any readable. One fresh once-wrapper `once` holds the
   * returned binding and calls, through the stages `OnceTail(r)`, the
   * listener `l`; every key the binding puts on a signal is fresh and heads
   * a chain ending in `once`.
   */
  method AddOnce(r: Readable, l: Key, rt: Closures) returns (b: Binding, ghost once: Key)
    requires Healthy(r) && rt.Valid() && rt.Allocated(l)
    modifies Signals(r), rt
    ensures Healthy(r) && rt.Valid()
    ensures Grown(old(rt.behaviours), old(rt.next), rt.behaviours, rt.next) && WrappersBesides(old(rt.behaviours), rt.behaviours, once)
    ensures once.Made? && old(rt.next) <= once.n < rt.next && once in rt.behaviours
    ensures rt.behaviours[once].OnceThen? && rt.behaviours[once].binding == b
    ensures Chain(rt.behaviours, rt.behaviours[once].next, l, OnceTail(r))
    ensures SignalsOf(b) <= Signals(r) && KeysFrom(r, b, once, once.n, rt.next)
    ensures Inserted(r, b, old(Listeners(r)))
    ensures OnceRouted(r, b, rt.behaviours, once)
    decreases r, 3
  {
    match r
    case Micro(sig) =>
      b, once := AddOnceMicro(r, l, rt);
    case ReadOnly(inner) =>
      b, once := AddOnceReadOnly(r, l, rt);
    case Filtered(_, keep) =>
      b, once := AddOnceWrapped(r, Keep(keep), l, rt);
    case Mapped(_, transform) =>
      b, once := AddOnceWrapped(r, Transform(transform), l, rt);
    case Merged(sources) =>
      b, once := AddOnceMerged(r, l, rt);
  }

  /** `Signal.addOnce(l)` of a micro signal. */
  method AddOnceMicro(r: Readable, l: Key, rt: Closures) returns (b: Binding, ghost once: Key)
    requires r.Micro?
    requires Healthy(r) && rt.Valid() && rt.Allocated(l)
    modifies Signals(r), rt
    ensures Healthy(r) && rt.Valid()
    ensures Grown(old(rt.behaviours), old(rt.next), rt.behaviours, rt.next) && WrappersBesides(old(rt.behaviours), rt.behaviours, once)
    ensures once.Made? && old(rt.next) <= once.n < rt.next && once in rt.behaviours
    ensures rt.behaviours[once].OnceThen? && rt.behaviours[once].binding == b
    ensures Chain(rt.behaviours, rt.behaviours[once].next, l, OnceTail(r))
    ensures SignalsOf(b) <= Signals(r) && KeysFrom(r, b, once, once.n, rt.next)
    ensures Inserted(r, b, old(Listeners(r)))
    ensures OnceRouted(r, b, rt.behaviours, once)
    decreases r, 2
  {
    ghost var bs0, n0 := rt.behaviours, rt.next;
    once := Made(rt.next);
    b := r.signal.AddOnce(l, rt);
    MicroOnce(r, l, b, once, bs0, n0, rt.behaviours, rt.next);
  }

  /** What `Signal.addOnce(l)` leaves in the closures. */
  lemma MicroOnce(r: Readable, l: Key, b: Binding, once: Key, bs0: map<Key, Behaviour>, n0: nat, bs: map<Key, Behaviour>, n: nat)
    requires r.Micro? && WellMade(bs0, n0) && once == Made(n0) && n == n0 + 1
    requires b == Detach(r.signal, once) && bs == bs0[once := OnceThen(b, l)]
    ensures Grown(bs0, n0, bs, n) && WrappersBesides(bs0, bs, once)
    ensures once.Made? && n0 <= once.n < n && once in bs
    ensures bs[once].OnceThen? && bs[once].binding == b
    ensures Chain(bs, bs[once].next, l, OnceTail(r))
    ensures SignalsOf(b) <= Signals(r) && KeysFrom(r, b, once, once.n, n)
    ensures InsertAll(r.signal.listeners, KeysOn(b, r.signal)) == Insert(r.signal.listeners, once)
    ensures OnceRouted(r, b, bs, once)
  {
    assert [once][..0] == [];
  }

  /** `addOnce(l)` on a read-only view is `addOnce(l)` on the signal it wraps. */
  method AddOnceReadOnly(r: Readable, l: Key, rt: Closures) returns (b: Binding, ghost once: Key)
    requires r.ReadOnly?
    requires Healthy(r) && rt.Valid() && rt.Allocated(l)
    modifies Signals(r), rt
    ensures Healthy(r) && rt.Valid()
    ensures Grown(old(rt.behaviours), old(rt.next), rt.behaviours, rt.next) && WrappersBesides(old(rt.behaviours), rt.behaviours, once)
    ensures once.Made? && old(rt.next) <= once.n < rt.next && once in rt.behaviours
    ensures rt.behaviours[once].OnceThen? && rt.behaviours[once].binding == b
    ensures Chain(rt.behaviours, rt.behaviours[once].next, l, OnceTail(r))
    ensures SignalsOf(b) <= Signals(r) && KeysFrom(r, b, once, once.n, rt.next)
    ensures Inserted(r, b, old(Listeners(r)))
    ensures OnceRouted(r, b, rt.behaviours, once)
    decreases r, 2
  {
    b, once := AddOnce(r.inner, l, rt);
  }

  /** `addOnce(l)` on a filtered or mapped readable: the inner `addOnce` of a fresh wrapper of `l`. */
  method AddOnceWrapped(r: Readable, st: Stage, l: Key, rt: Closures) returns (b: Binding, ghost once: Key)
    requires (r.Filtered? || r.Mapped?) && st == Outer(r)
    requires Healthy(r) && rt.Valid() && rt.Allocated(l)
    modifies Signals(r), rt
    ensures Healthy(r) && rt.Valid()
    ensures Grown(old(rt.behaviours), old(rt.next), rt.behaviours, rt.next) && WrappersBesides(old(rt.behaviours), rt.behaviours, once)
    ensures once.Made? && old(rt.next) <= once.n < rt.next && once in rt.behaviours
    ensures rt.behaviours[once].OnceThen? && rt.behaviours[once].binding == b
    ensures Chain(rt.behaviours, rt.behaviours[once].next, l, OnceTail(r))
    ensures SignalsOf(b) <= Signals(r) && KeysFrom(r, b, once, once.n, rt.next)
    ensures Inserted(r, b, old(Listeners(r)))
    ensures OnceRouted(r, b, rt.behaviours, once)
    decreases r, 2
  {
    ghost var bs0, n0 := rt.behaviours, rt.next;
    SignalsAllocated(r.inner);
    var w := Wrap(st, l, rt);
    ghost var bs1, n1 := rt.behaviours, rt.next;
    assert Listeners(r.inner) == old(Listeners(r));
    b, once := AddOnce(r.inner, w, rt);
    WrappedOnce(r, st, l, w, b, once, bs0, n0, bs1, n1, rt.behaviours, rt.next);
  }

  /** The closures after the inner `addOnce` of the wrapper `w` of `l`. */
  lemma WrappedOnce(r: Readable, st: Stage, l: Key, w: Key, b: Binding, once: Key,
                    bs0: map<Key, Behaviour>, n0: nat, bs1: map<Key, Behaviour>, n1: nat, bs: map<Key, Behaviour>, n: nat)
    requires (r.Filtered? || r.Mapped?) && st == Outer(r)
    requires Grown(bs0, n0, bs1, n1) && Chain(bs1, w, l, [st]) && Grown(bs1, n1, bs, n)
    requires once.Made? && n1 <= once.n < n && once in bs
    requires bs[once].OnceThen? && Chain(bs, bs[once].next, w, OnceTail(r.inner))
    requires SignalsOf(b) <= Signals(r.inner) && KeysFrom(r.inner, b, once, once.n, n)
    requires OnceRouted(r.inner, b, bs, once)
    requires WrappersOnly(bs0, bs1) && WrappersBesides(bs1, bs, once)
    ensures Grown(bs0, n0, bs, n) && n0 <= once.n && WrappersBesides(bs0, bs, once)
    ensures Chain(bs, bs[once].next, l, OnceTail(r))
    ensures SignalsOf(b) <= Signals(r) && KeysFrom(r, b, once, once.n, n)
    ensures OnceRouted(r, b, bs, once)
  {
    GrownTrans(bs0, n0, bs1, n1, bs, n);
    ChainExtends(bs1, bs, w, l, [st]);
    ChainAppend(bs, bs[once].next, w, l, OnceTail(r.inner), [st]);
  }

  /**
   * `MergedSignal.addOnce(l)`: a fresh wrapper is added to every source
   * with `add`; when called it detaches the combined binding, then calls `l`.
   */
  method AddOnceMerged(r: Readable, l: Key, rt: Closures) returns (b: Binding, ghost once: Key)
    requires r.Merged?
    requires Healthy(r) && rt.Valid() && rt.Allocated(l)
    modifies Signals(r), rt
    ensures Healthy(r) && rt.Valid()
    ensures Grown(old(rt.behaviours), old(rt.next), rt.behaviours, rt.next) && WrappersBesides(old(rt.behaviours), rt.behaviours, once)
    ensures once.Made? && old(rt.next) <= once.n < rt.next && once in rt.behaviours
    ensures rt.behaviours[once] == OnceThen(b, l)
    ensures SignalsOf(b) <= Signals(r) && KeysFrom(r, b, once, once.n, rt.next)
    ensures Inserted(r, b, old(Listeners(r)))
    ensures OnceRouted(r, b, rt.behaviours, once)
    decreases r, 2
  {
    ghost var bs0, n0 := rt.behaviours, rt.next;
    SignalsAllocated(r);
    var wrapper := rt.Fresh();
    assert Listeners(r) == old(Listeners(r));
    b := Add(r, wrapper, rt);
    assert Inserted(r, b, old(Listeners(r)));
    ghost var bs1, n1 := rt.behaviours, rt.next;
    MergedOnceBelow(r, b, wrapper, n0, n1);
    rt.Define(wrapper, OnceThen(b, l));
    once := wrapper;
    MergedOnce(r, l, b, once, bs0, n0, bs1, n1, rt.behaviours);
  }

  /** The keys of the combined binding are all older than the next closure. */
  lemma MergedOnceBelow(r: Readable, b: Binding, w: Key, n0: nat, n: nat)
    requires w == Made(n0) && n0 < n
    requires SignalsOf(b) <= Signals(r) && KeysFrom(r, b, w, n0 + 1, n)
    ensures BindingBelow(b, n)
  {
  }

  /** The closures once the wrapper `once` records its binding and `l`. */
  lemma MergedOnce(r: Readable, l: Key, b: Binding, once: Key,
                   bs0: map<Key, Behaviour>, n0: nat, bs1: map<Key, Behaviour>, n1: nat, bs: map<Key, Behaviour>)
    requires r.Merged? && WellMade(bs0, n0) && once == Made(n0)
    requires Grown(bs0, n0 + 1, bs1, n1) && bs == bs1[once := OnceThen(b, l)]
    requires SignalsOf(b) <= Signals(r) && KeysFrom(r, b, once, n0 + 1, n1)
    requires AddRouted(r, b, bs1, once) && WrappersOnly(bs0, bs1)
    ensures Grown(bs0, n0, bs, n1) && n0 <= once.n < n1 && once in bs && WrappersBesides(bs0, bs, once)
    ensures KeysFrom(r, b, once, once.n, n1)
    ensures OnceRouted(r, b, bs, once)
  {
    assert Extends(bs1, bs);
    forall s | s in Signals(r) ensures Routed(bs, KeysOn(b, s), once, OnceRoutes(r, s)) {
      RoutedExtends(bs1, bs, KeysOn(b, s), once, Routes(r, s));
    }
  }
}

=== FILE: signals.dfy ===
/**
 * The writable `Signal` of src/signal.ts: an ExtendedSignal whose base is
 * its own listener and catcher sets, plus `dispatch` and the default
 * listeners used when nobody listens.
 *
 * Listeners are bare keys. Whether a listener throws on a payload, and
 * whether a catcher throws on an error, are parameters of `dispatch`.
 */
module Signals {
  import opened Common
  import opened OrderedSets
  import opened ListenerSets
  import opened ExtendedSignals
  import opened Wiring
  import Caches
  import TagMapping

  /** `Signal._staticDefaultListener`, shared by every signal; `None` is the built-in no-op. */
  class StaticDefault {
    var listener: Option<Key>

    constructor ()
      ensures listener == None
    {
      listener := None;
    }

    /** The static `setDefaultListener`: the last write wins. */
    method SetDefaultListener(l: Key)
      modifies this
      ensures listener == Some(l)
    {
      listener := Some(l);
    }
  }

  /** A signal's `_instanceDefaultListener`: at first it forwards to the static one. */
  datatype InstanceDefault = ForwardToStatic | Custom(listener: Key)

  /** The listener whose call is the error a catcher receives, and the payload it was called with. */
  datatype Fault = Fault(thrower: Key, payload: Payload)

  datatype Event =
    | Called(listener: Key, payload: Payload)
    /** The default listener ran; `None` is the static no-op. */
    | DefaultCalled(default: Option<Key>, payload: Payload)
    | Caught(catcher: Key, fault: Fault)
    /** The callback of a `peek` relay ran. */
    | Peekaboo(payload: Payload)

  /** Which client listeners throw on which payloads, and which catchers throw on which errors. */
  datatype Reactions = Reactions(throws: (Key, Payload) -> bool, catcherThrows: (Key, Fault) -> bool)

  /**
   * What a dispatch did: its events, the catcher whose exception escaped
   * (if any), and the keys of the set it invoked, in order.
   */
  datatype Run = Run(events: seq<Event>, escaped: Option<Key>, invoked: seq<Key>)

  /** The catchers' share of one error: their calls, and the catcher whose exception escaped. */
  datatype Handling = Handling(events: seq<Event>, escaped: Option<Key>)

  /** One key invoked: the calls it led to, whether a client listener threw, and what escaped the catchers. */
  datatype Turn = Turn(events: seq<Event>, threw: bool, escaped: Option<Key>)

  /** The default that `dispatch` on an empty set calls. */
  function EffectiveDefault(instance: InstanceDefault, staticDefault: Option<Key>): Option<Key> {
    if instance.Custom? then Some(instance.listener) else staticDefault
  }

  /** Dispatch with no listener: the default only, once; the no-op never throws. */
  function DefaultRun(instance: InstanceDefault, staticDefault: Option<Key>, p: Payload, rx: Reactions): Run
  {
    var d := EffectiveDefault(instance, staticDefault);
    Run([DefaultCalled(d, p)], if d.Some? && rx.throws(d.value, p) then d else None, [])
  }

  /**
   * The catchers `cs`, in order, called with fault `f`; the first that
   * throws ends the run, because nothing catches a catcher's exception.
   */
  function CatchAll(cs: seq<Key>, f: Fault, rx: Reactions): Handling
    decreases |cs|
  {
    if cs == [] then Handling([], None)
    else
      var before := CatchAll(cs[..|cs| - 1], f, rx);
      var c := cs[|cs| - 1];
      if before.escaped.Some? then before
      else Handling(before.events + [Caught(c, f)], if rx.catcherThrows(c, f) then Some(c) else None)
  }

  /**
   * The effects of one invoked key carried out in order: a peek callback
   * runs, a client listener is called. The first listener that throws ends
   * the key's call, and its error goes to every catcher.
   */
  function Visit(effects: seq<Effect>, cs: seq<Key>, rx: Reactions): Turn
    decreases |effects|
  {
    if effects == [] then Turn([], false, None)
    else
      var before := Visit(effects[..|effects| - 1], cs, rx);
      if before.threw then before
      else match effects[|effects| - 1]
        case Peeked(q) => Turn(before.events + [Peekaboo(q)], false, None)
        case Delivered(l, q) =>
          if rx.throws(l, q) then
            var c := CatchAll(cs, Fault(l, q), rx);
            Turn(before.events + [Called(l, q)] + c.events, true, c.escaped)
          else Turn(before.events + [Called(l, q)], false, None)
  }

  /** The hub and the run so far. */
  datatype Progress = Progress(hub: Hub, run: Run)

  /** Key `k` is still in set `s`. */
  predicate Live(h: Hub, s: ListenerSet, k: Key) {
    s in h.sets && k in h.sets[s]
  }

  /**
   * `dispatch(p)` on set `s`, whose entries were `ls` when it began: each
   * entry still in the set when its turn comes is invoked, its closure (if
   * the library made it) changes the hub, and its effects run; an entry
   * deleted before its turn is skipped, and a catcher's exception ends
   * everything.
   */
  function Dispatched(h: Hub, s: ListenerSet, ls: seq<Key>, lib: Table, p: Payload, cs: seq<Key>, rx: Reactions): Progress
    decreases |ls|
  {
    if ls == [] then Progress(h, Run([], None, []))
    else Next(Dispatched(h, s, ls[..|ls| - 1], lib, p, cs, rx), s, ls[|ls| - 1], lib, p, cs, rx)
  }

  /** The turn of entry `k`: skipped once something escaped or once `k` has left `s`. */
  function Next(prev: Progress, s: ListenerSet, k: Key, lib: Table, p: Payload, cs: seq<Key>, rx: Reactions): Progress {
    if prev.run.escaped.Some? || !Live(prev.hub, s, k) then prev
    else
      var o := Perform(prev.hub, lib, k, p);
      var v := Visit(o.effects, cs, rx);
      Progress(o.hub, Run(prev.run.events + v.events, v.escaped, prev.run.invoked + [k]))
  }

  // ---------------------------------------------------------------------
  // Stopping and escaping.

  /** Once a catcher has thrown, the remaining catchers are not called. */
  lemma {:induction false} CatchAllStops(cs: seq<Key>, j: nat, f: Fault, rx: Reactions)
    requires j <= |cs| && CatchAll(cs[..j], f, rx).escaped.Some?
    ensures CatchAll(cs, f, rx) == CatchAll(cs[..j], f, rx)
    decreases |cs|
  {
    if j < |cs| {
      assert cs[..|cs| - 1][..j] == cs[..j];
      CatchAllStops(cs[..|cs| - 1], j, f, rx);
    } else {
      assert cs[..j] == cs;
    }
  }

  /** With no throwing catcher, every catcher receives the fault, in order. */
  lemma {:induction false} CatchAllNoThrow(cs: seq<Key>, f: Fault, rx: Reactions)
    requires forall c :: c in cs ==> !rx.catcherThrows(c, f)
    ensures CatchAll(cs, f, rx).escaped.None?
    ensures CatchAll(cs, f, rx).events == seq(|cs|, i requires 0 <= i < |cs| => Caught(cs[i], f))
    decreases |cs|
  {
    if cs != [] {
      CatchAllNoThrow(cs[..|cs| - 1], f, rx);
    }
  }

  /** An escaping catcher exception comes from a catcher that threw on the fault, as the last event. */
  lemma {:induction false} CatchAllEscape(cs: seq<Key>, f: Fault, rx: Reactions)
    requires CatchAll(cs, f, rx).escaped.Some?
    ensures var r := CatchAll(cs, f, rx);
            r.escaped.value in cs && rx.catcherThrows(r.escaped.value, f) &&
            r.events != [] && r.events[|r.events| - 1] == Caught(r.escaped.value, f)
    decreases |cs|
  {
    var init := cs[..|cs| - 1];
    if CatchAll(init, f, rx).escaped.Some? {
      CatchAllEscape(init, f, rx);
    }
  }

  /** Once a listener has thrown, the rest of the key's effects do not happen; nothing escapes unless one threw. */
  lemma {:induction false} VisitStops(effects: seq<Effect>, j: nat, cs: seq<Key>, rx: Reactions)
    requires j <= |effects| && Visit(effects[..j], cs, rx).threw
    ensures Visit(effects, cs, rx) == Visit(effects[..j], cs, rx)
    decreases |effects|
  {
    if j < |effects| {
      assert effects[..|effects| - 1][..j] == effects[..j];
      VisitStops(effects[..|effects| - 1], j, cs, rx);
    } else {
      assert effects[..j] == effects;
    }
  }

  /** An exception escapes a key's call only from a catcher that threw on the error of a listener that threw. */
  lemma {:induction false} VisitEscape(effects: seq<Effect>, cs: seq<Key>, rx: Reactions)
    requires Visit(effects, cs, rx).escaped.Some?
    ensures var v := Visit(effects, cs, rx);
            var c := v.escaped.value;
            v.threw && c in cs && v.events != [] &&
            exists t, q :: v.events[|v.events| - 1] == Caught(c, Fault(t, q)) && rx.throws(t, q) && rx.catcherThrows(c, Fault(t, q))
    decreases |effects|
  {
    var init := effects[..|effects| - 1];
    var before := Visit(init, cs, rx);
    if before.threw {
      if before.escaped.None? {
        assert false;
      }
      VisitEscape(init, cs, rx);
    } else {
      NoThrowNoEscape(init, cs, rx);
      var e := effects[|effects| - 1];
      CatchAllEscape(cs, Fault(e.listener, e.payload), rx);
    }
  }

  lemma {:induction false} NoThrowNoEscape(effects: seq<Effect>, cs: seq<Key>, rx: Reactions)
    ensures !Visit(effects, cs, rx).threw ==> Visit(effects, cs, rx).escaped.None?
    decreases |effects|
  {
    if effects != [] {
      NoThrowNoEscape(effects[..|effects| - 1], cs, rx);
    }
  }

  /** With no throwing catcher, nothing escapes a key's call. */
  lemma {:induction false} VisitNoEscape(effects: seq<Effect>, cs: seq<Key>, rx: Reactions)
    requires forall c, f :: c in cs ==> !rx.catcherThrows(c, f)
    ensures Visit(effects, cs, rx).escaped.None?
  {
    if Visit(effects, cs, rx).escaped.Some? {
      VisitEscape(effects, cs, rx);
    }
  }

  /** Once an exception has escaped, the remaining entries are not invoked and the hub stays as it was. */
  lemma {:induction false} DispatchedStops(h: Hub, s: ListenerSet, ls: seq<Key>, i: nat, lib: Table, p: Payload, cs: seq<Key>, rx: Reactions)
    requires i <= |ls| && Dispatched(h, s, ls[..i], lib, p, cs, rx).run.escaped.Some?
    ensures Dispatched(h, s, ls, lib, p, cs, rx) == Dispatched(h, s, ls[..i], lib, p, cs, rx)
    decreases |ls|
  {
    if i < |ls| {
      assert ls[..|ls| - 1][..i] == ls[..i];
      DispatchedStops(h, s, ls[..|ls| - 1], i, lib, p, cs, rx);
    } else {
      assert ls[..i] == ls;
    }
  }

  /**
   * When a catcher's exception escapes dispatch, it is the last thing that
   * happened: a catcher of the set threw on the error of a listener.
   */
  lemma {:induction false} DispatchedEscape(h: Hub, s: ListenerSet, ls: seq<Key>, lib: Table, p: Payload, cs: seq<Key>, rx: Reactions)
    requires Dispatched(h, s, ls, lib, p, cs, rx).run.escaped.Some?
    ensures var r := Dispatched(h, s, ls, lib, p, cs, rx).run;
            var c := r.escaped.value;
            c in cs && r.events != [] &&
            exists t, q :: r.events[|r.events| - 1] == Caught(c, Fault(t, q)) && rx.throws(t, q) && rx.catcherThrows(c, Fault(t, q))
    decreases |ls|
  {
    var prev := Dispatched(h, s, ls[..|ls| - 1], lib, p, cs, rx);
    var k := ls[|ls| - 1];
    if prev.run.escaped.Some? || !Live(prev.hub, s, k) {
      DispatchedEscape(h, s, ls[..|ls| - 1], lib, p, cs, rx);
    } else {
      var o := Perform(prev.hub, lib, k, p);
      VisitEscape(o.effects, cs, rx);
      var v := Visit(o.effects, cs, rx);
      var r := Dispatched(h, s, ls, lib, p, cs, rx).run;
      assert r.events == prev.run.events + v.events;
      assert r.events[|r.events| - 1] == v.events[|v.events| - 1];
    }
  }

  // ---------------------------------------------------------------------
  // What one dispatch does to the hub.

  /** A dispatch only shrinks sets and relays, and never unsettles a promise. */
  lemma {:induction false} DispatchedFollows(h: Hub, s: ListenerSet, ls: seq<Key>, lib: Table, p: Payload, cs: seq<Key>, rx: Reactions)
    ensures Follows(h, Dispatched(h, s, ls, lib, p, cs, rx).hub)
    decreases |ls|
  {
    if ls != [] {
      var prev := Dispatched(h, s, ls[..|ls| - 1], lib, p, cs, rx);
      DispatchedFollows(h, s, ls[..|ls| - 1], lib, p, cs, rx);
      PerformFollows(prev.hub, lib, ls[|ls| - 1], p);
      FollowsTrans(h, prev.hub, Perform(prev.hub, lib, ls[|ls| - 1], p).hub);
    }
  }

  /** A dispatch keeps the hub tidy. */
  lemma {:induction false} DispatchedTidy(h: Hub, s: ListenerSet, ls: seq<Key>, lib: Table, p: Payload, cs: seq<Key>, rx: Reactions)
    requires Tidy(h, lib)
    ensures Tidy(Dispatched(h, s, ls, lib, p, cs, rx).hub, lib)
    decreases |ls|
  {
    if ls != [] {
      var prev := Dispatched(h, s, ls[..|ls| - 1], lib, p, cs, rx);
      DispatchedTidy(h, s, ls[..|ls| - 1], lib, p, cs, rx);
      PerformTidy(prev.hub, lib, ls[|ls| - 1], p);
    }
  }

  /**
   * Only entries of `ls` that were in `s` when the dispatch began are
   * invoked, in the order of `ls`, and none twice.
   */
  lemma {:induction false} DispatchedInvoked(h: Hub, s: ListenerSet, ls: seq<Key>, lib: Table, p: Payload, cs: seq<Key>, rx: Reactions)
    ensures var r := Dispatched(h, s, ls, lib, p, cs, rx).run;
            (forall k :: k in r.invoked ==> k in ls && Live(h, s, k)) &&
            (NoDup(ls) ==> NoDup(r.invoked))
    decreases |ls|
  {
    if ls != [] {
      var init := ls[..|ls| - 1];
      var prev := Dispatched(h, s, init, lib, p, cs, rx);
      DispatchedInvoked(h, s, init, lib, p, cs, rx);
      DispatchedFollows(h, s, init, lib, p, cs, rx);
      var k := ls[|ls| - 1];
      var r := Dispatched(h, s, ls, lib, p, cs, rx).run;
      if r != prev.run {
        assert Live(prev.hub, s, k) && r.invoked == prev.run.invoked + [k];
        if NoDup(ls) {
          assert k !in init;
        }
      }
      forall x | x in r.invoked ensures x in ls && Live(h, s, x) {
        if x in prev.run.invoked {
          assert x in init;
        }
      }
    }
  }

  /** An entry spared by the library, a client listener or a recorder, stays in every set it was in. */
  lemma {:induction false} DispatchedSpares(h: Hub, s: ListenerSet, ls: seq<Key>, lib: Table, p: Payload, cs: seq<Key>, rx: Reactions,
                                            s': ListenerSet, e: Key)
    requires Tidy(h, lib) && s' in h.sets && e in h.sets[s'] && Spared(lib, e)
    ensures var d := Dispatched(h, s, ls, lib, p, cs, rx); s' in d.hub.sets && e in d.hub.sets[s']
    decreases |ls|
  {
    if ls != [] {
      var init := ls[..|ls| - 1];
      var prev := Dispatched(h, s, init, lib, p, cs, rx);
      DispatchedSpares(h, s, init, lib, p, cs, rx, s', e);
      DispatchedTidy(h, s, init, lib, p, cs, rx);
      DispatchedFollows(h, s, init, lib, p, cs, rx);
      PerformSpares(prev.hub, lib, ls[|ls| - 1], p, s', e);
    }
  }

  /**
   * With no catcher that throws, nothing escapes and every entry the
   * library spares is invoked: each client listener is called with the
   * payload, and when it throws, every catcher receives its error.
   */
  lemma {:induction false} DispatchedReaches(h: Hub, s: ListenerSet, ls: seq<Key>, lib: Table, p: Payload, cs: seq<Key>, rx: Reactions)
    requires Tidy(h, lib)
    requires forall c, f :: c in cs ==> !rx.catcherThrows(c, f)
    ensures var r := Dispatched(h, s, ls, lib, p, cs, rx).run;
            r.escaped.None? &&
            (forall i :: 0 <= i < |ls| && Live(h, s, ls[i]) && Spared(lib, ls[i]) ==> ls[i] in r.invoked) &&
            (forall i :: 0 <= i < |ls| && Live(h, s, ls[i]) && ls[i] !in lib ==> Called(ls[i], p) in r.events) &&
            (forall i, c :: 0 <= i < |ls| && Live(h, s, ls[i]) && ls[i] !in lib && rx.throws(ls[i], p) && c in cs ==>
               Caught(c, Fault(ls[i], p)) in r.events)
    decreases |ls|
  {
    if ls != [] {
      var init := ls[..|ls| - 1];
      var k := ls[|ls| - 1];
      var prev := Dispatched(h, s, init, lib, p, cs, rx);
      DispatchedReaches(h, s, init, lib, p, cs, rx);
      var r := Dispatched(h, s, ls, lib, p, cs, rx).run;
      if Live(h, s, k) && Spared(lib, k) {
        DispatchedSpares(h, s, init, lib, p, cs, rx, s, k);
      }
      LastReached(prev, s, k, lib, p, cs, rx);
      forall i | 0 <= i < |ls| && Live(h, s, ls[i]) && Spared(lib, ls[i]) ensures ls[i] in r.invoked {
        if i < |ls| - 1 {
          assert ls[i] == init[i];
        }
      }
      forall i | 0 <= i < |ls| && Live(h, s, ls[i]) && ls[i] !in lib ensures Called(ls[i], p) in r.events {
        if i < |ls| - 1 {
          assert ls[i] == init[i];
        }
      }
      forall i, c | 0 <= i < |ls| && Live(h, s, ls[i]) && ls[i] !in lib && rx.throws(ls[i], p) && c in cs
        ensures Caught(c, Fault(ls[i], p)) in r.events
      {
        if i < |ls| - 1 {
          assert ls[i] == init[i];
        }
      }
    }
  }

  /** The turn of a live entry with no throwing catcher: it is invoked, and a client listener is called and caught. */
  lemma LastReached(prev: Progress, s: ListenerSet, k: Key, lib: Table, p: Payload, cs: seq<Key>, rx: Reactions)
    requires forall c, f :: c in cs ==> !rx.catcherThrows(c, f)
    requires prev.run.escaped.None?
    ensures var r := Next(prev, s, k, lib, p, cs, rx).run;
            r.escaped.None? && (forall e :: e in prev.run.events ==> e in r.events) &&
            (forall x :: x in prev.run.invoked ==> x in r.invoked) &&
            (Live(prev.hub, s, k) ==> k in r.invoked) &&
            (Live(prev.hub, s, k) && k !in lib ==> Called(k, p) in r.events) &&
            (Live(prev.hub, s, k) && k !in lib && rx.throws(k, p) ==> forall c :: c in cs ==> Caught(c, Fault(k, p)) in r.events)
  {
    var r := Next(prev, s, k, lib, p, cs, rx).run;
    if Live(prev.hub, s, k) {
      var o := Perform(prev.hub, lib, k, p);
      VisitNoEscape(o.effects, cs, rx);
      var v := Visit(o.effects, cs, rx);
      assert r == Run(prev.run.events + v.events, v.escaped, prev.run.invoked + [k]);
      if k !in lib {
        assert o.effects[..0] == [];
        CatchAllNoThrow(cs, Fault(k, p), rx);
        assert v.events[0] == Called(k, p);
        if rx.throws(k, p) {
          forall c | c in cs ensures Caught(c, Fault(k, p)) in r.events {
            var j :| 0 <= j < |cs| && cs[j] == c;
            assert v.events[1 + j] == Caught(c, Fault(k, p));
          }
        }
      }
    }
  }

  /** Whether a key spends itself depends only on what every later hub keeps. */
  lemma SpendsFollows(h1: Hub, h2: Hub, lib: Table, k: Key, p: Payload)
    requires Follows(h1, h2) && Spends(h1, lib, k, p)
    ensures Spends(h2, lib, k, p)
  {
    if lib[k].Forward? {
      assert RelayFollows(h1.relays[lib[k].base], h2.relays[lib[k].base]);
    }
  }

  /**
   * An invoked entry that spends itself (a one-time listener, a settler, a
   * relay wrapper that forwarded to a once-wrapper) is in no set afterwards.
   */
  lemma {:induction false} DispatchedSpends(h: Hub, s: ListenerSet, ls: seq<Key>, lib: Table, p: Payload, cs: seq<Key>, rx: Reactions,
                                            k: Key, s': ListenerSet)
    requires Tidy(h, lib) && Spends(h, lib, k, p) && s' in h.sets
    requires k in Dispatched(h, s, ls, lib, p, cs, rx).run.invoked
    ensures var d := Dispatched(h, s, ls, lib, p, cs, rx); s' in d.hub.sets && k !in d.hub.sets[s']
    decreases |ls|
  {
    var init := ls[..|ls| - 1];
    var prev := Dispatched(h, s, init, lib, p, cs, rx);
    var d := Dispatched(h, s, ls, lib, p, cs, rx);
    DispatchedFollows(h, s, init, lib, p, cs, rx);
    if d != prev {
      var k' := ls[|ls| - 1];
      PerformFollows(prev.hub, lib, k', p);
      if k in prev.run.invoked {
        DispatchedSpends(h, s, init, lib, p, cs, rx, k, s');
      } else {
        assert k == k';
        DispatchedTidy(h, s, init, lib, p, cs, rx);
        SpendsFollows(h, prev.hub, lib, k, p);
        PerformSpends(prev.hub, lib, k, p, s');
      }
    } else {
      DispatchedSpends(h, s, init, lib, p, cs, rx, k, s');
    }
  }

  // ---------------------------------------------------------------------
  // Dispatch after dispatch.

  /** One `dispatch` of a listener set, with its payload and the catchers it had. */
  datatype Step = Step(signal: ListenerSet, payload: Payload, catchers: seq<Key>)

  /** A step's dispatch from hub `h`, over the entries its set held when it began. */
  function Stepped(h: Hub, lib: Table, st: Step, rx: Reactions): Progress {
    Dispatched(h, st.signal, if st.signal in h.sets then h.sets[st.signal] else [], lib, st.payload, st.catchers, rx)
  }

  /** The hub after `steps`, one dispatch after another. */
  function After(h: Hub, lib: Table, steps: seq<Step>, rx: Reactions): Hub
    decreases |steps|
  {
    if steps == [] then h else Stepped(After(h, lib, steps[..|steps| - 1], rx), lib, steps[|steps| - 1], rx).hub
  }

  lemma {:induction false} AfterTidy(h: Hub, lib: Table, steps: seq<Step>, rx: Reactions)
    requires Tidy(h, lib)
    ensures Tidy(After(h, lib, steps, rx), lib)
    decreases |steps|
  {
    if steps != [] {
      var st := steps[|steps| - 1];
      var h' := After(h, lib, steps[..|steps| - 1], rx);
      AfterTidy(h, lib, steps[..|steps| - 1], rx);
      DispatchedTidy(h', st.signal, if st.signal in h'.sets then h'.sets[st.signal] else [], lib, st.payload, st.catchers, rx);
    }
  }

  /** Later hubs follow earlier ones. */
  lemma {:induction false} AfterFollows(h: Hub, lib: Table, steps: seq<Step>, rx: Reactions, i: nat)
    requires i <= |steps|
    ensures Follows(After(h, lib, steps[..i], rx), After(h, lib, steps, rx))
    decreases |steps|
  {
    if i < |steps| {
      var init := steps[..|steps| - 1];
      var st := steps[|steps| - 1];
      var h' := After(h, lib, init, rx);
      assert init[..i] == steps[..i];
      AfterFollows(h, lib, init, rx, i);
      DispatchedFollows(h', st.signal, if st.signal in h'.sets then h'.sets[st.signal] else [], lib, st.payload, st.catchers, rx);
      FollowsTrans(After(h, lib, steps[..i], rx), h', After(h, lib, steps, rx));
    } else {
      assert steps[..i] == steps;
    }
  }

  /**
   * A key that spends itself fires once: after the dispatch that invoked
   * it, no later dispatch of any signal invokes it again. This covers a
   * one-time listener, a promise's settlers, and the wrapper a relay puts
   * on its source for a once-listener once it has let a payload through.
   */
  lemma FiresOnce(h: Hub, lib: Table, steps: seq<Step>, rx: Reactions, i: nat, j: nat, k: Key)
    requires Tidy(h, lib) && i < j < |steps|
    requires k in Stepped(After(h, lib, steps[..i], rx), lib, steps[i], rx).run.invoked
    requires Spends(After(h, lib, steps[..i], rx), lib, k, steps[i].payload)
    ensures k !in Stepped(After(h, lib, steps[..j], rx), lib, steps[j], rx).run.invoked
  {
    var hi := After(h, lib, steps[..i], rx);
    var hj := After(h, lib, steps[..j], rx);
    var st := steps[i];
    var ls := if st.signal in hi.sets then hi.sets[st.signal] else [];
    AfterTidy(h, lib, steps[..i], rx);
    assert steps[..i + 1][..i] == steps[..i];
    var hi1 := After(h, lib, steps[..i + 1], rx);
    assert hi1 == Stepped(hi, lib, st, rx).hub;
    DispatchedFollows(hi, st.signal, ls, lib, st.payload, st.catchers, rx);
    AfterFollows(h, lib, steps[..j], rx, i + 1);
    assert steps[..j][..i + 1] == steps[..i + 1];
    var sj := steps[j];
    if sj.signal in hj.sets {
      DispatchedSpends(hi, st.signal, ls, lib, st.payload, st.catchers, rx, k, sj.signal);
      DispatchedInvoked(hj, sj.signal, hj.sets[sj.signal], lib, sj.payload, sj.catchers, rx);
    }
  }

  /** A promise, once settled, keeps its settlement through every later dispatch. */
  lemma SettledStays(h: Hub, lib: Table, steps: seq<Step>, rx: Reactions, i: nat, q: Promise)
    requires i <= |steps| && q in After(h, lib, steps[..i], rx).promises
    requires After(h, lib, steps[..i], rx).promises[q] != Pending
    ensures q in After(h, lib, steps, rx).promises && After(h, lib, steps, rx).promises[q] == After(h, lib, steps[..i], rx).promises[q]
  {
    AfterFollows(h, lib, steps, rx, i);
  }

  // ---------------------------------------------------------------------
  // A relay wrapper across dispatches.

  /** Wrapper `w` is relay `b`'s wrapper in the table and in hub `h`. */
  predicate Wraps(h: Hub, lib: Table, b: Base, w: Key) {
    w in lib && lib[w] == Forward(b) && b.kind.Relay? && b in h.relays && w in h.relays[b].wrappers
  }

  /** A call moves wrapper `w`'s accumulator on when it is the call of `w`, and leaves it alone otherwise. */
  lemma PerformCharges(h: Hub, lib: Table, k: Key, p: Payload, b: Base, w: Key)
    requires Wraps(h, lib, b, w)
    ensures var h' := Perform(h, lib, k, p).hub;
            var ws := h.relays[b].wrappers[w];
            Wraps(h', lib, b, w) &&
            h'.relays[b].wrappers[w] ==
              if k == w then ws.(accum := Convert(b.kind.conversion, ws.listener, ws.accum, p).accum) else ws
  {
    PerformFollows(h, lib, k, p);
    if k in lib && lib[k].Forward? {
      var b' := lib[k].base;
      if b'.kind.Relay? && b' in h.relays && k in h.relays[b'].wrappers {
        var h1 := Charged(h, b', k, p);
        assert h1.relays[b].wrappers[w] == if k == w then Perform(h, lib, k, p).hub.relays[b].wrappers[w] else h.relays[b].wrappers[w];
      }
    }
  }

  /** During one dispatch, wrapper `w` is charged with the payload if the dispatch invoked it, and is untouched otherwise. */
  lemma {:induction false} DispatchedCharges(h: Hub, s: ListenerSet, ls: seq<Key>, lib: Table, p: Payload, cs: seq<Key>, rx: Reactions,
                                             b: Base, w: Key)
    requires Wraps(h, lib, b, w) && NoDup(ls)
    ensures var d := Dispatched(h, s, ls, lib, p, cs, rx);
            var ws := h.relays[b].wrappers[w];
            Wraps(d.hub, lib, b, w) &&
            d.hub.relays[b].wrappers[w] ==
              if w in d.run.invoked then ws.(accum := Convert(b.kind.conversion, ws.listener, ws.accum, p).accum) else ws
    decreases |ls|
  {
    if ls != [] {
      var init := ls[..|ls| - 1];
      var k := ls[|ls| - 1];
      var prev := Dispatched(h, s, init, lib, p, cs, rx);
      DispatchedCharges(h, s, init, lib, p, cs, rx, b, w);
      DispatchedInvoked(h, s, init, lib, p, cs, rx);
      if !(prev.run.escaped.Some? || !Live(prev.hub, s, k)) {
        PerformCharges(prev.hub, lib, k, p, b, w);
        assert k !in init;
      }
    }
  }

  /** The payloads of the dispatches among `steps` that invoked key `w`, in order. */
  function Invocations(h: Hub, lib: Table, w: Key, steps: seq<Step>, rx: Reactions): seq<Payload>
    decreases |steps|
  {
    if steps == [] then []
    else
      var init := steps[..|steps| - 1];
      var st := steps[|steps| - 1];
      Invocations(h, lib, w, init, rx) + if w in Stepped(After(h, lib, init, rx), lib, st, rx).run.invoked then [st.payload] else []
  }

  /**
   * Over any sequence of dispatches, a relay wrapper's accumulator is the
   * one its conversion reaches over exactly the payloads of the dispatches
   * that invoked it; its listener never changes.
   */
  lemma {:induction false} AfterAccumulates(h: Hub, lib: Table, steps: seq<Step>, rx: Reactions, b: Base, w: Key)
    requires Tidy(h, lib) && Wraps(h, lib, b, w)
    ensures var h' := After(h, lib, steps, rx);
            var ws := h.relays[b].wrappers[w];
            Wraps(h', lib, b, w) &&
            h'.relays[b].wrappers[w] == WrapperState(ws.listener, Accumulated(b.kind.conversion, ws.listener, ws.accum, Invocations(h, lib, w, steps, rx)))
    decreases |steps|
  {
    var ws := h.relays[b].wrappers[w];
    var c := b.kind.conversion;
    if steps == [] {
      assert Invocations(h, lib, w, steps, rx) == [];
    } else {
      var init := steps[..|steps| - 1];
      var st := steps[|steps| - 1];
      var hi := After(h, lib, init, rx);
      var d := Stepped(hi, lib, st, rx);
      var ps := Invocations(h, lib, w, init, rx);
      AfterAccumulates(h, lib, init, rx, b, w);
      AfterTidy(h, lib, init, rx);
      DispatchedCharges(hi, st.signal, if st.signal in hi.sets then hi.sets[st.signal] else [], lib, st.payload, st.catchers, rx, b, w);
      StreamSnoc(c, ws.listener, ws.accum, ps, st.payload);
      assert After(h, lib, steps, rx) == d.hub;
      if w in d.run.invoked {
        assert Invocations(h, lib, w, steps, rx) == ps + [st.payload];
      } else {
        assert Invocations(h, lib, w, steps, rx) == ps;
      }
    }
  }

  /**
   * The next call of a relay wrapper, after any sequence of dispatches,
   * produces the next piece of its `Stream` over the payloads it has been
   * called with, with once-listeners replaced by their once-wrappers.
   */
  lemma NextCallDelivers(h: Hub, lib: Table, steps: seq<Step>, rx: Reactions, b: Base, w: Key, p: Payload)
    requires Tidy(h, lib) && Wraps(h, lib, b, w)
    ensures var ws := h.relays[b].wrappers[w];
            var ps := Invocations(h, lib, w, steps, rx);
            var before := Stream(b.kind.conversion, ws.listener, ws.accum, ps);
            var after := Stream(b.kind.conversion, ws.listener, ws.accum, ps + [p]);
            |before| <= |after| &&
            Perform(After(h, lib, steps, rx), lib, w, p).effects == Retarget(after[|before|..], OnceOf(lib, b))
  {
    var ws := h.relays[b].wrappers[w];
    var ps := Invocations(h, lib, w, steps, rx);
    AfterAccumulates(h, lib, steps, rx, b, w);
    StreamSnoc(b.kind.conversion, ws.listener, ws.accum, ps, p);
    var before := Stream(b.kind.conversion, ws.listener, ws.accum, ps);
    var after := Stream(b.kind.conversion, ws.listener, ws.accum, ps + [p]);
    assert after[|before|..] == Convert(b.kind.conversion, ws.listener, Accumulated(b.kind.conversion, ws.listener, ws.accum, ps), p).effects;
  }

  /**
   * A reduce wrapper's next call hands its listener the fold of the step
   * over every payload it has been called with, this one included.
   */
  lemma ReduceCallDelivers(h: Hub, lib: Table, steps: seq<Step>, rx: Reactions, b: Base, w: Key, p: Payload)
    requires Tidy(h, lib) && Wraps(h, lib, b, w) && b.kind.conversion.Reduce?
    ensures var ws := h.relays[b].wrappers[w];
            var ps := Invocations(h, lib, w, steps, rx) + [p];
            Perform(After(h, lib, steps, rx), lib, w, p).effects ==
              Retarget([Delivered(ws.listener, Fold(b.kind.conversion.step, ws.accum, ps))], OnceOf(lib, b))
  {
    var ws := h.relays[b].wrappers[w];
    var c := b.kind.conversion;
    var ps := Invocations(h, lib, w, steps, rx);
    AfterAccumulates(h, lib, steps, rx, b, w);
    StreamSnoc(c, ws.listener, ws.accum, ps, p);
    ReduceAccumulated(c.step, c.seed, ws.listener, ws.accum, ps + [p]);
  }

  // ---------------------------------------------------------------------
  // Caches and promises.

  /** Relay `b` records into cache `c`. */
  predicate Feeds(b: Base, c: Caches.ArrayCache) {
    b.kind.Relay? && b.kind.replay.Some? && b.kind.replay.value.cache == c
  }

  /** `r` is the one recorder of cache `c` in the table. */
  predicate SoleRecorder(lib: Table, r: Key, c: Caches.ArrayCache) {
    r in lib && lib[r].Recorder? && Feeds(lib[r].base, c) &&
    forall x :: x in lib && lib[x].Recorder? && Feeds(lib[x].base, c) ==> x == r
  }

  /** A call leaves cache `c` alone, unless it is the call of `c`'s recorder, which records the payload. */
  lemma PerformRecords(h: Hub, lib: Table, k: Key, p: Payload, r: Key, c: Caches.ArrayCache)
    requires c in h.caches && SoleRecorder(lib, r, c)
    ensures var h' := Perform(h, lib, k, p).hub;
            c in h'.caches && h'.caches[c] == if k == r then Caches.Record(c.policy, h.caches[c], p) else h.caches[c]
  {
    if k in lib && lib[k].Forward? {
      var b := lib[k].base;
      if b.kind.Relay? && b in h.relays && k in h.relays[b].wrappers {
        assert Charged(h, b, k, p).caches == h.caches;
      }
    }
  }

  /** During one dispatch, cache `c` records the payload once if its recorder was invoked, and is untouched otherwise. */
  lemma {:induction false} DispatchedRecords(h: Hub, s: ListenerSet, ls: seq<Key>, lib: Table, p: Payload, cs: seq<Key>, rx: Reactions,
                                             r: Key, c: Caches.ArrayCache)
    requires c in h.caches && SoleRecorder(lib, r, c) && NoDup(ls)
    ensures var d := Dispatched(h, s, ls, lib, p, cs, rx);
            c in d.hub.caches &&
            d.hub.caches[c] == if r in d.run.invoked then Caches.Record(c.policy, h.caches[c], p) else h.caches[c]
    decreases |ls|
  {
    if ls != [] {
      var init := ls[..|ls| - 1];
      var k := ls[|ls| - 1];
      var prev := Dispatched(h, s, init, lib, p, cs, rx);
      DispatchedRecords(h, s, init, lib, p, cs, rx, r, c);
      DispatchedInvoked(h, s, init, lib, p, cs, rx);
      if !(prev.run.escaped.Some? || !Live(prev.hub, s, k)) {
        PerformRecords(prev.hub, lib, k, p, r, c);
        assert k !in init;
      }
    }
  }

  /**
   * With no catcher that throws, a cache whose recorder listens to `s`
   * records every dispatch of `s`.
   */
  lemma CacheKeepsUp(h: Hub, s: ListenerSet, lib: Table, p: Payload, cs: seq<Key>, rx: Reactions, r: Key, c: Caches.ArrayCache)
    requires Tidy(h, lib) && c in h.caches && SoleRecorder(lib, r, c) && Live(h, s, r)
    requires forall c', f :: c' in cs ==> !rx.catcherThrows(c', f)
    ensures var d := Dispatched(h, s, h.sets[s], lib, p, cs, rx);
            c in d.hub.caches && d.hub.caches[c] == Caches.Record(c.policy, h.caches[c], p)
  {
    var ls := h.sets[s];
    var i :| 0 <= i < |ls| && ls[i] == r;
    DispatchedReaches(h, s, ls, lib, p, cs, rx);
    DispatchedRecords(h, s, ls, lib, p, cs, rx, r, c);
  }

  /**
   * `promisify(s, s)`: both settlers sit in `s`, the resolving one first.
   * A dispatch runs it, which takes both out of `s`, so the rejecting one is
   * skipped and the promise resolves with the payload.
   */
  lemma PromisifyOneSignal(h: Hub, pr: Promisified, p: Payload, cs: seq<Key>, rx: Reactions)
    requires pr.rejectSignal == Some(pr.resolveSignal) && pr.completeResolution != pr.completeRejection
    requires pr.resolveSignal in h.sets && h.sets[pr.resolveSignal] == [pr.completeResolution, pr.completeRejection]
    requires pr.promise in h.promises && h.promises[pr.promise] == Pending
    ensures var lib := map[pr.completeResolution := Settle(pr, true), pr.completeRejection := Settle(pr, false)];
            var d := Dispatched(h, pr.resolveSignal, h.sets[pr.resolveSignal], lib, p, cs, rx);
            d.run == Run([], None, [pr.completeResolution]) &&
            pr.resolveSignal in d.hub.sets && d.hub.sets[pr.resolveSignal] == [] &&
            pr.promise in d.hub.promises && d.hub.promises[pr.promise] == Resolved(p)
  {
    var lib := map[pr.completeResolution := Settle(pr, true), pr.completeRejection := Settle(pr, false)];
    var s := pr.resolveSignal;
    var ls := h.sets[s];
    assert ls[..1] == [pr.completeResolution] && ls[..1][..0] == [] && ls[..|ls| - 1] == ls[..1];
    var start := Progress(h, Run([], None, []));
    var d1 := Dispatched(h, s, ls[..1], lib, p, cs, rx);
    assert Dispatched(h, s, [], lib, p, cs, rx) == start;
    assert d1 == Next(start, s, pr.completeResolution, lib, p, cs, rx);
    var h1 := Settled(h, pr, true, p);
    assert Perform(h, lib, pr.completeResolution, p) == Outcome(h1, []);
    assert pr.Closures(s) == {pr.completeResolution, pr.completeRejection};
    assert DeleteAll(ls, pr.Closures(s)) == [];
    assert h1.sets[s] == [];
    assert d1 == Progress(h1, Run([], None, [pr.completeResolution]));
    assert !Live(h1, s, pr.completeRejection);
  }

  /**
   * `s.filter(keep)` with one once-listener `l`: set `s` holds the
   * filter's wrapper `w` for the once-wrapper `o` of `l`. A payload the
   * filter rejects calls nobody and changes nothing.
   */
  lemma FilterRejects(h: Hub, s: ListenerSet, b: Base, keep: Payload -> bool, w: Key, o: Key, l: Key,
                      p: Payload, cs: seq<Key>, rx: Reactions)
    requires b.kind == Relay(Conversion.Filter(keep), None) && b.sources == [s] && w != o
    requires s in h.sets && h.sets[s] == [w]
    requires b in h.relays && h.relays[b].listenerMap == map[o := w] && w in h.relays[b].wrappers &&
             h.relays[b].wrappers[w].listener == o
    requires !keep(p)
    ensures var d := Dispatched(h, s, [w], map[w := Forward(b), o := Once(b, l)], p, cs, rx);
            d.run == Run([], None, [w]) && d.hub == h
  {
    assert [w][..0] == [];
    var rs := h.relays[b];
    assert rs.wrappers[w := rs.wrappers[w]] == rs.wrappers;
    assert h.relays[b := rs] == h.relays;
  }

  /**
   * The same, for a payload the filter keeps: `l` is called, and the
   * once-wrapper removes itself, which takes `w` out of `s`.
   */
  lemma FilterAccepts(h: Hub, s: ListenerSet, b: Base, keep: Payload -> bool, w: Key, o: Key, l: Key,
                      p: Payload, cs: seq<Key>, rx: Reactions)
    requires b.kind == Relay(Conversion.Filter(keep), None) && b.sources == [s] && w != o
    requires s in h.sets && h.sets[s] == [w]
    requires b in h.relays && h.relays[b].listenerMap == map[o := w] && w in h.relays[b].wrappers &&
             h.relays[b].wrappers[w].listener == o
    requires keep(p) && !rx.throws(l, p)
    ensures var d := Dispatched(h, s, [w], map[w := Forward(b), o := Once(b, l)], p, cs, rx);
            d.run == Run([Called(l, p)], None, [w]) &&
            s in d.hub.sets && d.hub.sets[s] == [] && b in d.hub.relays && d.hub.relays[b].listenerMap == map[]
  {
    var lib := map[w := Forward(b), o := Once(b, l)];
    assert [w][..0] == [];
    assert OnceOf(lib, b) == map[o := l];
    var rs := h.relays[b];
    assert Installed(b.kind, BaseState(rs.listenerMap, rs.wrappers, []), {o}) == {w};
    assert Retarget([Delivered(o, p)], map[o := l]) == [Delivered(l, p)];
    assert [Delivered(l, p)][..0] == [];
    assert Visit([Delivered(l, p)], cs, rx) == Turn([Called(l, p)], false, None);
    assert Perform(h, lib, w, p).effects == [Delivered(l, p)];
  }

  class Signal {
    /** `_listeners` and `_catchers`. */
    const own: ListenerSet
    /** The inherited ExtendedSignal, whose base is `own`. */
    const ext: ExtendedSignal
    var instanceDefault: InstanceDefault

    ghost predicate Valid()
      reads this, own, ext, ext.base, ext.base.Upstream(), ext.tagMap
    {
      own.Valid() && ext.Valid() && ext.base.kind.Own? && ext.base.sources == [own]
    }

    constructor ()
      ensures Valid() && fresh(own) && fresh(ext) && fresh(ext.base)
      ensures own.listeners == [] && own.catchers == [] && instanceDefault == ForwardToStatic && ext.once == map[]
    {
      var sets := new ListenerSet();
      var b := new Base(Own, [sets]);
      own := sets;
      ext := new ExtendedSignal(b);
      instanceDefault := ForwardToStatic;
    }

    /** The instance `setDefaultListener`: the last write wins, and the static default no longer applies. */
    method SetDefaultListener(l: Key)
      modifies this
      ensures instanceDefault == Custom(l)
    {
      instanceDefault := Custom(l);
    }

    /**
     * `dispatch(p)`. An empty set calls only the default. Otherwise every
     * listener is invoked in insertion order, unless it has left the set
     * before its turn; the library's own closures among them update the
     * signals, relays, caches and promises they belong to. A client
     * listener that throws has its error passed to every catcher, and the
     * next listener still runs, unless a catcher throws, which ends the
     * dispatch.
     */
    method Dispatch(p: Payload, statics: StaticDefault, lib: Table, ghost dom: Domain, ghost h: Hub, rx: Reactions)
      returns (run: Run)
      requires Valid() && Wired(dom, lib) && Agrees(dom, h) && own in dom.sets && ext.base in dom.bases
      requires forall o :: o in ext.once ==> o in lib && lib[o] == Once(ext.base, ext.once[o])
      modifies dom.sets, dom.bases, dom.caches, dom.promises
      ensures Valid() && Wired(dom, lib)
      ensures forall s :: s in dom.sets ==> s.catchers == old(s.catchers)
      ensures Agrees(dom, Dispatched(h, own, old(own.listeners), lib, p, old(own.catchers), rx).hub)
      ensures run == if old(own.listeners) == [] then DefaultRun(instanceDefault, statics.listener, p, rx)
                     else Dispatched(h, own, old(own.listeners), lib, p, old(own.catchers), rx).run
    {
      if own.listeners == [] {
        var d := EffectiveDefault(instanceDefault, statics.listener);
        run := Run([DefaultCalled(d, p)], if d.Some? && rx.throws(d.value, p) then d else None, []);
        return;
      }
      run := DispatchLoop(own, own.listeners, own.catchers, p, lib, rx, dom, h);
      BaseValid(dom, lib, ext.base);
    }
  }

  /**
   * The loop of `dispatch` over set `s`, whose entries were `ls` when it
   * began, with catchers `cs`.
   */
  method DispatchLoop(s: ListenerSet, ls: seq<Key>, cs: seq<Key>, p: Payload, lib: Table, rx: Reactions,
                      ghost dom: Domain, ghost h: Hub) returns (run: Run)
    requires Wired(dom, lib) && Agrees(dom, h) && s in dom.sets
    modifies dom.sets, dom.bases, dom.caches, dom.promises
    ensures Wired(dom, lib) && Agrees(dom, Dispatched(h, s, ls, lib, p, cs, rx).hub)
    ensures forall s :: s in dom.sets ==> s.catchers == old(s.catchers)
    ensures run == Dispatched(h, s, ls, lib, p, cs, rx).run
  {
    run := Run([], None, []);
    ghost var cur := h;
    var i := 0;
    while i < |ls| && run.escaped.None?
      invariant 0 <= i <= |ls|
      invariant Wired(dom, lib) && Agrees(dom, cur)
      invariant forall s :: s in dom.sets ==> s.catchers == old(s.catchers)
      invariant Dispatched(h, s, ls[..i], lib, p, cs, rx) == Progress(cur, run)
      decreases |ls| - i
    {
      assert ls[..i + 1][..i] == ls[..i];
      run, cur := TakeTurn(s, ls[i], p, lib, cs, rx, dom, cur, run);
      i := i + 1;
    }
    if run.escaped.Some? {
      DispatchedStops(h, s, ls, i, lib, p, cs, rx);
    } else {
      assert ls[..i] == ls;
    }
  }

  /** One turn of the dispatch loop over set `s`: entry `k` is invoked if it is still there. */
  method TakeTurn(s: ListenerSet, k: Key, p: Payload, lib: Table, cs: seq<Key>, rx: Reactions,
                  ghost dom: Domain, ghost h: Hub, run: Run) returns (run': Run, ghost h': Hub)
    requires Wired(dom, lib) && Agrees(dom, h) && s in dom.sets && run.escaped.None?
    modifies dom.sets, dom.bases, dom.caches, dom.promises
    ensures Wired(dom, lib) && Agrees(dom, h')
    ensures forall s :: s in dom.sets ==> s.catchers == old(s.catchers)
    ensures Progress(h', run') == Next(Progress(h, run), s, k, lib, p, cs, rx)
  {
    run', h' := run, h;
    if k in s.listeners {
      var effects := Invoke(k, p, lib, dom, h);
      h' := Perform(h, lib, k, p).hub;
      var t := VisitEach(effects, cs, rx);
      run' := Run(run.events + t.events, t.escaped, run.invoked + [k]);
    }
  }

  /** The effects of one invoked key carried out, as `Visit` says. */
  method VisitEach(effects: seq<Effect>, cs: seq<Key>, rx: Reactions) returns (t: Turn)
    ensures t == Visit(effects, cs, rx)
  {
    t := Turn([], false, None);
    var j := 0;
    while j < |effects| && !t.threw
      invariant 0 <= j <= |effects|
      invariant t == Visit(effects[..j], cs, rx)
      decreases |effects| - j
    {
      assert effects[..j + 1][..j] == effects[..j];
      match effects[j] {
        case Peeked(q) =>
          t := Turn(t.events + [Peekaboo(q)], false, None);
        case Delivered(l, q) =>
          if rx.throws(l, q) {
            var c := CatchEach(cs, Fault(l, q), rx);
            t := Turn(t.events + [Called(l, q)] + c.events, true, c.escaped);
          } else {
            t := Turn(t.events + [Called(l, q)], false, None);
          }
      }
      j := j + 1;
    }
    if t.threw {
      VisitStops(effects, j, cs, rx);
    } else {
      assert effects[..j] == effects;
    }
  }

  /** The nested loop of `dispatch`: every catcher, in order, receives the error `f`. */
  method CatchEach(cs: seq<Key>, f: Fault, rx: Reactions) returns (r: Handling)
    ensures r == CatchAll(cs, f, rx)
  {
    r := Handling([], None);
    var j := 0;
    while j < |cs| && r.escaped.None?
      invariant 0 <= j <= |cs|
      invariant r == CatchAll(cs[..j], f, rx)
      decreases |cs| - j
    {
      assert cs[..j + 1][..j] == cs[..j];
      var c := cs[j];
      r := Handling(r.events + [Caught(c, f)], if rx.catcherThrows(c, f) then Some(c) else None);
      j := j + 1;
    }
    if r.escaped.Some? {
      CatchAllStops(cs, j, f, rx);
    } else {
      assert cs[..j] == cs;
    }
  }

  /** `s.filter(keep)` on a new signal `s`: both sets are empty. */
  method NewFiltered(keep: Payload -> bool) returns (s: Signal, d: ExtendedSignal)
    ensures fresh(s.own) && fresh(d) && fresh(d.base) && fresh(d.tagMap)
    ensures s.ext != d && s.ext.base != d.base && s.ext.tagMap != d.tagMap
    ensures s.Valid() && s.ext.once == map[] && s.own.listeners == [] && d.Valid()
    ensures d.base.kind == Relay(Conversion.Filter(keep), None) && d.base.sources == [s.own] && d.base.listenerMap == map[]
    ensures d.once == map[] && d.tagMap.Model() == TagMapping.Empty
  {
    s := new Signal();
    d := s.ext.Filter(keep);
  }

  /**
   * `s.filter(keep).addOnce(l)` on a new signal `s`: `s` holds the filter's
   * wrapper `Made(1)`, which calls the once-wrapper `Made(0)` of `l`.
   */
  method FilteredOnceSetup(keep: Payload -> bool, l: Key) returns (s: Signal, d: ExtendedSignal)
    ensures s.Valid() && s.ext.once == map[]
    ensures s.own.listeners == [Made(1)]
    ensures d.base.kind == Relay(Conversion.Filter(keep), None) && d.base.sources == [s.own]
    ensures d.base.listenerMap == map[Made(0) := Made(1)] && Made(1) in d.base.wrappers &&
            d.base.wrappers[Made(1)].listener == Made(0)
  {
    s, d := NewFiltered(keep);
    var ids := new IdSource();
    ghost var st := d.base.State();
    AttachedToEmpty(d.base.kind, st, Made(0), Made(1));
    var _ := d.AddOnce(l, [], ids);
    assert d.base.State().upstream[0] == s.own.listeners;
  }

  /** A relay's first listener `o`, whose wrapper is `w`, on a relay over one empty set. */
  lemma AttachedToEmpty(kind: BaseKind, st: BaseState, o: Key, w: Key)
    requires kind.Relay? && st.upstream == [[]] && st.listenerMap == map[]
    ensures var a := Attached(kind, st, o, w);
            a.upstream == [[w]] && a.listenerMap == map[o := w] && w in a.wrappers && a.wrappers[w].listener == o
  {
    assert Insert([], w) == [w];
  }

  /** The table and domain of that setup are wired. */
  lemma FilteredOnceWired(s: Signal, b: Base, keep: Payload -> bool, l: Key, dom: Domain, lib: Table)
    requires s.Valid() && b.kind == Relay(Conversion.Filter(keep), None) && b.sources == [s.own]
    requires dom == Domain({s.own}, {s.ext.base, b}, {}, {})
    requires lib == map[Made(1) := Forward(b), Made(0) := Once(b, l)]
    ensures Wired(dom, lib)
  {
  }

  /**
   * A once-listener on a filtered signal is called once, however many
   * payloads the filter keeps: on the signals `FilteredOnceSetup` makes,
   * the first dispatch of a kept payload calls `l` and leaves `s` empty,
   * so every later dispatch calls only the default listener.
   */
  method FilteredOnce(s: Signal, d: ExtendedSignal, statics: StaticDefault, keep: Payload -> bool, l: Key,
                      p: Payload, rx: Reactions) returns (run: Run)
    requires s.Valid() && s.ext.once == map[]
    requires s.own.listeners == [Made(1)]
    requires d.base.kind == Relay(Conversion.Filter(keep), None) && d.base.sources == [s.own]
    requires d.base.listenerMap == map[Made(0) := Made(1)] && Made(1) in d.base.wrappers &&
             d.base.wrappers[Made(1)].listener == Made(0)
    requires keep(p) && !rx.throws(l, p)
    modifies s.own, s.ext.base, d.base
    ensures run == Run([Called(l, p)], None, [Made(1)])
    ensures s.Valid() && s.own.listeners == [] && d.base.listenerMap == map[]
  {
    var w, o := Made(1), Made(0);
    var lib := map[w := Forward(d.base), o := Once(d.base, l)];
    ghost var dom := Domain({s.own}, {s.ext.base, d.base}, {}, {});
    FilteredOnceWired(s, d.base, keep, l, dom, lib);
    ghost var h := Hub(map[s.own := [w]],
                       map[s.ext.base := RelayState(map[], map[]), d.base := RelayState(map[o := w], d.base.wrappers)],
                       map[], map[]);
    FilterAccepts(h, s.own, d.base, keep, w, o, l, p, s.own.catchers, rx);
    run := s.Dispatch(p, statics, lib, dom, h, rx);
  }
}

=== FILE: tag_map.dfy ===
/**
 * The tag registry of src/tag-map.ts: a many-to-many association between tags
 * and the things (listeners) registered under them, kept in two maps that
 * mirror each other. The extended signal calls the three operations
 * setListeners/getListeners/clearListener; the class names them
 * setHandlers/getThings/clearThing. They are the same operations.
 *
 * The source keys both maps by object identity in WeakMaps; here they are
 * ordinary finite maps over `Key`.
 */
module TagMapping {
  import opened Common

  /** The contents of the two maps. */
  datatype Registry = Registry(tagToThings: map<Key, set<Key>>, thingToTags: map<Key, set<Key>>)

  const Empty := Registry(map[], map[])

  /** `getThings`: an unknown tag has no things. */
  function ThingsOf(r: Registry, tag: Key): set<Key> {
    if tag in r.tagToThings then r.tagToThings[tag] else {}
  }

  /** `getTags`: an unknown thing has no tags. */
  function TagsOf(r: Registry, thing: Key): set<Key> {
    if thing in r.thingToTags then r.thingToTags[thing] else {}
  }

  /** The two maps describe the same relation. */
  ghost predicate Consistent(r: Registry) {
    forall t, x :: x in ThingsOf(r, t) <==> t in TagsOf(r, x)
  }

  /** No tag is kept with an empty set of things. */
  ghost predicate NoEmptyTag(r: Registry) {
    forall t :: t in r.tagToThings ==> r.tagToThings[t] != {}
  }

  ghost predicate Valid(r: Registry) {
    Consistent(r) && NoEmptyTag(r)
  }

  /** One turn of the loop in setHandlers: `thingSet.add(thing)`, `tagSet.add(tag)`. */
  function Link(r: Registry, thing: Key, tag: Key): Registry {
    Registry(r.tagToThings[tag := ThingsOf(r, tag) + {thing}],
             r.thingToTags[thing := TagsOf(r, thing) + {tag}])
  }

  /** The loop of setHandlers over `tags`, in order. */
  function LinkAll(r: Registry, thing: Key, tags: seq<Key>): Registry
    decreases |tags|
  {
    if tags == [] then r
    else Link(LinkAll(r, thing, tags[..|tags| - 1]), thing, tags[|tags| - 1])
  }

  /** `setHandlers(thing, ...tags)`: the thing's tag set is stored even when `tags` is empty. */
  function Associate(r: Registry, thing: Key, tags: seq<Key>): Registry {
    LinkAll(Registry(r.tagToThings, r.thingToTags[thing := TagsOf(r, thing)]), thing, tags)
  }

  /**
   * `clearThing(h)`: drop h's own entry, then take h out of the set of each
   * of its tags, deleting a tag whose set becomes empty.
   */
  function Forget(r: Registry, h: Key): Registry {
    var tags := TagsOf(r, h);
    Registry(
      map t | t in r.tagToThings && (t !in tags || r.tagToThings[t] - {h} != {})
            :: if t in tags then r.tagToThings[t] - {h} else r.tagToThings[t],
      r.thingToTags - {h})
  }

  /** The tags of `tags`, as a set. */
  function TagSet(tags: seq<Key>): set<Key> {
    set t | t in tags
  }

  lemma TagSetSnoc(tags: seq<Key>)
    requires tags != []
    ensures TagSet(tags) == TagSet(tags[..|tags| - 1]) + {tags[|tags| - 1]}
  {
    assert tags == tags[..|tags| - 1] + [tags[|tags| - 1]];
  }

  lemma {:induction false} LinkAllKeys(r: Registry, thing: Key, tags: seq<Key>)
    ensures LinkAll(r, thing, tags).tagToThings.Keys == r.tagToThings.Keys + TagSet(tags)
    decreases |tags|
  {
    if tags != [] {
      LinkAllKeys(r, thing, tags[..|tags| - 1]);
      TagSetSnoc(tags);
    }
  }

  lemma {:induction false} LinkAllThings(r: Registry, thing: Key, tags: seq<Key>, t: Key)
    ensures ThingsOf(LinkAll(r, thing, tags), t) == ThingsOf(r, t) + (if t in TagSet(tags) then {thing} else {})
    decreases |tags|
  {
    if tags != [] {
      LinkAllThings(r, thing, tags[..|tags| - 1], t);
      TagSetSnoc(tags);
    }
  }

  lemma {:induction false} LinkAllTags(r: Registry, thing: Key, tags: seq<Key>)
    requires thing in r.thingToTags
    ensures thing in LinkAll(r, thing, tags).thingToTags
    ensures TagsOf(LinkAll(r, thing, tags), thing) == TagsOf(r, thing) + TagSet(tags)
    decreases |tags|
  {
    if tags != [] {
      LinkAllTags(r, thing, tags[..|tags| - 1]);
      TagSetSnoc(tags);
    }
  }

  lemma {:induction false} LinkAllOthers(r: Registry, thing: Key, tags: seq<Key>, y: Key)
    requires y != thing
    ensures TagsOf(LinkAll(r, thing, tags), y) == TagsOf(r, y)
    decreases |tags|
  {
    if tags != [] {
      LinkAllOthers(r, thing, tags[..|tags| - 1], y);
    }
  }

  /** setHandlers adds to the thing's tags; it never takes a tag away. */
  lemma AssociateMerges(r: Registry, thing: Key, tags: seq<Key>)
    ensures TagsOf(Associate(r, thing, tags), thing) == TagsOf(r, thing) + TagSet(tags)
    ensures thing in Associate(r, thing, tags).thingToTags
  {
    LinkAllTags(Registry(r.tagToThings, r.thingToTags[thing := TagsOf(r, thing)]), thing, tags);
  }

  /** After setHandlers every given tag lists the thing, and no other tag changes. */
  lemma AssociateLinks(r: Registry, thing: Key, tags: seq<Key>)
    ensures forall t :: ThingsOf(Associate(r, thing, tags), t)
                        == ThingsOf(r, t) + (if t in tags then {thing} else {})
    ensures forall y :: y != thing ==> TagsOf(Associate(r, thing, tags), y) == TagsOf(r, y)
  {
    var start := Registry(r.tagToThings, r.thingToTags[thing := TagsOf(r, thing)]);
    forall t ensures ThingsOf(Associate(r, thing, tags), t)
                     == ThingsOf(r, t) + (if t in tags then {thing} else {}) {
      LinkAllThings(start, thing, tags, t);
    }
    forall y | y != thing ensures TagsOf(Associate(r, thing, tags), y) == TagsOf(r, y) {
      LinkAllOthers(start, thing, tags, y);
    }
  }

  /** setHandlers keeps the two maps mirrored and leaves no empty tag. */
  lemma AssociateValid(r: Registry, thing: Key, tags: seq<Key>)
    requires Valid(r)
    ensures Valid(Associate(r, thing, tags))
  {
    var start := Registry(r.tagToThings, r.thingToTags[thing := TagsOf(r, thing)]);
    var r' := Associate(r, thing, tags);
    LinkAllKeys(start, thing, tags);
    AssociateMerges(r, thing, tags);
    AssociateLinks(r, thing, tags);
    forall t, x ensures x in ThingsOf(r', t) <==> t in TagsOf(r', x) {
      assert x in ThingsOf(r, t) <==> t in TagsOf(r, x);
    }
    forall t | t in r'.tagToThings ensures r'.tagToThings[t] != {} {
      assert ThingsOf(r', t) == r'.tagToThings[t];
      if t in tags {
        assert thing in ThingsOf(r', t);
      } else {
        assert t in r.tagToThings && ThingsOf(r, t) != {};
      }
    }
  }

  /** clearThing removes the thing from every tag and forgets its own tags. */
  lemma ForgetClears(r: Registry, h: Key)
    requires Valid(r)
    ensures TagsOf(Forget(r, h), h) == {}
    ensures forall t :: ThingsOf(Forget(r, h), t) == ThingsOf(r, t) - {h}
  {
    var r' := Forget(r, h);
    forall t ensures ThingsOf(r', t) == ThingsOf(r, t) - {h} {
      if h in ThingsOf(r, t) {
        assert t in TagsOf(r, h);
      } else if t in r.tagToThings {
        assert r.tagToThings[t] - {h} == r.tagToThings[t];
      }
    }
  }

  /** clearThing(h) leaves the tag set of every other thing as it was. */
  lemma ForgetKeepsOthers(r: Registry, h: Key, y: Key)
    requires y != h
    ensures TagsOf(Forget(r, h), y) == TagsOf(r, y)
  {
  }

  /** clearThing keeps the maps mirrored and deletes a tag whose set becomes empty. */
  lemma ForgetValid(r: Registry, h: Key)
    requires Valid(r)
    ensures Valid(Forget(r, h))
  {
    var r' := Forget(r, h);
    ForgetClears(r, h);
    forall t, x ensures x in ThingsOf(r', t) <==> t in TagsOf(r', x) {
      if x != h {
        ForgetKeepsOthers(r, h, x);
        assert x in ThingsOf(r, t) <==> t in TagsOf(r, x);
      }
    }
  }

  lemma UpdateTwice(m: map<Key, set<Key>>, k: Key, a: set<Key>, b: set<Key>)
    ensures m[k := a][k := b] == m[k := b]
  {
  }

  /** The registry object: both maps are updated in place. */
  class TagMap {
    var tagToThings: map<Key, set<Key>>
    var thingToTags: map<Key, set<Key>>

    function Model(): Registry
      reads this
    {
      Registry(tagToThings, thingToTags)
    }

    constructor ()
      ensures Model() == Empty
    {
      tagToThings, thingToTags := map[], map[];
    }

    method SetHandlers(thing: Key, tags: seq<Key>)
      modifies this
      ensures Model() == Associate(old(Model()), thing, tags)
    {
      ghost var start := Registry(tagToThings, thingToTags[thing := TagsOf(Model(), thing)]);
      var tagSet := if thing in thingToTags then thingToTags[thing] else {};
      for i := 0 to |tags|
        invariant thingToTags == old(thingToTags)
        invariant Registry(tagToThings, start.thingToTags[thing := tagSet]) == LinkAll(start, thing, tags[..i])
      {
        var tag := tags[i];
        assert tags[..i + 1][..i] == tags[..i];
        ghost var before := LinkAll(start, thing, tags[..i]);
        assert LinkAll(start, thing, tags[..i + 1]) == Link(before, thing, tag);
        UpdateTwice(start.thingToTags, thing, tagSet, tagSet + {tag});
        var thingSet := if tag in tagToThings then tagToThings[tag] else {};
        thingSet := thingSet + {thing};
        tagSet := tagSet + {tag};
        tagToThings := tagToThings[tag := thingSet];
      }
      assert tags[..|tags|] == tags;
      UpdateTwice(thingToTags, thing, TagsOf(old(Model()), thing), tagSet);
      thingToTags := thingToTags[thing := tagSet];
    }

    method GetThings(tag: Key) returns (things: set<Key>)
      ensures things == ThingsOf(Model(), tag)
      ensures tag !in tagToThings ==> things == {}
    {
      things := if tag in tagToThings then tagToThings[tag] else {};
    }

    method GetTags(thing: Key) returns (tags: set<Key>)
      ensures tags == TagsOf(Model(), thing)
      ensures thing !in thingToTags ==> tags == {}
    {
      tags := if thing in thingToTags then thingToTags[thing] else {};
    }

    method ClearThing(h: Key)
      modifies this
      ensures Model() == Forget(old(Model()), h)
    {
      var tags := GetTags(h);
      thingToTags := thingToTags - {h};
      ghost var done: set<Key> := {};
      var todo := tags;
      while todo != {}
        invariant todo <= tags && done == tags - todo
        invariant thingToTags == old(thingToTags) - {h}
        invariant tagToThings == map t | t in old(tagToThings) && (t !in done || old(tagToThings)[t] - {h} != {})
                                   :: if t in done then old(tagToThings)[t] - {h} else old(tagToThings)[t]
        decreases todo
      {
        var tag :| tag in todo;
        var thingSet := if tag in tagToThings then tagToThings[tag] else {};
        thingSet := thingSet - {h};
        if thingSet == {} {
          tagToThings := tagToThings - {tag};
        } else {
          tagToThings := tagToThings[tag := thingSet];
        }
        todo := todo - {tag};
        done := done + {tag};
      }
    }
  }
}

=== FILE: wiring.dfy ===
/**
 * The closures that src/extended-signal.ts adds to listener sets on its own
 * behalf, and what calling one of them does:
 *   - `addOnce`'s one-time listener removes itself from its base, then calls
 *     the listener it stands for;
 *   - the converted listener of a relay (`convertedListenerSignal`, and the
 *     forwarder of `merge`) runs its conversion, which may call a one-time
 *     listener of the relay;
 *   - the closure `cache()` adds upstream records the payload;
 *   - `completeResolution` and `completeRejection` of `promisify` take both
 *     closures off their signals and settle the promise.
 * Everything such a call can change is gathered in one value, a `Hub`, so
 * that a whole dispatch can be specified as a function of it.
 */
module Wiring {
  import opened Common
  import opened OrderedSets
  import opened ListenerSets
  import Caches
  import opened ExtendedSignals

  /** What a key of a listener set is, when the library made it. A key the table does not hold is a client's listener. */
  datatype Closure =
    /** The one-time listener of an `addOnce` on the ExtendedSignal over `base`, standing for `listener`. */
    | Once(base: Base, listener: Key)
    /** The converted listener that the relay `base` installed upstream for one of its callers. */
    | Forward(base: Base)
    /** `payload => cache.add(payload)`, put upstream by `cache()`; `base` is the relay it returned. */
    | Recorder(base: Base)
    /** `completeResolution` (when `resolves`) or `completeRejection` of a promisify. */
    | Settle(promised: Promisified, resolves: bool)

  type Table = map<Key, Closure>

  /** A relay's `listenerMap` and the state of its wrappers. */
  datatype RelayState = RelayState(listenerMap: map<Key, Key>, wrappers: map<Key, WrapperState>)

  /** Everything a dispatch can change: listener sets, relays, caches and promises. */
  datatype Hub = Hub(sets: map<ListenerSet, seq<Key>>, relays: map<Base, RelayState>,
                     caches: map<Caches.ArrayCache, seq<Payload>>, promises: map<Promise, Settlement>)

  /** The objects a dispatch may reach. */
  datatype Domain = Domain(sets: set<ListenerSet>, bases: set<Base>, caches: set<Caches.ArrayCache>, promises: set<Promise>)

  function Snapshot(dom: Domain): Hub
    reads dom.sets, dom.bases, dom.caches, dom.promises
  {
    Hub(map s | s in dom.sets :: s.listeners,
        map b | b in dom.bases :: RelayState(b.listenerMap, b.wrappers),
        map c | c in dom.caches :: c.payloads,
        map q | q in dom.promises :: q.state)
  }

  /** The objects closure `c`, stored under key `k`, works on lie in `dom`. */
  predicate Within(dom: Domain, k: Key, c: Closure) {
    match c
    case Once(b, _) => b in dom.bases
    case Forward(b) => b in dom.bases && b.kind.Relay?
    case Recorder(b) => b in dom.bases && b.kind.Relay? && b.kind.replay.Some? && b.kind.replay.value.cache in dom.caches
    case Settle(pr, resolves) =>
      pr.Sets() <= dom.sets && pr.promise in dom.promises &&
      k == if resolves then pr.completeResolution else pr.completeRejection
  }

  /** The closures of `lib` reach only objects of `dom`, and so do the bases of `dom`. */
  predicate Closed(dom: Domain, lib: Table) {
    (forall b :: b in dom.bases ==> b.Upstream() <= dom.sets && (b.kind.Own? ==> |b.sources| == 1)) &&
    (forall k :: k in lib ==> Within(dom, k, lib[k]))
  }

  ghost predicate SetsValid(sets: set<ListenerSet>)
    reads sets
  {
    forall s :: s in sets ==> s.Valid()
  }

  /** A signal's own base keeps no relay state. */
  ghost predicate Shaped(bases: set<Base>)
    reads bases
  {
    forall b :: b in bases && b.kind.Own? ==> b.listenerMap == map[] && b.wrappers == map[]
  }

  /** Every object of `dom` is well formed and closed under what the closures of `lib` reach. */
  ghost predicate Wired(dom: Domain, lib: Table)
    reads dom.sets, dom.bases
  {
    Closed(dom, lib) && SetsValid(dom.sets) && Shaped(dom.bases)
  }

  lemma BaseValid(dom: Domain, lib: Table, b: Base)
    requires Wired(dom, lib) && b in dom.bases
    ensures b.Valid()
  {
  }

  /** The once-wrappers of the ExtendedSignal over `b`, each with the listener it stands for. */
  function OnceOf(lib: Table, b: Base): map<Key, Key> {
    map o | o in lib && lib[o].Once? && lib[o].base == b :: lib[o].listener
  }

  /** The hub after a closure ran, and the listener calls and peeks it made, in order. */
  datatype Outcome = Outcome(hub: Hub, effects: seq<Effect>)

  function RelayOf(h: Hub, b: Base): RelayState {
    if b in h.relays then h.relays[b] else RelayState(map[], map[])
  }

  /** `b.remove(l)`: the upstream sets lose what stands for `l` there, and a relay forgets `l`. */
  function Removed(h: Hub, b: Base, l: Key): Hub {
    var rs := RelayOf(h, b);
    var gone := Installed(b.kind, BaseState(rs.listenerMap, rs.wrappers, []), {l});
    h.(sets := map s | s in h.sets :: if s in b.sources then DeleteAll(h.sets[s], gone) else h.sets[s],
       relays := if b in h.relays then h.relays[b := rs.(listenerMap := rs.listenerMap - {l})] else h.relays)
  }

  /**
   * Wrapper `w` of relay `b` called with `p`: the conversion runs on the
   * wrapper's accumulator, and when it calls a once-wrapper, that one first
   * removes itself from `b`.
   */
  function Fired(h: Hub, lib: Table, b: Base, w: Key, p: Payload): Outcome {
    if b.kind.Relay? && b in h.relays && w in h.relays[b].wrappers then
      var ws := h.relays[b].wrappers[w];
      var f := Convert(b.kind.conversion, ws.listener, ws.accum, p);
      var once := OnceOf(lib, b);
      var h1 := Charged(h, b, w, p);
      Outcome(if ws.listener in once && Forwards(b.kind.conversion, p) then Removed(h1, b, ws.listener) else h1,
              Retarget(f.effects, once))
    else Outcome(h, [])
  }

  /** The hub once wrapper `w` of relay `b` has run its conversion on `p` and kept the new accumulator. */
  function Charged(h: Hub, b: Base, w: Key, p: Payload): Hub
    requires b.kind.Relay? && b in h.relays && w in h.relays[b].wrappers
  {
    var rs := h.relays[b];
    var ws := rs.wrappers[w];
    h.(relays := h.relays[b := rs.(wrappers := rs.wrappers[w := ws.(accum := Convert(b.kind.conversion, ws.listener, ws.accum, p).accum)])])
  }

  /** The recorder of cache relay `b` called with `p`. */
  function Recorded(h: Hub, b: Base, p: Payload): Hub {
    if b.kind.Relay? && b.kind.replay.Some? && b.kind.replay.value.cache in h.caches then
      var c := b.kind.replay.value.cache;
      h.(caches := h.caches[c := Caches.Record(c.policy, h.caches[c], p)])
    else h
  }

  /** A promise settles once; later settlements are ignored. */
  function SettledAs(st: Settlement, resolves: bool, p: Payload): Settlement {
    if st != Pending then st else if resolves then Resolved(p) else Rejected(p)
  }

  /** `completeResolution(p)` or `completeRejection(p)`: both closures leave their signals, then the promise settles. */
  function Settled(h: Hub, pr: Promisified, resolves: bool, p: Payload): Hub {
    h.(sets := map s | s in h.sets :: if s in pr.Sets() then DeleteAll(h.sets[s], pr.Closures(s)) else h.sets[s],
       promises := if pr.promise in h.promises then h.promises[pr.promise := SettledAs(h.promises[pr.promise], resolves, p)]
                   else h.promises)
  }

  /** Key `k` of a listener set called with `p`. */
  function Perform(h: Hub, lib: Table, k: Key, p: Payload): Outcome {
    if k !in lib then Outcome(h, [Delivered(k, p)])
    else match lib[k]
      case Once(b, l) => Outcome(Removed(h, b, k), [Delivered(l, p)])
      case Forward(b) => Fired(h, lib, b, k, p)
      case Recorder(b) => Outcome(Recorded(h, b, p), [])
      case Settle(pr, resolves) => Outcome(Settled(h, pr, resolves, p), [])
  }

  ghost predicate SetsAgree(sets: set<ListenerSet>, m: map<ListenerSet, seq<Key>>)
    reads sets
  {
    forall s :: s in sets ==> s in m && m[s] == s.listeners
  }

  ghost predicate RelaysAgree(bases: set<Base>, m: map<Base, RelayState>)
    reads bases
  {
    forall b :: b in bases ==> b in m && m[b] == RelayState(b.listenerMap, b.wrappers)
  }

  ghost predicate CachesAgree(caches: set<Caches.ArrayCache>, m: map<Caches.ArrayCache, seq<Payload>>)
    reads caches
  {
    forall c :: c in caches ==> c in m && m[c] == c.payloads
  }

  ghost predicate PromisesAgree(promises: set<Promise>, m: map<Promise, Settlement>)
    reads promises
  {
    forall q :: q in promises ==> q in m && m[q] == q.state
  }

  /** The objects of `dom` hold what `h` says they hold. */
  ghost predicate Agrees(dom: Domain, h: Hub)
    reads dom.sets, dom.bases, dom.caches, dom.promises
  {
    SetsAgree(dom.sets, h.sets) && RelaysAgree(dom.bases, h.relays) &&
    CachesAgree(dom.caches, h.caches) && PromisesAgree(dom.promises, h.promises)
  }

  /** A snapshot of the objects agrees with them. */
  lemma SnapshotAgrees(dom: Domain)
    ensures Agrees(dom, Snapshot(dom))
  {
  }

  // ---------------------------------------------------------------------
  // What a closure call keeps.

  /**
   * `h2` can follow `h1`: sets only lose members, relays only forget callers
   * and keep their wrappers, and a settled promise stays settled.
   */
  ghost predicate Follows(h1: Hub, h2: Hub) {
    h2.sets.Keys == h1.sets.Keys &&
    (forall s, e :: s in h1.sets && e in h2.sets[s] ==> e in h1.sets[s]) &&
    h2.relays.Keys == h1.relays.Keys &&
    (forall b :: b in h1.relays ==> RelayFollows(h1.relays[b], h2.relays[b])) &&
    h2.caches.Keys == h1.caches.Keys &&
    h2.promises.Keys == h1.promises.Keys &&
    (forall q :: q in h1.promises && h1.promises[q] != Pending ==> h2.promises[q] == h1.promises[q])
  }

  ghost predicate RelayFollows(r1: RelayState, r2: RelayState) {
    (forall l :: l in r2.listenerMap ==> l in r1.listenerMap && r2.listenerMap[l] == r1.listenerMap[l]) &&
    r2.wrappers.Keys == r1.wrappers.Keys &&
    (forall w :: w in r1.wrappers ==> r2.wrappers[w].listener == r1.wrappers[w].listener)
  }

  lemma FollowsTrans(h1: Hub, h2: Hub, h3: Hub)
    requires Follows(h1, h2) && Follows(h2, h3)
    ensures Follows(h1, h3)
  {
  }

  /** A library closure sits only in the sets it was added to. */
  predicate Home(c: Closure, k: Key, s: ListenerSet) {
    match c
    case Once(b, _) => s in b.sources
    case Forward(b) => s in b.sources
    case Recorder(_) => true
    case Settle(pr, _) => s in pr.Sets() && k in pr.Closures(s)
  }

  /** Settlers come in pairs, and wrappers belong to relays. */
  ghost predicate Paired(lib: Table) {
    forall k :: k in lib ==>
      match lib[k]
      case Settle(pr, _) =>
        pr.completeResolution in lib && lib[pr.completeResolution] == Settle(pr, true) &&
        (pr.rejectSignal.Some? ==> pr.completeRejection in lib && lib[pr.completeRejection] == Settle(pr, false))
      case Forward(b) => b.kind.Relay?
      case _ => true
  }

  /**
   * What the library's own operations keep true of a hub: sets without
   * duplicates; closures only where they were added; every wrapper a relay
   * maps to is one of its own; and a live wrapper that serves a once-wrapper
   * is still the one its relay maps that once-wrapper to.
   */
  ghost predicate Tidy(h: Hub, lib: Table) {
    Paired(lib) &&
    (forall s :: s in h.sets ==> NoDup(h.sets[s])) &&
    (forall k, s :: k in lib && s in h.sets && k in h.sets[s] ==> Home(lib[k], k, s)) &&
    (forall b, l :: b in h.relays && l in h.relays[b].listenerMap ==>
       h.relays[b].listenerMap[l] in lib && lib[h.relays[b].listenerMap[l]] == Forward(b)) &&
    (forall w, s :: w in lib && lib[w].Forward? && s in h.sets && w in h.sets[s] ==> Serving(h, lib, w))
  }

  ghost predicate Serving(h: Hub, lib: Table, w: Key)
    requires w in lib && lib[w].Forward?
  {
    var b := lib[w].base;
    b in h.relays && w in h.relays[b].wrappers &&
    var c := h.relays[b].wrappers[w].listener;
    (c in OnceOf(lib, b) ==> c in h.relays[b].listenerMap && h.relays[b].listenerMap[c] == w)
  }

  /** A key no closure ever deletes: a client's listener, or a cache recorder. */
  predicate Spared(lib: Table, k: Key) {
    k !in lib || lib[k].Recorder?
  }

  /** Calling `k` with `p` takes `k` out of every set. */
  ghost predicate Spends(h: Hub, lib: Table, k: Key, p: Payload) {
    k in lib &&
    match lib[k]
    case Once(b, _) => b.kind.Own?
    case Settle(_, _) => true
    case Recorder(_) => false
    case Forward(b) =>
      b.kind.Relay? && b in h.relays && k in h.relays[b].wrappers &&
      h.relays[b].wrappers[k].listener in OnceOf(lib, b) && Forwards(b.kind.conversion, p)
  }

  lemma RemovedFollows(h: Hub, b: Base, l: Key)
    ensures Follows(h, Removed(h, b, l))
  {
  }

  lemma SettledFollows(h: Hub, pr: Promisified, resolves: bool, p: Payload)
    ensures Follows(h, Settled(h, pr, resolves, p))
  {
  }

  lemma ChargedFollows(h: Hub, b: Base, w: Key, p: Payload)
    requires b.kind.Relay? && b in h.relays && w in h.relays[b].wrappers
    ensures Follows(h, Charged(h, b, w, p))
  {
  }

  lemma FiredFollows(h: Hub, lib: Table, b: Base, w: Key, p: Payload)
    ensures Follows(h, Fired(h, lib, b, w, p).hub)
  {
    if b.kind.Relay? && b in h.relays && w in h.relays[b].wrappers {
      var h1 := Charged(h, b, w, p);
      ChargedFollows(h, b, w, p);
      var c := h.relays[b].wrappers[w].listener;
      if c in OnceOf(lib, b) && Forwards(b.kind.conversion, p) {
        RemovedFollows(h1, b, c);
        FollowsTrans(h, h1, Removed(h1, b, c));
      }
    }
  }

  /** A call only shrinks sets and relays, and never unsettles a promise. */
  lemma PerformFollows(h: Hub, lib: Table, k: Key, p: Payload)
    ensures Follows(h, Perform(h, lib, k, p).hub)
  {
    if k in lib {
      match lib[k]
      case Once(b, _) => RemovedFollows(h, b, k);
      case Forward(b) => FiredFollows(h, lib, b, k, p);
      case Recorder(b) =>
      case Settle(pr, resolves) => SettledFollows(h, pr, resolves, p);
    }
  }

  /** What a removal deletes is the caller itself for an own base, or the caller's wrapper for a relay. */
  lemma RemovedDeletes(h: Hub, lib: Table, b: Base, l: Key, s: ListenerSet, e: Key)
    requires Tidy(h, lib) && s in h.sets && e in h.sets[s] && e !in Removed(h, b, l).sets[s]
    ensures b.kind.Own? ==> e == l
    ensures b.kind.Relay? ==> e in lib && lib[e] == Forward(b) && b in h.relays && l in h.relays[b].listenerMap &&
                              h.relays[b].listenerMap[l] == e
  {
  }

  /** A hub whose sets only shrank, with the same relays, is as tidy as before. */
  lemma {:induction false} ShrunkTidy(h: Hub, r: Hub, lib: Table)
    requires Tidy(h, lib) && Follows(h, r) && r.relays == h.relays
    requires forall s :: s in r.sets ==> NoDup(r.sets[s])
    ensures Tidy(r, lib)
  {
    forall w, s | w in lib && lib[w].Forward? && s in r.sets && w in r.sets[s] ensures Serving(r, lib, w) {
      assert Serving(h, lib, w);
    }
  }

  /** Removal from `b` keeps the hub tidy. */
  lemma {:induction false} RemovedTidy(h: Hub, lib: Table, b: Base, l: Key)
    requires Tidy(h, lib)
    ensures Tidy(Removed(h, b, l), lib)
  {
    var r := Removed(h, b, l);
    RemovedFollows(h, b, l);
    forall w, s | w in lib && lib[w].Forward? && s in r.sets && w in r.sets[s] ensures Serving(r, lib, w) {
      assert Serving(h, lib, w);
    }
  }

  /** Keeping a new accumulator keeps the hub tidy. */
  lemma {:induction false} ChargedTidy(h: Hub, lib: Table, b: Base, w: Key, p: Payload)
    requires Tidy(h, lib) && b.kind.Relay? && b in h.relays && w in h.relays[b].wrappers
    ensures Tidy(Charged(h, b, w, p), lib)
  {
    var r := Charged(h, b, w, p);
    forall w', s | w' in lib && lib[w'].Forward? && s in r.sets && w' in r.sets[s] ensures Serving(r, lib, w') {
      assert Serving(h, lib, w');
    }
  }

  lemma FiredTidy(h: Hub, lib: Table, b: Base, w: Key, p: Payload)
    requires Tidy(h, lib)
    ensures Tidy(Fired(h, lib, b, w, p).hub, lib)
  {
    if b.kind.Relay? && b in h.relays && w in h.relays[b].wrappers {
      ChargedTidy(h, lib, b, w, p);
      RemovedTidy(Charged(h, b, w, p), lib, b, h.relays[b].wrappers[w].listener);
    }
  }

  /** A call keeps the hub tidy. */
  lemma PerformTidy(h: Hub, lib: Table, k: Key, p: Payload)
    requires Tidy(h, lib)
    ensures Tidy(Perform(h, lib, k, p).hub, lib)
  {
    if k in lib {
      match lib[k]
      case Once(b, _) => RemovedTidy(h, lib, b, k);
      case Forward(b) => FiredTidy(h, lib, b, k, p);
      case Recorder(b) => RecordedTidy(h, lib, b, p);
      case Settle(pr, resolves) => SettledTidy(h, lib, pr, resolves, p);
    }
  }

  lemma RecordedTidy(h: Hub, lib: Table, b: Base, p: Payload)
    requires Tidy(h, lib)
    ensures Tidy(Recorded(h, b, p), lib)
  {
    var r := Recorded(h, b, p);
    forall w, s | w in lib && lib[w].Forward? && s in r.sets && w in r.sets[s] ensures Serving(r, lib, w) {
      assert Serving(h, lib, w);
    }
  }

  lemma SettledTidy(h: Hub, lib: Table, pr: Promisified, resolves: bool, p: Payload)
    requires Tidy(h, lib)
    ensures Tidy(Settled(h, pr, resolves, p), lib)
  {
    SettledFollows(h, pr, resolves, p);
    ShrunkTidy(h, Settled(h, pr, resolves, p), lib);
  }

  lemma FiredSpares(h: Hub, lib: Table, b: Base, w: Key, p: Payload, s: ListenerSet, e: Key)
    requires Tidy(h, lib) && s in h.sets && e in h.sets[s] && Spared(lib, e)
    ensures e in Fired(h, lib, b, w, p).hub.sets[s]
  {
    if b.kind.Relay? && b in h.relays && w in h.relays[b].wrappers {
      var h1 := Charged(h, b, w, p);
      ChargedTidy(h, lib, b, w, p);
      var c := h.relays[b].wrappers[w].listener;
      if e !in Removed(h1, b, c).sets[s] {
        RemovedDeletes(h1, lib, b, c, s, e);
      }
    }
  }

  /** No call deletes a client's listener or a recorder. */
  lemma PerformSpares(h: Hub, lib: Table, k: Key, p: Payload, s: ListenerSet, e: Key)
    requires Tidy(h, lib) && s in h.sets && e in h.sets[s] && Spared(lib, e)
    ensures e in Perform(h, lib, k, p).hub.sets[s]
  {
    if k in lib {
      match lib[k]
      case Once(b, _) =>
        if e !in Removed(h, b, k).sets[s] {
          RemovedDeletes(h, lib, b, k, s, e);
        }
      case Forward(b) => FiredSpares(h, lib, b, k, p, s, e);
      case Recorder(b) =>
      case Settle(pr, resolves) =>
    }
  }

  /** A call of a spending key takes it out of every set. */
  lemma PerformSpends(h: Hub, lib: Table, k: Key, p: Payload, s: ListenerSet)
    requires Tidy(h, lib) && Spends(h, lib, k, p) && s in h.sets
    ensures k !in Perform(h, lib, k, p).hub.sets[s]
  {
    PerformFollows(h, lib, k, p);
    if k in h.sets[s] {
      match lib[k]
      case Once(b, _) =>
      case Forward(b) =>
        assert Serving(h, lib, k);
      case Settle(pr, resolves) =>
    }
  }

  /** Key `k` of a listener set called with `p`: the library closures run on the objects themselves. */
  method Invoke(k: Key, p: Payload, lib: Table, ghost dom: Domain, ghost h: Hub) returns (effects: seq<Effect>)
    requires Wired(dom, lib) && Agrees(dom, h)
    modifies dom.sets, dom.bases, dom.caches, dom.promises
    ensures Wired(dom, lib) && Agrees(dom, Perform(h, lib, k, p).hub)
    ensures effects == Perform(h, lib, k, p).effects
    ensures forall s :: s in dom.sets ==> s.catchers == old(s.catchers)
  {
    if k !in lib {
      effects := [Delivered(k, p)];
      return;
    }
    match lib[k]
    case Once(b, l) =>
      RemoveVia(b, k, dom, lib, h);
      effects := [Delivered(l, p)];
    case Forward(b) =>
      effects := ForwardVia(b, k, p, lib, dom, h);
    case Recorder(b) =>
      RecordVia(b, p, dom, lib, h);
      effects := [];
    case Settle(pr, resolves) =>
      SettleVia(pr, resolves, p, dom, lib, h);
      effects := [];
  }

  /** `b.remove(l)` on the objects. */
  method RemoveVia(b: Base, l: Key, ghost dom: Domain, ghost lib: Table, ghost h: Hub)
    requires Wired(dom, lib) && Agrees(dom, h) && b in dom.bases
    modifies b, b.Upstream()
    ensures Wired(dom, lib) && Agrees(dom, Removed(h, b, l))
    ensures forall s :: s in dom.sets ==> s.catchers == old(s.catchers)
  {
    BaseValid(dom, lib, b);
    ghost var st := b.State();
    b.Remove(l);
    ghost var r := Removed(h, b, l);
    ghost var gone := Installed(b.kind, st, {l});
    assert gone == Installed(b.kind, BaseState(h.relays[b].listenerMap, h.relays[b].wrappers, []), {l});
    forall s | s in dom.sets ensures r.sets[s] == s.listeners {
      if s in b.sources {
        var i :| 0 <= i < |b.sources| && b.sources[i] == s;
        assert s.listeners == b.State().upstream[i];
      }
    }
  }

  /** Wrapper `w` of relay `b` called with `p`, on the objects. */
  method ForwardVia(b: Base, w: Key, p: Payload, lib: Table, ghost dom: Domain, ghost h: Hub) returns (effects: seq<Effect>)
    requires Wired(dom, lib) && Agrees(dom, h) && b in dom.bases && b.kind.Relay?
    modifies b, b.Upstream()
    ensures Wired(dom, lib) && Agrees(dom, Fired(h, lib, b, w, p).hub)
    ensures effects == Fired(h, lib, b, w, p).effects
    ensures forall s :: s in dom.sets ==> s.catchers == old(s.catchers)
  {
    if w !in b.wrappers {
      effects := [];
      return;
    }
    var ws := b.wrappers[w];
    ghost var h1 := h.(relays := h.relays[b := h.relays[b].(wrappers := b.wrappers[w := ws.(accum := Convert(b.kind.conversion, ws.listener, ws.accum, p).accum)])]);
    var f := AdvanceVia(b, w, p, dom, lib, h);
    var once := OnceOf(lib, b);
    if ws.listener in once && Forwards(b.kind.conversion, p) {
      RemoveVia(b, ws.listener, dom, lib, h1);
    }
    effects := Retarget(f.effects, once);
  }

  /** The conversion of wrapper `w` of relay `b` runs on the wrapper's accumulator. */
  method AdvanceVia(b: Base, w: Key, p: Payload, ghost dom: Domain, ghost lib: Table, ghost h: Hub) returns (f: Firing)
    requires Wired(dom, lib) && Agrees(dom, h) && b in dom.bases && b.kind.Relay? && w in b.wrappers
    modifies b
    ensures Wired(dom, lib)
    ensures var ws := h.relays[b].wrappers[w];
            f == Convert(b.kind.conversion, ws.listener, ws.accum, p) &&
            Agrees(dom, h.(relays := h.relays[b := h.relays[b].(wrappers := h.relays[b].wrappers[w := ws.(accum := f.accum)])]))
    ensures forall s :: s in dom.sets ==> s.catchers == old(s.catchers)
  {
    BaseValid(dom, lib, b);
    f := b.Advance(w, p);
  }

  /** The recorder of cache relay `b` called with `p`, on the cache. */
  method RecordVia(b: Base, p: Payload, ghost dom: Domain, ghost lib: Table, ghost h: Hub)
    requires Wired(dom, lib) && Agrees(dom, h)
    requires b.kind.Relay? && b.kind.replay.Some? && b.kind.replay.value.cache in dom.caches
    modifies b.kind.replay.value.cache
    ensures Wired(dom, lib) && Agrees(dom, Recorded(h, b, p))
    ensures forall s :: s in dom.sets ==> s.catchers == old(s.catchers)
  {
    b.Record(p);
  }

  /** A settler of `pr` called with `p`, on the signals and the promise. */
  method SettleVia(pr: Promisified, resolves: bool, p: Payload, ghost dom: Domain, ghost lib: Table, ghost h: Hub)
    requires Wired(dom, lib) && Agrees(dom, h) && pr.Sets() <= dom.sets && pr.promise in dom.promises
    modifies pr.Sets(), pr.promise
    ensures Wired(dom, lib) && Agrees(dom, Settled(h, pr, resolves, p))
    ensures forall s :: s in dom.sets ==> s.catchers == old(s.catchers)
  {
    if resolves {
      ResolveVia(pr, p, dom, lib, h);
    } else {
      RejectVia(pr, p, dom, lib, h);
    }
  }

  /** `completeResolution(p)` on the signals and the promise. */
  method ResolveVia(pr: Promisified, p: Payload, ghost dom: Domain, ghost lib: Table, ghost h: Hub)
    requires Wired(dom, lib) && Agrees(dom, h) && pr.Sets() <= dom.sets && pr.promise in dom.promises
    modifies pr.Sets(), pr.promise
    ensures Wired(dom, lib) && Agrees(dom, Settled(h, pr, true, p))
    ensures forall s :: s in dom.sets ==> s.catchers == old(s.catchers)
  {
    assert pr.Valid();
    pr.CompleteResolution(p);
  }

  /** `completeRejection(p)` on the signals and the promise. */
  method RejectVia(pr: Promisified, p: Payload, ghost dom: Domain, ghost lib: Table, ghost h: Hub)
    requires Wired(dom, lib) && Agrees(dom, h) && pr.Sets() <= dom.sets && pr.promise in dom.promises
    modifies pr.Sets(), pr.promise
    ensures Wired(dom, lib) && Agrees(dom, Settled(h, pr, false, p))
    ensures forall s :: s in dom.sets ==> s.catchers == old(s.catchers)
  {
    assert pr.Valid();
    pr.CompleteRejection(p);
  }
}
